=== FILE: README.md ===
# Automata laboratory, modelled in Dafny

This project models the core of a small Python collection of automata
exercises and proves properties of the model. It covers:

- the regular-expression engine of `laba4/interpretator.py`:
  - Thompson fragments (`from_symbol`, `concat`, `union`, `kleene_star`) over an arena of states;
  - the epsilon closure and the `match` simulator;
  - the recursive-descent `RegexParser`;
  - the substring search `find_matches`;
  - the Knuth–Morris–Pratt `KMP` class.
- Hopcroft-style minimisation of a DFA (`laba3/minimal_dfa.py`).
- The set-based NFA with the epsilon label `"e"` and substring acceptance (`laba2/NFA.py`).
- The DFA runner `process`, and the row fold of the CSV reader (`laba1/DFA.py`).
- The Turing machine `run` loop (`laba9/machine_turing.py`), with fuel.
- The backtracking grammar recogniser (`laba8/CNFtoPDA.py`), recognition only, with fuel.
- The rule-driven `Fsm` (`laba6/pda.py`), with rules as Dafny function values.

Python objects become immutable values:

- `State` objects are indices into an arena (`seq<State>`). An edge label is `Option<char>`, and `None` is epsilon.
- Mutation becomes a function that returns the new arena or machine.
- Exceptions become `Result`/`Option` values:
  - `ValueError` of the parser is `Failure(...)`.
  - `AttributeError` on `None.isalnum()` at end of input is `Failure(EndOfInput)`.
  - The `IndexError` of a short CSV row is `None`.
  - The `IndexError` of the Turing tape is `Halted(IndexError, ...)`.
- Loops that may not terminate take a `fuel` argument, and running out of fuel is a distinct answer.

Where the code behaves differently from the textbook constructions it is named after, the model follows the code:

- `concat` (`laba4/interpretator.py:22-25`) only adds an epsilon edge and leaves the left accept state final, unlike the textbook Thompson construction. So a concatenation matches every text its left operand matches (`NfaExecutor.ConcatKeepsLeftMatches`): the pattern `ab` matches the text `a` (`RegexScenarios.ConcatAcceptsLeftOperand`), and `a*b` matches every text `a*` matches. `RegexScenarios.MatchersDisagree` shows that `find_matches` and `KMP.search` therefore give different answers for the same pattern and text.
- `_base` (`laba4/interpretator.py:126-142`) calls `isalnum()` on the `None` that `_current_char` returns at the end of the pattern. So the empty pattern and a pattern ending in an alternation bar, such as `a|`, raise `AttributeError` instead of the parser's `ValueError`. The model reports this case as `Failure(EndOfInput)` (`RegexScenarios.ParseTrailingBar`).

Modules (one per file):

| file | module | source |
|---|---|---|
| wrappers.dfy | `Wrappers` | `Option`, `Result` |
| closure.dfy | `Closure` | generic least closure and the stack algorithm of both `_epsilon_closure`s |
| thompson.dfy | `Thompson` | `State`, `NFA` builders |
| nfa_exec.dfy | `NfaExecutor` | `NFAExecutor` |
| union_match.dfy | `UnionMatch` | what `NFA.union` matches under `NFAExecutor.match` |
| regex_parser.dfy | `RegexParser` | `RegexParser` |
| pattern_matcher.dfy | `PatternMatcher` | `NFAPatternMatcher` |
| kmp.dfy | `Kmp` | `KMP` |
| regex_scenarios.dfy | `RegexScenarios` | concrete patterns |
| dfa_minimize.dfy | `DfaMinimize` | `DFA.minimize` |
| substring_nfa.dfy | `SubstringNfa` | laba2 `NFA` |
| dfa_runner.dfy | `DfaRunner` | laba1 `DFA`, `read_dfa_from_csv` |
| turing.dfy | `Turing` | `TuringMachine` |
| grammar_recognizer.dfy | `GrammarRecognizer` | `ParseTreeGenerator` |
| rule_fsm.dfy | `RuleFsm` | `StateMachine`, `Fsm` |

## Model

| member | source | states |
|---|---|---|
| Closure.Close | laba4/interpretator.py:76-87 | The closure contains the seed, stays within the seed plus the known targets, and is closed under the edge relation. |
| Closure.CloseLeast | laba4/interpretator.py:76-87 | The closure is contained in every closed superset of the seed, so it is the least one. |
| Closure.CloseMonotone | laba4/interpretator.py:76-87 | More seed states or more edges never shrink the closure. |
| Closure.CloseUnion | laba4/interpretator.py:76-87 | Closing the union of two seeds gives the union of their closures. |
| Closure.StackClosure | laba4/interpretator.py:78-87 | The pop-and-push worklist returns exactly the least closed superset of its input. |
| Closure.PushTargets | laba4/interpretator.py:82-86 | Pushing the targets of a popped state adds only its targets to the visited set and leaves all of them there. Every stacked state stays visited, every visited state off the stack has its targets visited, and when all targets were already visited the stack is unchanged. |
| Thompson.AddTransition | laba4/interpretator.py:7-12 | Appends the target to the list of the one (state, label) pair, creating the list if absent. No other list and no finality flag changes. |
| Thompson.NewState | laba4/interpretator.py:3-5 | A new state has no transitions and the given finality, and takes the next arena index. |
| Thompson.FromSymbol | laba4/interpretator.py:50-55 | Two fresh states: a non-final start with a single edge on the symbol to a final accept state. |
| Thompson.Concat | laba4/interpretator.py:22-25 | The result runs from the left start to the right accept. No state is added, every finality flag is kept, and the arena stays well formed. |
| Thompson.ConcatEdges | laba4/interpretator.py:24 | The only new edge is epsilon from the left accept to the right start. The left accept keeps its finality. |
| Thompson.Union | laba4/interpretator.py:28-36 | A fresh non-final start and a fresh final accept are added. What the result matches is `UnionMatch.UnionMatches`. |
| Thompson.UnionEdges | laba4/interpretator.py:30-35 | The new start has epsilon edges to both starts, in order. Both old accepts gain epsilon edges to the new accept. Nothing else changes. |
| Thompson.KleeneStar | laba4/interpretator.py:39-47 | A fresh non-final start and a fresh final accept are added. |
| Thompson.KleeneStarEdges | laba4/interpretator.py:41-46 | The new start has epsilon edges to the old start and the new accept. The old accept loops back to the old start and on to the new accept. |
| NfaExecutor.EpsilonClosure | laba4/interpretator.py:76-87 | Contains the seed, is closed under epsilon edges, and stays inside the arena. |
| NfaExecutor.EpsilonClosureLeast | laba4/interpretator.py:76-87 | Below every epsilon-closed superset of the seed. |
| NfaExecutor.EpsilonClosureLoop | laba4/interpretator.py:76-87 | The stack algorithm computes exactly the epsilon closure. |
| NfaExecutor.WalkAppend | laba4/interpretator.py:66-72 | Simulating `u + v` equals simulating `v` from the frontier reached after `u`. |
| NfaExecutor.WalkFromEmpty | laba4/interpretator.py:66-72 | An empty frontier stays empty on any further input. |
| NfaExecutor.WalkMonotone | laba4/interpretator.py:63-74 | A larger arena or a larger frontier never yields a smaller frontier. |
| NfaExecutor.Match | laba4/interpretator.py:63-74 | A text is matched when the frontier it drives the start closure to holds a final state; a match leaves a non-empty frontier. What each builder's fragment matches is fixed by FromSymbolLanguage, ConcatKeepsLeftMatches, UnionMatches and KleeneStarKeepsMatches, and WalkAppend splits the simulation at any point of the text. |
| NfaExecutor.MatchSurvivesExtension | laba4/interpretator.py:63-74 | A text matched by a fragment is still matched after the arena grows around it. |
| NfaExecutor.ConcatKeepsLeftMatches | laba4/interpretator.py:22-25 | Every text the left fragment matches is matched by the concatenation, because its accept state stays final. |
| NfaExecutor.StarStartReachesAccept | laba4/interpretator.py:39-47 | The closure of a starred fragment's start contains its accept state. |
| NfaExecutor.KleeneStarMatchesEmpty | laba4/interpretator.py:39-47 | A starred fragment matches the empty text. |
| NfaExecutor.KleeneStarKeepsMatches | laba4/interpretator.py:38-46 | The star of a fragment matches every text the fragment matches: its start reaches the operand's start by an epsilon edge, and no state loses finality. |
| NfaExecutor.FromSymbolLanguage | laba4/interpretator.py:50-55 | The fragment of symbol `c` matches exactly the one-character text `c`. |
| UnionMatch.StepUnion | laba4/interpretator.py:66-72 | One input symbol from a union of frontiers gives the union of the frontiers each part reaches. |
| UnionMatch.WalkUnion | laba4/interpretator.py:66-72 | Feeding a text from a union of frontiers gives the union of the frontiers each part reaches. |
| UnionMatch.UnionHasShape | laba4/interpretator.py:28-36 | After `union`, symbol edges and old finality flags are unchanged. The fresh start's epsilon targets are exactly both starts, and the fresh accept has none. An old state gains exactly one epsilon target, the fresh accept, and only if it is one of the two accepts. |
| UnionMatch.CloseOld | laba4/interpretator.py:76-87 | In the union arena, the epsilon closure of old states is their old closure, plus the fresh accept exactly when that closure holds one of the two accepts. |
| UnionMatch.TracksFinal | laba4/interpretator.py:74 | A union-arena frontier and the old-arena frontier it shadows agree on holding a final state, given final operand accepts. |
| UnionMatch.TracksStep | laba4/interpretator.py:66-72 | One input symbol keeps a union-arena frontier in step with the old-arena frontier it shadows. |
| UnionMatch.TracksWalk | laba4/interpretator.py:66-72 | Any text keeps a union-arena frontier in step with the old-arena frontier it shadows. |
| UnionMatch.UnionStart | laba4/interpretator.py:65 | The union's start frontier shadows the old closure of both operand starts. |
| UnionMatch.ShapeMatches | laba4/interpretator.py:63-74 | From the union's start, a text ends in a final state exactly when it does from both operand starts together in the old arena. |
| UnionMatch.BothStarts | laba4/interpretator.py:65 | The closure of both operand starts is the two start frontiers side by side. |
| UnionMatch.UnionMatches | laba4/interpretator.py:28-36 | When both operand accept states are final, the union matches a text exactly when one of its operands matches it. |
| UnionMatch.UnionCommutes | laba4/interpretator.py:28-36 | `a` alternation-bar `b` and `b` alternation-bar `a` match the same texts. |
| RegexParser.CurrentChar | laba4/interpretator.py:144-147 | Returns the character under the cursor, or `None` exactly at or past the end. |
| RegexParser.Expression | laba4/interpretator.py:103-109 | On success, consumes a legal stretch of the pattern and builds a valid fragment of the size that stretch dictates. It stops only at the end of the pattern or at `)`. |
| RegexParser.ExpressionRest | laba4/interpretator.py:106-108 | Each alternation bar followed by a term extends the consumed stretch with a union; the loop leaves at the end of the pattern or at `)`. |
| RegexParser.Term | laba4/interpretator.py:111-116 | On success, the fragment of one or more factors, consuming a legal stretch that stops at the end of the pattern, an alternation bar or `)`. |
| RegexParser.TermRest | laba4/interpretator.py:114-115 | Keeps concatenating factors until the end of the pattern, an alternation bar or `)`. |
| RegexParser.Factor | laba4/interpretator.py:118-124 | On success, a base followed by its stars. |
| RegexParser.Stars | laba4/interpretator.py:121-123 | Consumes every `*` that follows; afterwards the cursor is not on a `*`. |
| RegexParser.Base | laba4/interpretator.py:126-142 | At the end the result is `EndOfInput`. On a character that is neither `(` nor alphanumeric it is `InvalidChar` at that position. On success, a consumed stretch. |
| RegexParser.Parse | laba4/interpretator.py:96-101 | Succeeds exactly when the top-level expression parses and reaches the end of the pattern; an expression that stops early stopped at `)`, and the result is `UnexpectedChar` at that position; an expression error is passed on. On success, a valid fragment with a non-final start and a final accept, two states per symbol, alternation bar and star, and a pattern of legal characters. The empty pattern fails with `EndOfInput`. |
| RegexScenarios.ParseStrayCloseParen | laba4/interpretator.py:99-100 | `a)` fails with the trailing-character error at index 1. |
| RegexScenarios.ParseLeadingStar | laba4/interpretator.py:138-142 | `*a` fails with an invalid character `*` at index 0. |
| RegexScenarios.ParseTrailingBar | laba4/interpretator.py:126-138 | `a` followed by a trailing alternation bar reaches a base at the end of input. |
| RegexScenarios.ParseUnclosedParen | laba4/interpretator.py:133-134 | `(a` fails with a missing `)` at index 2. |
| RegexScenarios.ParseEmptyGroup | laba4/interpretator.py:130-142 | `()` fails with an invalid character `)` at index 1. |
| RegexScenarios.ParseDoubleStar | laba4/interpretator.py:121-123 | `a**` is legal; the star is applied twice, giving six states. |
| RegexScenarios.ParseTwoSymbols | laba4/interpretator.py:111-116 | `ab` parses to the concatenation of the fragments of `a` and `b`. |
| RegexScenarios.TwoSymbolsAcceptLeftOperand | laba4/interpretator.py:22-25 | The concatenation of two symbols matches the first symbol alone. |
| RegexScenarios.ConcatAcceptsLeftOperand | laba4/interpretator.py:22-25 | The pattern `ab` matches the text `a`. |
| RegexScenarios.MatchersDisagree | laba4/interpretator.py:157-215 | On the text `a`, `find_matches("ab")` reports index 0, while `ab` does not occur at index 0. |
| PatternMatcher.DeadPrefixNeverMatches | laba4/interpretator.py:168-181 | Once the frontier is empty, no extension of the candidate matches or continues, so the early `break` loses nothing. |
| PatternMatcher.CanContinue | laba4/interpretator.py:172-181 | `_can_continue(w)` holds for every matched `w`, and when it fails no extension `w + v` is matched, so `find_matches` may stop extending the candidate. |
| PatternMatcher.MatchCanContinue | laba4/interpretator.py:165-181 | A matched candidate has a non-empty frontier. |
| PatternMatcher.FindMatches | laba4/interpretator.py:157-170 | The indices are strictly increasing and below `len(text)`. Index `i` is reported iff some non-empty prefix of `text[i:]` is matched. |
| PatternMatcher.MatchFrom | laba4/interpretator.py:163-169 | The inner loop for one start index reports a match iff some non-empty prefix of `text[i:]` is matched, even though it stops early when the frontier dies. |
| Kmp.ComputePrefixFunction | laba4/interpretator.py:189-199 | `pi[i] <= i`, and `pi[i]` is the length of the longest proper border of `pattern[0..i]`. |
| Kmp.Fallback | laba4/interpretator.py:194-195 | Falling back to `pi[q-1]` on a mismatch skips no prefix that could still end at the next position. |
| Kmp.Transition | laba4/interpretator.py:207-211 | Given the longest prefix matched before `text[i]`, the fallback loop and the extension step give the longest prefix of length at most `m` matched after it. |
| Kmp.CompleteMatch | laba4/interpretator.py:212-213 | With `q` the longest matched prefix, the pattern ends at the current position iff `q == m`. |
| Kmp.Restart | laba4/interpretator.py:212-214 | After a full match, `pi[m-1]` is the longest proper prefix still ending there. |
| Kmp.Search | laba4/interpretator.py:201-215 | For a non-empty pattern, returns exactly the start positions of all occurrences, overlapping ones included, in increasing order. |
| DfaMinimize.InitialPartition | laba3/minimal_dfa.py:20-21 | `[finals, states - finals]` partitions the states and keeps finals apart from non-finals, when finals is a non-empty proper subset. |
| DfaMinimize.Preimage | laba3/minimal_dfa.py:26 | `X` is exactly the set of states whose transition on the symbol exists and lands in `A`. |
| DfaMinimize.RemoveFirst | laba3/minimal_dfa.py:37-38 | `work_list.remove(Y)` drops one occurrence and keeps the rest as a multiset. |
| DfaMinimize.UpdateWorkList | laba3/minimal_dfa.py:37-45 | When `Y` was waiting, the new worklist holds the old one with one `Y` exchanged for both halves (as multisets). Otherwise it is the old one with the smaller half appended, the intersection on a tie. No other set enters. |
| DfaMinimize.SplitAll | laba3/minimal_dfa.py:28-49 | The new partition still partitions the states and refines the old one (each group lies inside an old group). Every group lies wholly inside or outside `X`. The group count never drops. An unchanged count means partition and worklist are unchanged. Every new worklist entry was in the worklist or is a group. |
| DfaMinimize.PartitionSize | laba3/minimal_dfa.py:23-49 | A partition never has more groups than there are states; this bounds the loop's lexicographic measure. |
| DfaMinimize.RefinesRespects | laba3/minimal_dfa.py:30-47 | Splitting a partition that keeps finals apart keeps them apart. |
| DfaMinimize.Refine | laba3/minimal_dfa.py:20-49 | The loop terminates. The result partitions the states, refines `[finals, states - finals]`, and no group mixes final and non-final states. |
| DfaMinimize.GroupOf | laba3/minimal_dfa.py:52 | The group found contains the state. |
| DfaMinimize.GroupUnique | laba3/minimal_dfa.py:52 | In a disjoint partition a state has only one group. |
| DfaMinimize.GroupSet | laba3/minimal_dfa.py:51 | The set of groups holds exactly the groups of the partition. |
| DfaMinimize.GroupTransitions | laba3/minimal_dfa.py:56-62 | Each symbol on which the representative's target exists and is non-empty gets an entry from the group, to the group that contains that target. Every other entry, including the group's entries on symbols with a missing or empty target, is left as it was. |
| DfaMinimize.RepresentedTarget | laba3/minimal_dfa.py:58-61 | An entry that follows the representative leads to the group that contains the representative's target. |
| DfaMinimize.RepresentedStep | laba3/minimal_dfa.py:55-62 | After a group is handled it has exactly its representative's transitions, and the groups handled before it keep theirs. |
| DfaMinimize.QuotientDelta | laba3/minimal_dfa.py:55-62 | Each group has some member as representative: the group has an entry on a symbol exactly when that member's target exists and is non-empty, and the entry is the group holding that target. Every entry leads from a group to a group. A group whose members all have a live target has an entry. |
| DfaMinimize.Quotient | laba3/minimal_dfa.py:51-70 | States are the groups; the alphabet is unchanged; the start is the unique group containing the old start; the finals are exactly the groups meeting the old finals; transitions are sound and complete as above, and each group's transitions are those of one of its members. |
| DfaMinimize.QuotientGroups | laba3/minimal_dfa.py:51-53 | The groups are non-empty, pairwise disjoint, cover the states, number at most the states, and respect the finals. |
| DfaMinimize.Minimize | laba3/minimal_dfa.py:18-70 | The end-to-end statement of `minimize`. Groups partition the states and are at most as many as the states. None mixes finals with non-finals. The start is the unique group of the old start, and the finals are the groups meeting the old finals. The alphabet is unchanged. Each group's transitions are those of one of its members: an entry exactly on the symbols where that member's target exists and is non-empty, leading to the group of that target. |
| SubstringNfa.EpsilonClosure | laba2/NFA.py:10-20 | Contains the seed and is closed under edges labelled `"e"`. |
| SubstringNfa.EpsilonClosureLeast | laba2/NFA.py:10-20 | Below every `"e"`-closed superset of the seed. |
| SubstringNfa.EpsilonClosureStack | laba2/NFA.py:10-20 | The stack algorithm returns the least `"e"`-closed superset. |
| SubstringNfa.Step | laba2/NFA.py:32-35 | The new frontier holds every `c`-target of the current one, is closed under "e" edges, and lies inside every "e"-closed set holding those targets: it is exactly their "e"-closure. |
| SubstringNfa.AcceptsFromPrefixes | laba2/NFA.py:31-39 | On non-empty input, the loop with its early exit answers true iff some non-empty prefix drives the frontier to an accept state. The early exit and the final check agree. |
| SubstringNfa.AcceptsFromPosition | laba2/NFA.py:28-39 | `_accepts_from_position(w)` for non-empty `w` iff some prefix `w[..k]`, `k >= 1`, is accepted from the start, so the early `return True` changes no answer. On empty input only the start frontier is inspected. |
| SubstringNfa.AnyStartSpec | laba2/NFA.py:23-25 | Trying start positions from `i` on succeeds iff some substring starting at or after `i` is accepted. |
| SubstringNfa.HeadAccepted | laba2/NFA.py:28-39 | `_accepts_from_position(s[from:])` iff some non-empty substring of `s` starting at `from` is accepted. |
| SubstringNfa.AcceptsSubstring | laba2/NFA.py:22-26 | `accepts_substring(s)` iff some non-empty contiguous substring of `s` is accepted from the start. |
| SubstringNfa.AcceptsSubstringEmpty | laba2/NFA.py:22-26 | `accepts_substring("")` is false, whatever the start state. |
| SubstringNfa.AcceptsSubstringMonotone | laba2/NFA.py:22-39 | Accepting `s` implies accepting `t + s + u`. |
| SubstringNfa.LetterEFollowsEpsilonEdges | laba2/NFA.py:16-34 | Reading the character `e` follows exactly the epsilon edges. |
| SubstringNfa.EpsilonOnlyBehaviour | laba2/NFA.py:22-39 | For a lone epsilon edge into the accept state: the start frontier accepts, yet `"0"` is rejected and `"e"` is accepted. |
| DfaRunner.RunAppend | laba1/DFA.py:12-19 | Folding `u + v` is folding `u`, then `v` from the state reached; a missing transition in `u` is final. |
| DfaRunner.Process | laba1/DFA.py:12-19 | `process` agrees with the reference acceptance. The empty string is accepted iff the start state is final. |
| DfaRunner.AcceptsSplit | laba1/DFA.py:12-19 | Acceptance of `u + v` depends on `u` only through the state it reaches. |
| DfaRunner.MissingTransitionRejects | laba1/DFA.py:15-18 | A missing `(state, symbol)` transition rejects every continuation. |
| DfaRunner.FoldRows | laba1/DFA.py:31-36 | The fold succeeds iff every row has at least three fields. |
| DfaRunner.FoldRowsStates | laba1/DFA.py:33-34 | The states are exactly the first and third fields of the rows. |
| DfaRunner.FoldRowsAlphabet | laba1/DFA.py:35 | The alphabet is exactly the second fields of the rows. |
| DfaRunner.FoldRowsTransitions | laba1/DFA.py:36 | There is an entry exactly for each key some row defines. The entry is the target of the last row with that key. |
| DfaRunner.SplitCommas | laba1/DFA.py:40 | `split(',')` always yields at least one piece. |
| DfaRunner.SplitCommasNoComma | laba1/DFA.py:40 | No piece contains a comma. |
| DfaRunner.JoinSplitCommas | laba1/DFA.py:40 | Joining the pieces with commas gives the line back. |
| DfaRunner.ReadDfa | laba1/DFA.py:22-42 | Succeeds iff the rows are well shaped. The start is the line as typed, and the finals are exactly the comma-separated pieces. |
| Turing.PyIndex | laba9/machine_turing.py:16 | Python list indexing: defined iff `-n <= i < n`, and then it is `i` or `n + i`. |
| Turing.Init | laba9/machine_turing.py:5-12 | The tape is the list of input characters, the head is 0, and the state is the initial one. |
| Turing.Delta | laba9/machine_turing.py:25-27 | The move is +1 iff the move value is `"R"`, and -1 otherwise. |
| Turing.Step | laba9/machine_turing.py:16-28 | A step fails with `IndexError` iff the head is outside `[-len, len)`, and with no transition iff the table lacks the read pair. Otherwise it keeps the tape length, writes only the cell under the head, moves the head by +1 on `"R"` and by -1 otherwise, and takes the action's state. |
| Turing.Run | laba9/machine_turing.py:14-30 | The tape length, table and finals never change. It finishes iff the reached state is final. A machine already final is returned unchanged. |
| Turing.MissingTransitionHalts | laba9/machine_turing.py:17-19 | A missing transition halts with tape, head and state unchanged. |
| Turing.RunFuelMonotone | laba9/machine_turing.py:14-28 | Once `run` has stopped, more fuel gives the same outcome. |
| Turing.RunCompose | laba9/machine_turing.py:14-28 | Running `f1 + f2` steps is running `f1`, then `f2` from where it stopped. |
| Turing.NegativeHeadWraps | laba9/machine_turing.py:16-24 | Head -1 reads and writes the last cell. |
| Turing.HeadPastEndFails | laba9/machine_turing.py:16 | Head `len(tape)` raises `IndexError` before anything is written. |
| Turing.WalkOffTheEnd | laba9/machine_turing.py:14-28 | A right-walking machine on `11` stops at head 2 with `IndexError`. |
| GrammarRecognizer.ParseSymbol | laba8/CNFtoPDA.py:15-20 | Failure hands back the input unchanged; success leaves a suffix of it. |
| GrammarRecognizer.ParseProductions | laba8/CNFtoPDA.py:22-38 | The same promise for the loop over productions. |
| GrammarRecognizer.ParseSequence | laba8/CNFtoPDA.py:27-34 | The same promise for the symbols of one production; an empty production succeeds without consuming. |
| GrammarRecognizer.Parse | laba8/CNFtoPDA.py:10-13 | `parse` is true iff the start symbol succeeds with nothing left, and has no answer iff the start symbol runs out of fuel. A start symbol outside the grammar accepts exactly the input equal to it. |
| GrammarRecognizer.ParseFuelMonotone | laba8/CNFtoPDA.py:10-13 | Once `parse` answers, every larger fuel gives the same answer. |
| GrammarRecognizer.TerminalSpec | laba8/CNFtoPDA.py:16-20 | A symbol outside the grammar succeeds iff it is a prefix of the input. It then consumes exactly its own characters, and needs no fuel. |
| GrammarRecognizer.FirstSuccessWins | laba8/CNFtoPDA.py:22-34 | A success comes from the first production that succeeds; all earlier ones failed. |
| GrammarRecognizer.FirstSuccessAnswers | laba8/CNFtoPDA.py:22-34 | Conversely, when production k succeeds and every earlier production fails and hands back the input, the non-terminal answers with production k's success and remainder. |
| GrammarRecognizer.AllFail | laba8/CNFtoPDA.py:22-38 | If every production fails, the non-terminal fails with its input. |
| GrammarRecognizer.SymbolFuelMonotone | laba8/CNFtoPDA.py:15-38 | Once an answer exists, more fuel does not change it. |
| GrammarRecognizer.ProductionsFuelMonotone | laba8/CNFtoPDA.py:22-38 | The same for the production loop. |
| GrammarRecognizer.SequenceFuelMonotone | laba8/CNFtoPDA.py:27-31 | The same for the symbol loop. |
| GrammarRecognizer.DemoAcceptsAbc | laba8/CNFtoPDA.py:60-74 | The grammar S→AB, A→a, B→bC, C→c recognises `abc`. |
| GrammarRecognizer.CommitRejectsAbc | laba8/CNFtoPDA.py:22-34 | No backtracking: with S→A c, A→a and A→ab (in that order), `abc` is rejected. |
| GrammarRecognizer.LeftRecursionNeverAnswers | laba8/CNFtoPDA.py:22-28 | S→S never answers, whatever the fuel. |
| RuleFsm.NewFsm | laba6/pda.py:24-29 | A new machine is in its initial state, with empty memory and tree. Its end rule answers as the given one, or as the default (-1, empty memory) when none is given. |
| RuleFsm.SetInitStateId | laba6/pda.py:31-36 | Sets both the initial and the current state; nothing else changes. |
| RuleFsm.SetEndRule | laba6/pda.py:38-42 | The new end rule answers every (state id, memory) as the given rule does; without one it answers -1 with empty memory everywhere. Nothing else changes. |
| RuleFsm.Clear | laba6/pda.py:44-50 | Back to the initial state with empty memory and tree. |
| RuleFsm.CheckString | laba6/pda.py:52-56 | True iff every character is in the alphabet. |
| RuleFsm.FindState | laba6/pda.py:66 | Finds the first entry whose `state_id` equals the current id, or reports that none does. |
| RuleFsm.Step | laba6/pda.py:66-73 | The first entry carrying the current state id supplies the rule; its answer's missing keys default to -1, [] and []. With no such entry or no rule, the machine goes to -1 with empty memory and tree. |
| RuleFsm.UnknownStateResets | laba6/pda.py:66-73 | With no matching state, the next configuration is id -1 with empty memory and tree. |
| RuleFsm.Drive | laba6/pda.py:64-73 | The empty string leaves the configuration unchanged; otherwise the last character is applied by one `Step` to the configuration its prefix left, so characters are consumed left to right. |
| RuleFsm.DriveAppend | laba6/pda.py:64-73 | Driving over `u + v` is driving over `u`, then `v`. |
| RuleFsm.Run | laba6/pda.py:58-86 | "invalid string" iff `check_string` fails, leaving memory and tree untouched. A valid run ends cleared. Either way the current state is the initial one, and the configuration is unchanged. |
| RuleFsm.RunVerdict | laba6/pda.py:75-84 | The result is whether `end_rule`'s state equals the end state; the tree is the one built before `clear`. |
| RuleFsm.RunIgnoresCurrent | laba6/pda.py:62 | The prior current state plays no part in a run. |
| RuleFsm.CleanBetweenRuns | laba6/pda.py:44-84 | Every operation keeps a clean machine clean, so memory and tree are empty between runs. |
| RuleFsm.DemoAcceptsAb | laba6/pda.py:90-124 | `ab` is accepted with its two edges. |
| RuleFsm.DemoRejectsAbab | laba6/pda.py:90-124 | `abab` is rejected with an empty tree (state 2 has no entry). |
| RuleFsm.DemoRejectsA | laba6/pda.py:90-124 | `a` is rejected. |
| RuleFsm.DemoRejectsB | laba6/pda.py:90-124 | `b` is rejected, yet records an edge. |
| RuleFsm.DemoRefusesC | laba6/pda.py:63-86 | A character outside the alphabet gives "invalid string". |

## Left out

- laba5/KS-grammar.py: a ply lexer configuration whose behaviour lives in an external regex library.
- Console and file I/O are not modelled, and neither is printing:
  - `input()`, `open`, the CSV readers and the `__main__` blocks.
  - `read_dfa_from_csv` is modelled from already-parsed rows and the two typed lines (`DfaRunner.ReadDfa`).
  - `load_transitions_from_csv` of laba9 is not modelled.
- The anytree parse tree of laba8 (`Node`, `render_tree`, `save_tree_to_csv`): a foreign library and file output; only recognition is modelled.
- `DFA.__str__` of laba3: text formatting.
- The transition table of laba2's demo comes from a module `laba2.test`, which is not part of this model; the demo strings are not replayed.
- The demo script of laba3 is not replayed: the result depends on set iteration order, which the model leaves open.
- `str.isalnum` is approximated by ASCII letters and digits (`RegexParser.IsAlnum`); Unicode categories are not modelled.
- Object identity of `State` objects is replaced by arena indices.
- The quadratic cost of `find_matches` is not a behavioural property.
- Kmp.Search: requires a non-empty pattern. With an empty pattern the source returns `[]` on empty text and raises `IndexError` on any other text.
- Kmp.ComputePrefixFunction: states the prefix function via border lengths, not via the source's array assignment order.
- DfaMinimize.Minimize: the language of the result is not proved equal to the input's, and the final partition is not proved stable under every symbol. Only the partition, start, final and transition facts are proved.
- DfaMinimize.Quotient: the representative whose transitions a group takes is some member, not provably the one `next(iter(group))` picks, because the model leaves set iteration order open as Python does.
- DfaMinimize.Minimize: requires `d.start in d.states` and `TargetsInStates(d)`. With a start state outside every group, `next(...)` at laba3/minimal_dfa.py:52 raises `StopIteration`; with a live target outside every group, the lookup at laba3/minimal_dfa.py:61 raises `StopIteration`. Those raising inputs are excluded, not modelled as errors. `TargetsInStates` also constrains the live targets of every state, where the source looks up only the representative's; for a group whose members disagree, whether Python raises depends on which member `next(iter(group))` picks.
- DfaMinimize.Quotient: requires `d.start in d.states` and `TargetsInStates(d)`, for the same reason as `DfaMinimize.Minimize`. The `StopIteration` that laba3/minimal_dfa.py:52 and laba3/minimal_dfa.py:61 raise for a start or live target outside every group is excluded, not modelled.
- RuleFsm.NewFsm: every argument is passed explicitly. The defaults of `Fsm.__init__` (`alphabet=None`, `init_state_id=0`, `end_state_id=0`, `states=None`, laba6/pda.py:24-25) are not modelled, and neither is the default `string=''` of `run` (laba6/pda.py:58). A caller that would pass `None` for the alphabet or the states passes the empty sequence the source substitutes for it.
- DfaMinimize.Refine: the order in which `self.alphabet` is iterated is left open, and the caller must give a non-empty proper subset of finals. With any other finals, Python raises on an empty group in `next(iter(group))`.
- RegexParser.Base: reaching a base at the end of the pattern is the error value `EndOfInput`, not a Python `AttributeError`.
- RegexScenarios.ParseDoubleStar: proves that `a**` is legal and its size. That `a**` matches the same texts as `a*` is not proved.
- Turing.Run: uses fuel. An infinite run appears as `OutOfFuel` for every fuel, and the printed messages are not modelled.
- GrammarRecognizer.ParseSymbol: uses fuel counting nested non-terminal expansions. A grammar that recurses without consuming input answers `None` for every fuel.
- RuleFsm.Run: memory items are characters and tree items are `(from, to, char)` triples. The source allows any Python values there.
- RuleFsm.RunIgnoresCurrent: states equality of the verdict, memory and tree. The rest of the machine is covered by `RuleFsm.Run`'s field-by-field ensures, because machines that hold functions cannot be compared with `==`.

=== FILE: closure.dfy ===
/**
 * Closure of a set of states under a successor relation, as used for the
 * epsilon-closure of both NFA simulators. The successor relation is given as a
 * function from a state to the ordered list of its epsilon targets; `univ` is a
 * finite set that contains every target, which bounds the fixpoint iteration.
 */
module Closure {

  /** Every successor of every state lies in `univ`. */
  ghost predicate Bounded<S(!new)>(succ: S -> seq<S>, univ: set<S>)
  {
    forall s, i :: 0 <= i < |succ(s)| ==> succ(s)[i] in univ
  }

  /** `c` contains the successors of each of its members. */
  ghost predicate Closed<S(!new)>(succ: S -> seq<S>, c: set<S>)
  {
    forall s, i :: s in c && 0 <= i < |succ(s)| ==> succ(s)[i] in c
  }

  /** Every edge of `succ1` is also an edge of `succ2`. */
  ghost predicate SubRelation<S(!new)>(succ1: S -> seq<S>, succ2: S -> seq<S>)
  {
    forall s, i :: 0 <= i < |succ1(s)| ==> succ1(s)[i] in succ2(s)
  }

  /** The one-step successors of the members of `c`. */
  function Successors<S(!new)>(succ: S -> seq<S>, c: set<S>): (r: set<S>)
    ensures forall s, i :: s in c && 0 <= i < |succ(s)| ==> succ(s)[i] in r
    ensures forall t :: t in r ==> exists s, i :: s in c && 0 <= i < |succ(s)| && succ(s)[i] == t
  {
    set s, i | s in c && 0 <= i < |succ(s)| :: succ(s)[i]
  }

  lemma ProperSubsetSmaller<S(!new)>(a: set<S>, b: set<S>)
    requires a < b
    ensures |a| < |b|
  {
    var d := b - a;
    assert d != {};
    assert b == a + d && a * d == {};
    assert |b| == |a| + |d|;
  }

  lemma GrowShrinksRemainder<S(!new)>(univ: set<S>, c: set<S>, next: set<S>)
    requires c < next && next - c <= univ
    ensures |univ - next| < |univ - c|
  {
    ProperSubsetSmaller(univ - next, univ - c);
  }

  /**
   * The least superset of `c` closed under `succ`, computed by adding all
   * successors round by round until nothing new appears.
   */
  function Close<S(!new)>(succ: S -> seq<S>, univ: set<S>, c: set<S>): (r: set<S>)
    requires Bounded(succ, univ)
    ensures c <= r <= c + univ
    ensures Closed(succ, r)
    decreases |univ - c|
  {
    var next := c + Successors(succ, c);
    if next == c then c
    else
      GrowShrinksRemainder(univ, c, next);
      Close(succ, univ, next)
  }

  /** `Close` is below every closed superset of its seed: it is the least one. */
  lemma {:induction false} CloseLeast<S(!new)>(succ: S -> seq<S>, univ: set<S>, c: set<S>, t: set<S>)
    requires Bounded(succ, univ)
    requires c <= t && Closed(succ, t)
    ensures Close(succ, univ, c) <= t
    decreases |univ - c|
  {
    var next := c + Successors(succ, c);
    if next != c {
      GrowShrinksRemainder(univ, c, next);
      CloseLeast(succ, univ, next, t);
    }
  }

  /** A set that is already closed is its own closure. */
  lemma CloseOfClosed<S(!new)>(succ: S -> seq<S>, univ: set<S>, c: set<S>)
    requires Bounded(succ, univ)
    requires Closed(succ, c)
    ensures Close(succ, univ, c) == c
  {
    CloseLeast(succ, univ, c, c);
  }

  /** Closing is monotone in the seed and in the edge relation. */
  lemma CloseMonotone<S(!new)>(succ1: S -> seq<S>, univ1: set<S>, c1: set<S>,
                         succ2: S -> seq<S>, univ2: set<S>, c2: set<S>)
    requires Bounded(succ1, univ1) && Bounded(succ2, univ2)
    requires SubRelation(succ1, succ2)
    requires c1 <= c2
    ensures Close(succ1, univ1, c1) <= Close(succ2, univ2, c2)
  {
    var t := Close(succ2, univ2, c2);
    forall s, i | s in t && 0 <= i < |succ1(s)|
      ensures succ1(s)[i] in t
    {
      assert succ1(s)[i] in succ2(s);
      var j :| 0 <= j < |succ2(s)| && succ2(s)[j] == succ1(s)[i];
    }
    CloseLeast(succ1, univ1, c1, t);
  }

  /** The successors of a union are the successors of either part. */
  lemma SuccessorsUnion<S(!new)>(succ: S -> seq<S>, x: set<S>, y: set<S>)
    ensures Successors(succ, x + y) == Successors(succ, x) + Successors(succ, y)
  {
  }

  /** Closing a union closes each part: the closure distributes over `+`. */
  lemma CloseUnion<S(!new)>(succ: S -> seq<S>, univ: set<S>, x: set<S>, y: set<S>)
    requires Bounded(succ, univ)
    ensures Close(succ, univ, x + y) == Close(succ, univ, x) + Close(succ, univ, y)
  {
    CloseMonotone(succ, univ, x, succ, univ, x + y);
    CloseMonotone(succ, univ, y, succ, univ, x + y);
    CloseLeast(succ, univ, x + y, Close(succ, univ, x) + Close(succ, univ, y));
  }

  /**
   * Every state on the stack is in `closure`, and the successors of every
   * state of `closure` that is neither on the stack nor in `except` are in
   * `closure` too.
   */
  ghost predicate Pending<S(!new)>(succ: S -> seq<S>, closure: set<S>, stack: seq<S>, except: set<S>)
  {
    && (forall k :: 0 <= k < |stack| ==> stack[k] in closure)
    && (forall q, i :: q in closure && q !in stack && q !in except && 0 <= i < |succ(q)| ==> succ(q)[i] in closure)
  }

  /**
   * One pop of `_epsilon_closure`: every target of `s` not seen yet joins the
   * closure and is pushed; nothing else joins.
   */
  method PushTargets<S(!new)>(succ: S -> seq<S>, s: S, closure: set<S>, stack: seq<S>)
    returns (closure': set<S>, stack': seq<S>)
    requires Pending(succ, closure, stack, {s})
    ensures closure <= closure'
    ensures forall t :: t in closure' ==> t in closure || t in succ(s)
    ensures forall i :: 0 <= i < |succ(s)| ==> succ(s)[i] in closure'
    ensures Pending(succ, closure', stack', {s})
    ensures closure' == closure ==> stack' == stack
  {
    closure', stack' := closure, stack;
    var targets := succ(s);
    for j := 0 to |targets|
      invariant closure <= closure'
      invariant forall t :: t in closure' ==> t in closure || t in targets
      invariant forall k :: 0 <= k < j ==> targets[k] in closure'
      invariant Pending(succ, closure', stack', {s})
      invariant closure' == closure ==> stack' == stack
    {
      if targets[j] !in closure' {
        closure' := closure' + {targets[j]};
        stack' := stack' + [targets[j]];
      }
    }
  }

  /**
   * After a pop, the closure stays inside every closed `least` and every
   * bound `bound` that held it before, and only the stack is left to visit.
   */
  lemma PopStep<S(!new)>(succ: S -> seq<S>, univ: set<S>, bound: set<S>, least: set<S>, s: S,
                         closure0: set<S>, closure: set<S>, stack: seq<S>)
    requires Bounded(succ, univ) && univ <= bound && Closed(succ, least)
    requires s in closure0 && closure0 <= least && closure0 <= bound
    requires forall t :: t in closure ==> t in closure0 || t in succ(s)
    requires forall i :: 0 <= i < |succ(s)| ==> succ(s)[i] in closure
    requires Pending(succ, closure, stack, {s})
    ensures closure <= least && closure <= bound
    ensures Pending(succ, closure, stack, {})
  {
    forall t | t in closure
      ensures t in least && t in bound
    {
      if t !in closure0 {
        var i :| 0 <= i < |succ(s)| && succ(s)[i] == t;
      }
    }
  }

  /**
   * The worklist algorithm of the source: every seed state goes on a stack;
   * popping a state pushes each of its epsilon targets not seen before.
   * It computes exactly the least closed superset of the seed.
   */
  method StackClosure<S(!new)>(succ: S -> seq<S>, univ: set<S>, states: set<S>) returns (closure: set<S>)
    requires Bounded(succ, univ)
    ensures states <= closure && Closed(succ, closure)
    ensures closure == Close(succ, univ, states)
  {
    // stack := list(states), in whatever order the set yields its members
    var stack: seq<S> := [];
    var rest := states;
    while rest != {}
      invariant rest <= states
      invariant forall k :: 0 <= k < |stack| ==> stack[k] in states
      invariant forall s :: s in states && s !in rest ==> s in stack
      decreases rest
    {
      var s :| s in rest;
      stack := stack + [s];
      rest := rest - {s};
    }
    closure := states;
    ghost var least := Close(succ, univ, states);
    while |stack| > 0
      invariant states <= closure <= least
      invariant closure <= states + univ
      invariant Pending(succ, closure, stack, {})
      decreases |states + univ - closure|, |stack|
    {
      var s := stack[|stack| - 1];
      stack := stack[..|stack| - 1];
      ghost var closure0 := closure;
      closure, stack := PushTargets(succ, s, closure, stack);
      PopStep(succ, univ, states + univ, least, s, closure0, closure, stack);
      if closure != closure0 {
        GrowShrinksRemainder(states + univ, closure0, closure);
      }
    }
    CloseLeast(succ, univ, states, closure);
  }
}

=== FILE: dfa_minimize.dfy ===
/**
 * `DFA.minimize` of laba3/minimal_dfa.py: Hopcroft partition refinement
 * followed by the quotient automaton whose states are the groups of the
 * final partition.
 *
 * The partition and the work list are lists of groups, as in the source.
 * Python iterates the alphabet and picks a group's representative in an
 * unspecified order; here both are nondeterministic choices, so every
 * contract holds whatever order the interpreter uses.
 */
module DfaMinimize {

  /**
   * The input automaton. A transition whose target is the empty string is
   * "falsy" and ignored by the quotient construction, exactly as `if target:`
   * ignores it.
   */
  datatype Dfa = Dfa(
    states: set<string>,
    alphabet: set<string>,
    delta: map<(string, string), string>,
    start: string,
    finals: set<string>)

  /** The minimised automaton: its states are groups of the input's states. */
  datatype MinDfa = MinDfa(
    states: set<set<string>>,
    alphabet: set<string>,
    delta: map<(set<string>, string), set<string>>,
    start: set<string>,
    finals: set<set<string>>)

  type Partition = seq<set<string>>

  /** The states covered by a list of groups. */
  function Union(p: Partition): set<string>
  {
    if p == [] then {} else Union(p[..|p| - 1]) + p[|p| - 1]
  }

  /** A state is covered exactly when some group holds it. */
  lemma {:induction false} UnionMembers(p: Partition)
    ensures forall i :: 0 <= i < |p| ==> p[i] <= Union(p)
    ensures forall s :: s in Union(p) ==> exists i :: 0 <= i < |p| && s in p[i]
    decreases |p|
  {
    if p != [] {
      var n := |p| - 1;
      UnionMembers(p[..n]);
      forall s | s in Union(p)
        ensures exists i :: 0 <= i < |p| && s in p[i]
      {
        if s !in p[n] {
          var i :| 0 <= i < n && s in p[..n][i];
          assert s in p[i];
        }
      }
      forall i | 0 <= i < |p|
        ensures p[i] <= Union(p)
      {
        if i < n {
          assert p[..n][i] == p[i];
        }
      }
    }
  }

  ghost predicate Disjoint(p: Partition)
  {
    forall i, j :: 0 <= i < j < |p| ==> p[i] * p[j] == {}
  }

  /** `p` splits `u` into non-empty, pairwise disjoint groups. */
  ghost predicate IsPartition(p: Partition, u: set<string>)
  {
    && (forall i :: 0 <= i < |p| ==> p[i] != {})
    && Disjoint(p)
    && Union(p) == u
  }

  /** No group mixes members and non-members of `f`. */
  ghost predicate Respects(p: Partition, f: set<string>)
  {
    forall i :: 0 <= i < |p| ==> p[i] <= f || p[i] * f == {}
  }

  /** `g` lies inside some group of `p`. */
  ghost predicate Inside(g: set<string>, p: Partition)
  {
    exists j :: 0 <= j < |p| && g <= p[j]
  }

  /** Every group of `p'` lies inside a group of `p`: groups were only split, never merged. */
  ghost predicate Refines(p': Partition, p: Partition)
  {
    forall i :: 0 <= i < |p'| ==> Inside(p'[i], p)
  }

  lemma UnionAppend(p: Partition, g: set<string>)
    ensures Union(p + [g]) == Union(p) + g
  {
    assert (p + [g])[..|p|] == p;
  }

  lemma UnionPrefix(p: Partition, k: nat)
    requires k < |p|
    ensures Union(p[..k + 1]) == Union(p[..k]) + p[k]
  {
    assert p[..k + 1] == p[..k] + [p[k]];
    UnionAppend(p[..k], p[k]);
  }

  /** In a disjoint list, a group shares nothing with the groups before it. */
  lemma DisjointFromPrefix(p: Partition, k: nat)
    requires Disjoint(p) && k < |p|
    ensures p[k] * Union(p[..k]) == {}
  {
    UnionMembers(p[..k]);
    forall s | s in Union(p[..k])
      ensures s !in p[k]
    {
      var i :| 0 <= i < k && s in p[..k][i];
      assert p[..k][i] == p[i];
      assert p[i] * p[k] == {};
      assert s !in p[i] * p[k];
    }
  }

  /** Adding a fresh non-empty group keeps a partition a partition. */
  lemma AppendGroup(p: Partition, u: set<string>, g: set<string>)
    requires IsPartition(p, u) && g != {} && g * u == {}
    ensures IsPartition(p + [g], u + g)
  {
    UnionAppend(p, g);
    UnionMembers(p);
    forall i, j | 0 <= i < j < |p + [g]|
      ensures (p + [g])[i] * (p + [g])[j] == {}
    {
      if j == |p| {
        assert p[i] <= u;
      }
    }
  }

  /** A partition of `u` into non-empty groups has at most `|u|` groups. */
  lemma {:induction false} PartitionSize(p: Partition, u: set<string>)
    requires IsPartition(p, u)
    ensures |p| <= |u|
    decreases |p|
  {
    if p != [] {
      var n := |p| - 1;
      var rest := p[..n];
      DisjointFromPrefix(p, n);
      assert u == Union(rest) + p[n];
      forall s | s in Union(rest)
        ensures s !in p[n]
      {
        assert s !in p[n] * Union(rest);
      }
      assert Union(rest) == u - p[n];
      assert IsPartition(rest, u - p[n]);
      PartitionSize(rest, u - p[n]);
      assert |u - p[n]| == |u| - |p[n]|;
    }
  }

  lemma RefinesTrans(p3: Partition, p2: Partition, p1: Partition)
    requires Refines(p3, p2) && Refines(p2, p1)
    ensures Refines(p3, p1)
  {
    forall i | 0 <= i < |p3|
      ensures Inside(p3[i], p1)
    {
      assert Inside(p3[i], p2);
      var j :| 0 <= j < |p2| && p3[i] <= p2[j];
      assert Inside(p2[j], p1);
      var k :| 0 <= k < |p1| && p2[j] <= p1[k];
      assert p3[i] <= p1[k];
    }
  }

  lemma RefinesRespects(p': Partition, p: Partition, f: set<string>)
    requires Refines(p', p) && Respects(p, f)
    ensures Respects(p', f)
  {
    forall i | 0 <= i < |p'|
      ensures p'[i] <= f || p'[i] * f == {}
    {
      assert Inside(p'[i], p);
      var j :| 0 <= j < |p| && p'[i] <= p[j];
    }
  }

  /** `list.remove`: drop the first element equal to `y`. */
  function RemoveFirst(w: seq<set<string>>, y: set<string>): (r: seq<set<string>>)
    requires y in w
    ensures |r| == |w| - 1
    ensures multiset(r) + multiset{y} == multiset(w)
    ensures forall g :: g in r ==> g in w
  {
    assert w == [w[0]] + w[1..];
    if w[0] == y then w[1..]
    else
      [w[0]] + RemoveFirst(w[1..], y)
  }

  /** `X`: the states whose transition on `a` leads into `target`; a missing transition leads nowhere. */
  function Preimage(d: Dfa, a: string, target: set<string>): (x: set<string>)
    ensures forall s :: s in x <==> s in d.states && (s, a) in d.delta && d.delta[(s, a)] in target
  {
    set s | s in d.states && (s, a) in d.delta && d.delta[(s, a)] in target
  }

  /** No group straddles `x`: each lies inside it or outside it. */
  ghost predicate Separated(p: Partition, x: set<string>)
  {
    forall i :: 0 <= i < |p| ==> p[i] <= x || p[i] * x == {}
  }

  /** After `k` groups of `p` were visited, `q` splits them by `x` into groups of `p`. */
  ghost predicate PassInv(p: Partition, x: set<string>, k: nat, q: Partition)
  {
    && k <= |p|
    && IsPartition(q, Union(p[..k]))
    && Refines(q, p)
    && Separated(q, x)
    && k <= |q|
  }

  /** Visiting a group that `x` cuts: both halves join the new partition. */
  lemma PassSplit(p: Partition, u: set<string>, x: set<string>, k: nat, q: Partition)
    requires IsPartition(p, u) && k < |p| && PassInv(p, x, k, q)
    requires p[k] * x != {} && p[k] - x != {}
    ensures PassInv(p, x, k + 1, q + [p[k] * x, p[k] - x])
  {
    var y := p[k];
    var inter, diff := y * x, y - x;
    UnionPrefix(p, k);
    DisjointFromPrefix(p, k);
    var u0 := Union(p[..k]);
    AppendGroup(q, u0, inter);
    AppendGroup(q + [inter], u0 + inter, diff);
    assert q + [inter] + [diff] == q + [inter, diff];
    assert u0 + inter + diff == u0 + y;
    var q' := q + [inter, diff];
    forall i | 0 <= i < |q'|
      ensures Inside(q'[i], p)
    {
      if i >= |q| {
        assert q'[i] <= p[k];
      } else {
        assert Inside(q[i], p);
      }
    }
  }

  /** Visiting a group that `x` does not cut: it joins the new partition whole. */
  lemma PassKeep(p: Partition, u: set<string>, x: set<string>, k: nat, q: Partition)
    requires IsPartition(p, u) && k < |p| && PassInv(p, x, k, q)
    requires !(p[k] * x != {} && p[k] - x != {})
    ensures PassInv(p, x, k + 1, q + [p[k]])
  {
    UnionPrefix(p, k);
    DisjointFromPrefix(p, k);
    AppendGroup(q, Union(p[..k]), p[k]);
    var q' := q + [p[k]];
    forall i | 0 <= i < |q'|
      ensures Inside(q'[i], p)
    {
      if i == |q| {
        assert q'[i] <= p[k];
      } else {
        assert Inside(q[i], p);
      }
    }
    if p[k] * x != {} {
      forall s | s in p[k]
        ensures s in x
      {
        assert s !in p[k] - x;
      }
    }
  }

  /**
   * The work-list update for a group `y` split into `inter` and `diff`: if
   * `y` is waiting it is replaced by both halves, otherwise the smaller half
   * joins (the intersection on a tie).
   */
  function UpdateWorkList(w: seq<set<string>>, y: set<string>, inter: set<string>, diff: set<string>): (w': seq<set<string>>)
    ensures y in w ==> multiset(w') + multiset{y} == multiset(w) + multiset{inter, diff}
    ensures y !in w ==> w' == w + [if |inter| <= |diff| then inter else diff]
    ensures forall g :: g in w' ==> g in w || g == inter || g == diff
  {
    if y in w then RemoveFirst(w, y) + [inter, diff]
    else if |inter| <= |diff| then w + [inter]
    else w + [diff]
  }

  /**
   * One pass of `for Y in partition`: every group that `x` cuts is replaced
   * by its two halves, in place; the work list trades `Y` for both halves if
   * it held `Y`, and otherwise gains the smaller half (the intersection on a tie).
   * Afterwards no group straddles `x`.
   */
  method SplitAll(p: Partition, w: seq<set<string>>, x: set<string>, ghost u: set<string>)
    returns (p': Partition, w': seq<set<string>>)
    requires IsPartition(p, u)
    ensures IsPartition(p', u)
    ensures Refines(p', p)
    ensures Separated(p', x)
    ensures |p| <= |p'|
    ensures |p'| == |p| ==> p' == p && w' == w
    ensures forall g :: g in w' ==> g in w || g in p'
  {
    p' := [];
    w' := w;
    for k := 0 to |p|
      invariant SplitInv(p, w, x, k, p', w')
    {
      var y := p[k];
      var inter, diff := y * x, y - x;
      if inter != {} && diff != {} {
        SplitCut(p, u, w, x, k, p', w');
        p' := p' + [inter, diff];
        w' := UpdateWorkList(w', y, inter, diff);
      } else {
        SplitKeep(p, u, w, x, k, p', w');
        p' := p' + [y];
      }
    }
    SplitDone(p, u, w, x, p', w');
  }

  /**
   * The loop invariant of `SplitAll` after `k` groups: the pass invariant;
   * while nothing was cut, partition and work list are as they were; and
   * every work-list entry was there before or is a group.
   */
  ghost predicate SplitInv(p: Partition, w: seq<set<string>>, x: set<string>, k: nat,
                           q: Partition, wq: seq<set<string>>)
  {
    && PassInv(p, x, k, q)
    && (|q| == k ==> q == p[..k] && wq == w)
    && (forall g :: g in wq ==> g in w || g in q)
  }

  lemma SplitCut(p: Partition, u: set<string>, w: seq<set<string>>, x: set<string>, k: nat,
                 q: Partition, wq: seq<set<string>>)
    requires IsPartition(p, u) && k < |p| && SplitInv(p, w, x, k, q, wq)
    requires p[k] * x != {} && p[k] - x != {}
    ensures SplitInv(p, w, x, k + 1, q + [p[k] * x, p[k] - x], UpdateWorkList(wq, p[k], p[k] * x, p[k] - x))
  {
    PassSplit(p, u, x, k, q);
  }

  lemma SplitKeep(p: Partition, u: set<string>, w: seq<set<string>>, x: set<string>, k: nat,
                  q: Partition, wq: seq<set<string>>)
    requires IsPartition(p, u) && k < |p| && SplitInv(p, w, x, k, q, wq)
    requires !(p[k] * x != {} && p[k] - x != {})
    ensures SplitInv(p, w, x, k + 1, q + [p[k]], wq)
  {
    PassKeep(p, u, x, k, q);
    assert p[..k + 1] == p[..k] + [p[k]];
  }

  lemma SplitDone(p: Partition, u: set<string>, w: seq<set<string>>, x: set<string>,
                  q: Partition, wq: seq<set<string>>)
    requires IsPartition(p, u) && SplitInv(p, w, x, |p|, q, wq)
    ensures IsPartition(q, u) && Refines(q, p) && Separated(q, x) && |p| <= |q|
    ensures |q| == |p| ==> q == p && wq == w
    ensures forall g :: g in wq ==> g in w || g in q
  {
    assert p[..|p|] == p;
  }

  /** The initial partition `[finals, states - finals]`. */
  lemma InitialPartition(d: Dfa)
    requires d.finals != {} && d.finals < d.states
    ensures IsPartition([d.finals, d.states - d.finals], d.states)
    ensures Respects([d.finals, d.states - d.finals], d.finals)
    ensures Refines([d.finals, d.states - d.finals], [d.finals, d.states - d.finals])
  {
    var p0 := [d.finals, d.states - d.finals];
    assert p0[..1] == [d.finals];
    assert Union([d.finals]) == Union([]) + d.finals;
    assert Union(p0) == d.states;
    assert Inside(p0[0], p0) && Inside(p0[1], p0);
    assert d.states - d.finals != {} by {
      var s :| s in d.states && s !in d.finals;
    }
  }

  /**
   * The refinement loop. Starting from `[finals, states - finals]` with
   * `finals` on the work list, each popped splitter and each symbol split the
   * groups by the preimage of the splitter. The loop terminates: every
   * iteration either adds a group (at most `|states|` of them) or shrinks the
   * work list.
   */
  method Refine(d: Dfa) returns (p: Partition)
    requires d.finals != {} && d.finals < d.states
    ensures IsPartition(p, d.states)
    ensures Respects(p, d.finals)
    ensures Refines(p, [d.finals, d.states - d.finals])
  {
    var p0 := [d.finals, d.states - d.finals];
    InitialPartition(d);
    p := p0;
    var w := [d.finals];
    PartitionSize(p, d.states);
    while w != []
      invariant IsPartition(p, d.states)
      invariant Refines(p, p0)
      invariant |p| <= |d.states|
      decreases |d.states| - |p|, |w|
    {
      var a := w[|w| - 1];
      w := w[..|w| - 1];
      ghost var pBefore, wAfterPop := p, w;
      var symbols := d.alphabet;
      while symbols != {}
        invariant IsPartition(p, d.states)
        invariant Refines(p, p0)
        invariant |p| <= |d.states|
        invariant |pBefore| <= |p|
        invariant |p| == |pBefore| ==> w == wAfterPop
        decreases symbols
      {
        var sym :| sym in symbols;
        symbols := symbols - {sym};
        var x := Preimage(d, sym, a);
        var p', w' := SplitAll(p, w, x, d.states);
        RefinesTrans(p', p, p0);
        PartitionSize(p', d.states);
        p, w := p', w';
      }
    }
    RefinesRespects(p, p0, d.finals);
  }

  /** The transition of `q` on `a` is present and its target is not the empty string. */
  predicate Live(d: Dfa, q: string, a: string)
  {
    (q, a) in d.delta && d.delta[(q, a)] != ""
  }

  /** Every member of `g` has a live transition on `a`. */
  ghost predicate AllLive(d: Dfa, g: set<string>, a: string)
  {
    forall q :: q in g ==> Live(d, q, a)
  }

  /** Every live transition of a state leads to a state. */
  ghost predicate TargetsInStates(d: Dfa)
  {
    forall q, a :: q in d.states && a in d.alphabet && Live(d, q, a) ==> d.delta[(q, a)] in d.states
  }

  /** The first group, from index `i` on, that contains `q`. */
  function GroupFrom(p: Partition, q: string, i: nat): (g: set<string>)
    requires i <= |p| && exists j :: i <= j < |p| && q in p[j]
    ensures g in p && q in g
    decreases |p| - i
  {
    if q in p[i] then p[i] else GroupFrom(p, q, i + 1)
  }

  /** `next(g for g in partition if q in g)`. */
  function GroupOf(p: Partition, q: string): (g: set<string>)
    requires q in Union(p)
    ensures g in p && q in g
  {
    UnionMembers(p);
    GroupFrom(p, q, 0)
  }

  /** In a partition the group containing a state is unique. */
  lemma GroupUnique(p: Partition, q: string, g: set<string>, h: set<string>)
    requires Disjoint(p) && g in p && h in p && q in g && q in h
    ensures g == h
  {
    var i :| 0 <= i < |p| && p[i] == g;
    var j :| 0 <= j < |p| && p[j] == h;
    forall x, y | 0 <= x < y < |p|
      ensures !(q in p[x] && q in p[y])
    {
      assert p[x] * p[y] == {};
      assert q !in p[x] * p[y];
    }
  }

  /** The final groups are exactly the groups that meet `f`. */
  ghost predicate FinalGroups(finals: set<set<string>>, groups: set<set<string>>, f: set<string>)
  {
    forall g :: g in finals <==> g in groups && g * f != {}
  }

  /** `{frozenset(group) for group in partition}`. */
  method GroupSet(p: Partition) returns (states: set<set<string>>)
    ensures forall g :: g in states <==> g in p
    ensures |states| <= |p|
  {
    states := {};
    for i := 0 to |p|
      invariant forall g :: g in states <==> g in p[..i]
      invariant |states| <= i
    {
      states := states + {p[i]};
      assert p[..i + 1] == p[..i] + [p[i]];
    }
    assert p[..|p|] == p;
  }

  /**
   * Every entry of the quotient transition map goes from a group, on a symbol
   * of the alphabet, to a group that holds the live target of one of the
   * source group's members.
   */
  ghost predicate DeltaSound(d: Dfa, p: Partition, delta: map<(set<string>, string), set<string>>)
  {
    forall g, a :: (g, a) in delta ==>
      && g in p && a in d.alphabet && delta[(g, a)] in p
      && exists q :: q in g && Live(d, q, a) && d.delta[(q, a)] in delta[(g, a)]
  }

  /** Adding a sound entry keeps the transition map sound. */
  lemma DeltaSoundUpdate(d: Dfa, p: Partition, delta: map<(set<string>, string), set<string>>,
                         group: set<string>, a: string, q: string, tg: set<string>)
    requires DeltaSound(d, p, delta)
    requires group in p && a in d.alphabet && tg in p
    requires q in group && Live(d, q, a) && d.delta[(q, a)] in tg
    ensures DeltaSound(d, p, delta[(group, a) := tg])
  {
    var delta' := delta[(group, a) := tg];
    forall g, b | (g, b) in delta'
      ensures && g in p && b in d.alphabet && delta'[(g, b)] in p
              && exists r :: r in g && Live(d, r, b) && d.delta[(r, b)] in delta'[(g, b)]
    {
      if (g, b) != (group, a) {
        assert (g, b) in delta;
        var r :| r in g && Live(d, r, b) && d.delta[(r, b)] in delta[(g, b)];
      }
    }
  }

  /**
   * The inner `for symbol in self.alphabet` for one group and its
   * representative: an entry for each symbol on which the representative's
   * transition is live, to the group of its target.
   */
  method GroupTransitions(d: Dfa, p: Partition, group: set<string>, rep: string,
                          delta: map<(set<string>, string), set<string>>)
    returns (delta': map<(set<string>, string), set<string>>)
    requires Union(p) == d.states && TargetsInStates(d)
    requires group in p && group <= d.states && rep in group
    requires DeltaSound(d, p, delta)
    ensures DeltaSound(d, p, delta')
    ensures forall a :: a in d.alphabet && Live(d, rep, a) ==>
      (group, a) in delta' && delta'[(group, a)] == GroupOf(p, d.delta[(rep, a)])
    ensures FrameOutside(d, group, rep, delta, delta')
  {
    delta' := delta;
    var symbols := d.alphabet;
    while symbols != {}
      invariant symbols <= d.alphabet
      invariant DeltaSound(d, p, delta')
      invariant forall a :: a in d.alphabet - symbols && Live(d, rep, a) ==>
        (group, a) in delta' && delta'[(group, a)] == GroupOf(p, d.delta[(rep, a)])
      invariant forall g, b :: !(g == group && b in d.alphabet - symbols && Live(d, rep, b)) ==>
        ((g, b) in delta' <==> (g, b) in delta) && ((g, b) in delta ==> delta'[(g, b)] == delta[(g, b)])
      decreases symbols
    {
      var a :| a in symbols;
      symbols := symbols - {a};
      if Live(d, rep, a) {
        var target := d.delta[(rep, a)];
        var tg := GroupOf(p, target);
        DeltaSoundUpdate(d, p, delta', group, a, rep, tg);
        delta' := delta'[(group, a) := tg];
      }
    }
  }

  /** The groups before `i` whose members all have a live target on a symbol have an entry on it. */
  ghost predicate CoveredUpTo(d: Dfa, p: Partition, i: nat, delta: map<(set<string>, string), set<string>>)
    requires i <= |p|
  {
    forall j, a :: 0 <= j < i && a in d.alphabet && AllLive(d, p[j], a) ==> (p[j], a) in delta
  }

  /**
   * Handling group `i` keeps the entries of the groups before it (they are
   * different groups) and adds the entries its representative allows.
   */
  lemma CoveredStep(d: Dfa, p: Partition, i: nat, rep: string,
                    delta: map<(set<string>, string), set<string>>,
                    delta': map<(set<string>, string), set<string>>)
    requires Disjoint(p) && i < |p| && rep in p[i]
    requires CoveredUpTo(d, p, i, delta)
    requires FrameOutside(d, p[i], rep, delta, delta')
    requires forall a :: a in d.alphabet && Live(d, rep, a) ==> (p[i], a) in delta'
    ensures CoveredUpTo(d, p, i + 1, delta')
  {
    forall j, a | 0 <= j <= i && a in d.alphabet && AllLive(d, p[j], a)
      ensures (p[j], a) in delta'
    {
      if j < i {
        assert p[j] * p[i] == {};
        assert rep !in p[j] * p[i];
        assert (p[j], a) in delta;
      } else {
        assert Live(d, rep, a);
      }
    }
  }

  /**
   * The transitions of group `g` are those of its representative `rep`: an
   * entry exactly for the symbols on which `rep` has a live transition,
   * leading to the group that holds `rep`'s target.
   */
  ghost predicate RepresentedBy(d: Dfa, g: set<string>, rep: string, delta: map<(set<string>, string), set<string>>)
  {
    forall a :: a in d.alphabet ==>
      && ((g, a) in delta <==> Live(d, rep, a))
      && ((g, a) in delta ==> d.delta[(rep, a)] in delta[(g, a)])
  }

  /** `delta'` differs from `delta` only in the entries of `group` on `rep`'s live symbols. */
  ghost predicate FrameOutside(d: Dfa, group: set<string>, rep: string,
                               delta: map<(set<string>, string), set<string>>,
                               delta': map<(set<string>, string), set<string>>)
  {
    forall g, b :: !(g == group && b in d.alphabet && Live(d, rep, b)) ==>
      ((g, b) in delta' <==> (g, b) in delta) && ((g, b) in delta ==> delta'[(g, b)] == delta[(g, b)])
  }

  /** In a partition, the group that a represented entry leads to is the group of the representative's target. */
  lemma RepresentedTarget(d: Dfa, p: Partition, g: set<string>, rep: string,
                          delta: map<(set<string>, string), set<string>>, a: string)
    requires Disjoint(p) && DeltaSound(d, p, delta) && RepresentedBy(d, g, rep, delta)
    requires a in d.alphabet && Live(d, rep, a) && d.delta[(rep, a)] in Union(p)
    ensures (g, a) in delta && delta[(g, a)] == GroupOf(p, d.delta[(rep, a)])
  {
    GroupUnique(p, d.delta[(rep, a)], delta[(g, a)], GroupOf(p, d.delta[(rep, a)]));
  }

  /** A group untouched by the update keeps its representative's transitions. */
  lemma RepresentedFrame(d: Dfa, g: set<string>, rep: string, group: set<string>, grep: string,
                         delta: map<(set<string>, string), set<string>>,
                         delta': map<(set<string>, string), set<string>>)
    requires RepresentedBy(d, g, rep, delta) && g != group
    requires FrameOutside(d, group, grep, delta, delta')
    ensures RepresentedBy(d, g, rep, delta')
  {
  }

  /** A group with no entries yet gets exactly its representative's transitions. */
  lemma RepresentedFresh(d: Dfa, group: set<string>, rep: string,
                         delta: map<(set<string>, string), set<string>>,
                         delta': map<(set<string>, string), set<string>>)
    requires forall b :: (group, b) !in delta
    requires forall a :: a in d.alphabet && Live(d, rep, a) ==>
      (group, a) in delta' && d.delta[(rep, a)] in delta'[(group, a)]
    requires FrameOutside(d, group, rep, delta, delta')
    ensures RepresentedBy(d, group, rep, delta')
  {
  }

  /** Group `i` of a partition differs from the groups before it, so it has no entries yet. */
  lemma FreshGroup(p: Partition, i: nat, rep: string, delta: map<(set<string>, string), set<string>>)
    requires Disjoint(p) && i < |p| && rep in p[i]
    requires forall g, b :: (g, b) in delta ==> g in p[..i]
    ensures forall j :: 0 <= j < i ==> p[j] != p[i]
    ensures forall b :: (p[i], b) !in delta
  {
    forall j | 0 <= j < i
      ensures p[j] != p[i]
    {
      assert p[j] * p[i] == {};
      assert rep !in p[j] * p[i];
    }
  }

  /** The groups before `i` take the transitions of their representatives `reps`. */
  ghost predicate RepsUpTo(d: Dfa, p: Partition, i: nat, reps: seq<string>, delta: map<(set<string>, string), set<string>>)
    requires i <= |p|
  {
    |reps| == i && forall j :: 0 <= j < i ==> reps[j] in p[j] && RepresentedBy(d, p[j], reps[j], delta)
  }

  /** Only the groups before `i` have entries. */
  ghost predicate KeysBefore(p: Partition, i: nat, delta: map<(set<string>, string), set<string>>)
    requires i <= |p|
  {
    forall g, b :: (g, b) in delta ==> g in p[..i]
  }

  /**
   * Handling group `i` with representative `rep` gives it exactly its
   * representative's transitions and leaves the groups before it alone.
   */
  lemma RepresentedStep(d: Dfa, p: Partition, i: nat, rep: string, reps: seq<string>,
                        delta: map<(set<string>, string), set<string>>,
                        delta': map<(set<string>, string), set<string>>)
    requires Disjoint(p) && i < |p| && rep in p[i]
    requires RepsUpTo(d, p, i, reps, delta) && KeysBefore(p, i, delta)
    requires forall a :: a in d.alphabet && Live(d, rep, a) ==>
      (p[i], a) in delta' && d.delta[(rep, a)] in delta'[(p[i], a)]
    requires FrameOutside(d, p[i], rep, delta, delta')
    ensures RepsUpTo(d, p, i + 1, reps + [rep], delta') && KeysBefore(p, i + 1, delta')
  {
    FreshGroup(p, i, rep, delta);
    RepresentedFresh(d, p[i], rep, delta, delta');
    forall j | 0 <= j < i + 1
      ensures (reps + [rep])[j] in p[j] && RepresentedBy(d, p[j], (reps + [rep])[j], delta')
    {
      if j < i {
        assert (reps + [rep])[j] == reps[j];
        RepresentedFrame(d, p[j], reps[j], p[i], rep, delta, delta');
      }
    }
    assert p[..i + 1] == p[..i] + [p[i]];
  }

  /**
   * `new_transition_function`: each group takes the transitions of one
   * representative, chosen freely, to the groups of that representative's
   * live targets.
   */
  method QuotientDelta(d: Dfa, p: Partition) returns (delta: map<(set<string>, string), set<string>>)
    requires IsPartition(p, d.states) && TargetsInStates(d)
    ensures DeltaSound(d, p, delta)
    ensures forall g, a :: g in p && a in d.alphabet && AllLive(d, g, a) ==> (g, a) in delta
    ensures forall g :: g in p ==> exists rep :: rep in g && RepresentedBy(d, g, rep, delta)
  {
    delta := map[];
    UnionMembers(p);
    ghost var reps: seq<string> := [];
    for i := 0 to |p|
      invariant DeltaSound(d, p, delta)
      invariant CoveredUpTo(d, p, i, delta)
      invariant RepsUpTo(d, p, i, reps, delta) && KeysBefore(p, i, delta)
    {
      var group := p[i];
      var rep :| rep in group;
      assert group <= d.states;
      var delta' := GroupTransitions(d, p, group, rep, delta);
      CoveredStep(d, p, i, rep, delta, delta');
      RepresentedStep(d, p, i, rep, reps, delta, delta');
      delta := delta';
      reps := reps + [rep];
    }
    CoveredAll(d, p, delta);
    RepsAll(d, p, reps, delta);
  }

  /** Covering every position of the partition covers every group in it. */
  lemma CoveredAll(d: Dfa, p: Partition, delta: map<(set<string>, string), set<string>>)
    requires CoveredUpTo(d, p, |p|, delta)
    ensures forall g, a :: g in p && a in d.alphabet && AllLive(d, g, a) ==> (g, a) in delta
  {
    forall g, a | g in p && a in d.alphabet && AllLive(d, g, a)
      ensures (g, a) in delta
    {
      var j :| 0 <= j < |p| && p[j] == g;
    }
  }

  /** A representative for every position of the partition is one for every group in it. */
  lemma RepsAll(d: Dfa, p: Partition, reps: seq<string>, delta: map<(set<string>, string), set<string>>)
    requires RepsUpTo(d, p, |p|, reps, delta)
    ensures forall g :: g in p ==> exists rep :: rep in g && RepresentedBy(d, g, rep, delta)
  {
    forall g | g in p
      ensures exists rep :: rep in g && RepresentedBy(d, g, rep, delta)
    {
      var j :| 0 <= j < |p| && p[j] == g;
      assert reps[j] in g && RepresentedBy(d, g, reps[j], delta);
    }
  }

  /**
   * Every transition of the quotient goes from a group, on a symbol of the
   * alphabet, to the group that holds the live target of one of its members.
   */
  ghost predicate TransitionsSound(d: Dfa, m: MinDfa)
  {
    forall g, a :: (g, a) in m.delta ==>
      && g in m.states && a in d.alphabet && m.delta[(g, a)] in m.states
      && exists q :: q in g && Live(d, q, a) && d.delta[(q, a)] in m.delta[(g, a)]
  }

  /** A group whose members all have live transitions on `a` has a transition on `a`. */
  ghost predicate TransitionsComplete(d: Dfa, m: MinDfa)
  {
    forall g, a :: g in m.states && a in d.alphabet && AllLive(d, g, a) ==> (g, a) in m.delta
  }

  /**
   * The quotient automaton of a partition: one state per group; the start is
   * the group of the start state; a group is final when it meets `finals`;
   * and the transition of a group on a symbol goes to the group of its
   * representative's target, absent when that target is missing or empty.
   */
  method Quotient(d: Dfa, p: Partition) returns (m: MinDfa)
    requires IsPartition(p, d.states) && d.start in d.states && TargetsInStates(d)
    ensures forall g :: g in m.states <==> g in p
    ensures |m.states| <= |p|
    ensures m.alphabet == d.alphabet
    ensures m.start in m.states && d.start in m.start
    ensures forall g :: g in m.states && d.start in g ==> g == m.start
    ensures FinalGroups(m.finals, m.states, d.finals)
    ensures TransitionsSound(d, m)
    ensures TransitionsComplete(d, m)
    ensures forall g :: g in m.states ==> exists rep :: rep in g && RepresentedBy(d, g, rep, m.delta)
  {
    var states := GroupSet(p);
    var start := GroupOf(p, d.start);
    forall g | g in states && d.start in g
      ensures g == start
    {
      GroupUnique(p, d.start, g, start);
    }
    var finals := set g | g in states && g * d.finals != {};
    var delta := QuotientDelta(d, p);
    m := MinDfa(states, d.alphabet, delta, start, finals);
  }

  /** The groups of a partition, collected in a set: non-empty subsets of the states that respect `f`. */
  lemma GroupsNonEmpty(p: Partition, u: set<string>, f: set<string>, groups: set<set<string>>)
    requires IsPartition(p, u) && Respects(p, f)
    requires forall g :: g in groups <==> g in p
    ensures forall g :: g in groups ==> g != {} && g <= u
    ensures forall g :: g in groups ==> g <= f || g * f == {}
  {
    UnionMembers(p);
    forall g | g in groups
      ensures g != {} && g <= u
      ensures g <= f || g * f == {}
    {
      var i :| 0 <= i < |p| && p[i] == g;
    }
  }

  /** Distinct groups of a partition are disjoint. */
  lemma GroupsDisjoint(p: Partition, groups: set<set<string>>)
    requires Disjoint(p)
    requires forall g :: g in groups <==> g in p
    ensures forall g, h :: g in groups && h in groups && g != h ==> g * h == {}
  {
    forall g, h | g in groups && h in groups && g != h
      ensures g * h == {}
    {
      var i :| 0 <= i < |p| && p[i] == g;
      var j :| 0 <= j < |p| && p[j] == h;
      if i < j {
        assert p[i] * p[j] == {};
      } else {
        assert p[j] * p[i] == {};
      }
    }
  }

  /** Every member of `u` lies in some group. */
  ghost predicate Covers(groups: set<set<string>>, u: set<string>)
  {
    forall q :: q in u ==> exists g :: g in groups && q in g
  }

  lemma GroupsCover(p: Partition, u: set<string>, groups: set<set<string>>)
    requires Union(p) == u
    requires forall g :: g in groups <==> g in p
    ensures Covers(groups, u)
  {
    UnionMembers(p);
    forall q | q in u
      ensures exists g :: g in groups && q in g
    {
      var i :| 0 <= i < |p| && q in p[i];
      assert p[i] in groups;
    }
  }

  /** A set of groups partitions `u`: non-empty subsets of `u`, pairwise disjoint, covering `u`. */
  ghost predicate PartitionOf(groups: set<set<string>>, u: set<string>)
  {
    && (forall g :: g in groups ==> g != {} && g <= u)
    && (forall g, h :: g in groups && h in groups && g != h ==> g * h == {})
    && Covers(groups, u)
  }

  /** The groups of a partition that respects `f`, as a set: a partition of `u` that respects `f`. */
  lemma QuotientGroups(p: Partition, u: set<string>, f: set<string>, groups: set<set<string>>)
    requires IsPartition(p, u) && Respects(p, f)
    requires forall g :: g in groups <==> g in p
    requires |groups| <= |p|
    ensures PartitionOf(groups, u)
    ensures |groups| <= |u|
    ensures forall g :: g in groups ==> g <= f || g * f == {}
  {
    PartitionSize(p, u);
    GroupsNonEmpty(p, u, f, groups);
    GroupsDisjoint(p, groups);
    GroupsCover(p, u, groups);
  }

  /**
   * `DFA.minimize`. The caller must supply a non-empty proper subset of
   * final states (otherwise an empty group reaches `next(iter(group))` and
   * Python raises), a start state among the states, and live transitions that
   * lead to states (otherwise the group lookup raises). The groups of the
   * result partition the states, there are no more of them than states,
   * none of them mixes final and non-final states, and the transitions are
   * those of the quotient.
   */
  method Minimize(d: Dfa) returns (m: MinDfa)
    requires d.finals != {} && d.finals < d.states
    requires d.start in d.states && TargetsInStates(d)
    ensures PartitionOf(m.states, d.states)
    ensures |m.states| <= |d.states|
    ensures m.alphabet == d.alphabet
    ensures m.start in m.states && d.start in m.start
    ensures forall g :: g in m.states && d.start in g ==> g == m.start
    ensures FinalGroups(m.finals, m.states, d.finals)
    ensures forall g :: g in m.states ==> g <= d.finals || g * d.finals == {}
    ensures TransitionsSound(d, m)
    ensures TransitionsComplete(d, m)
    ensures forall g :: g in m.states ==> exists rep :: rep in g && RepresentedBy(d, g, rep, m.delta)
  {
    var p := Refine(d);
    m := Quotient(d, p);
    QuotientGroups(p, d.states, d.finals, m.states);
  }
}

=== FILE: dfa_runner.dfy ===
/**
 * laba1/DFA.py: a deterministic automaton over string states whose
 * transition table maps (state, one-character symbol) to the next state,
 * `process`, which folds the input through the table, and the part of
 * `read_dfa_from_csv` that folds the parsed CSV rows into a table.
 */
module DfaRunner {
  import opened Wrappers

  datatype Dfa = Dfa(
    states: set<string>,
    alphabet: set<string>,
    transitions: map<(string, string), string>,
    start: string,
    finals: set<string>)

  /**
   * The state reached from `q` by reading `w` one character at a time, or
   * `None` as soon as a (state, symbol) pair has no transition.
   */
  function Run(d: Dfa, q: string, w: string): Option<string>
    decreases |w|
  {
    if w == [] then Some(q)
    else if (q, [w[0]]) in d.transitions then Run(d, d.transitions[(q, [w[0]])], w[1..])
    else None
  }

  /** The reference acceptance: the run from the start state completes in a final state. */
  predicate Accepts(d: Dfa, w: string)
  {
    Run(d, d.start, w).Some? && Run(d, d.start, w).value in d.finals
  }

  /** Reading `u + v` is reading `u`, then reading `v` from wherever `u` led. */
  lemma {:induction false} RunAppend(d: Dfa, q: string, u: string, v: string)
    ensures Run(d, q, u + v) == if Run(d, q, u).None? then None else Run(d, Run(d, q, u).value, v)
    decreases |u|
  {
    if u == [] {
      assert u + v == v;
    } else {
      assert (u + v)[0] == u[0] && (u + v)[1..] == u[1..] + v;
      if (q, [u[0]]) in d.transitions {
        RunAppend(d, d.transitions[(q, [u[0]])], u[1..], v);
      }
    }
  }

  /**
   * `process`: follow the table symbol by symbol, reject as soon as a
   * transition is missing, and otherwise accept iff the last state is final.
   */
  method Process(d: Dfa, input: string) returns (accepted: bool)
    ensures accepted <==> Accepts(d, input)
    ensures input == [] ==> (accepted <==> d.start in d.finals)
  {
    var current := d.start;
    for i := 0 to |input|
      invariant Run(d, d.start, input[..i]) == Some(current)
    {
      var symbol := [input[i]];
      assert input[..i + 1] == input[..i] + [input[i]];
      RunAppend(d, d.start, input[..i], [input[i]]);
      if (current, symbol) in d.transitions {
        current := d.transitions[(current, symbol)];
      } else {
        RunAppend(d, d.start, input[..i + 1], input[i + 1..]);
        assert input[..i + 1] + input[i + 1..] == input;
        return false;
      }
    }
    assert input[..|input|] == input;
    return current in d.finals;
  }

  /** Acceptance of `u + v` depends on `u` only through the state it reaches. */
  lemma AcceptsSplit(d: Dfa, u: string, v: string)
    ensures Accepts(d, u + v) <==>
      Run(d, d.start, u).Some? && Run(d, Run(d, d.start, u).value, v).Some?
      && Run(d, Run(d, d.start, u).value, v).value in d.finals
  {
    RunAppend(d, d.start, u, v);
  }

  /** A missing transition rejects every continuation of the input. */
  lemma MissingTransitionRejects(d: Dfa, u: string, c: char, v: string)
    requires Run(d, d.start, u).Some?
    requires (Run(d, d.start, u).value, [c]) !in d.transitions
    ensures !Accepts(d, u + [c] + v)
  {
    RunAppend(d, d.start, u, [c] + v);
    assert u + [c] + v == u + ([c] + v);
  }

  // ----- Folding the CSV rows -----

  /** The result of folding the rows: states, alphabet and transition table. */
  datatype Table = Table(states: set<string>, alphabet: set<string>, transitions: map<(string, string), string>)

  /** Every row has the three fields `row[0], row[1], row[2]` the fold reads. */
  predicate WellShaped(rows: seq<seq<string>>)
  {
    forall i :: 0 <= i < |rows| ==> |rows[i]| >= 3
  }

  /** The (state, symbol) key a row defines. */
  function Key(row: seq<string>): (string, string)
    requires |row| >= 3
  {
    (row[0], row[1])
  }

  /** The row names `s` as its source or target state. */
  predicate MentionsState(row: seq<string>, s: string)
    requires |row| >= 3
  {
    row[0] == s || row[2] == s
  }

  /** No row after the `i`-th redefines its key. */
  predicate LastForKey(rows: seq<seq<string>>, i: nat)
    requires WellShaped(rows) && i < |rows|
  {
    forall j :: i < j < |rows| ==> Key(rows[j]) != Key(rows[i])
  }

  function AddRow(t: Table, row: seq<string>): Table
    requires |row| >= 3
  {
    Table(t.states + {row[0], row[2]}, t.alphabet + {row[1]}, t.transitions[Key(row) := row[2]])
  }

  /**
   * The `for row in reader` loop: `None` when some row has fewer than three
   * fields (the `IndexError` that aborts the read).
   */
  function FoldRows(rows: seq<seq<string>>): (r: Option<Table>)
    ensures r.Some? <==> WellShaped(rows)
    decreases |rows|
  {
    if rows == [] then Some(Table({}, {}, map[]))
    else
      var prefix := rows[..|rows| - 1];
      var last := rows[|rows| - 1];
      assert WellShaped(rows) <==> WellShaped(prefix) && |last| >= 3 by {
        if WellShaped(prefix) && |last| >= 3 {
          forall i | 0 <= i < |rows| ensures |rows[i]| >= 3 {
            if i < |rows| - 1 {
              assert rows[i] == prefix[i];
            }
          }
        }
      }
      match FoldRows(prefix)
      case None => None
      case Some(t) => if |last| < 3 then None else Some(AddRow(t, last))
  }

  lemma WellShapedPrefix(rows: seq<seq<string>>)
    requires WellShaped(rows) && rows != []
    ensures WellShaped(rows[..|rows| - 1])
  {
    assert forall i :: 0 <= i < |rows| - 1 ==> rows[..|rows| - 1][i] == rows[i];
  }

  /** The states are exactly those the rows mention, on either side. */
  lemma {:induction false} FoldRowsStates(rows: seq<seq<string>>)
    requires WellShaped(rows)
    ensures forall s :: s in FoldRows(rows).value.states <==>
      exists i :: 0 <= i < |rows| && MentionsState(rows[i], s)
    decreases |rows|
  {
    if rows != [] {
      var prefix := rows[..|rows| - 1];
      WellShapedPrefix(rows);
      FoldRowsStates(prefix);
      forall s ensures s in FoldRows(rows).value.states <==> exists i :: 0 <= i < |rows| && MentionsState(rows[i], s) {
        if exists i :: 0 <= i < |rows| && MentionsState(rows[i], s) {
          var i :| 0 <= i < |rows| && MentionsState(rows[i], s);
          if i < |rows| - 1 {
            assert MentionsState(prefix[i], s);
          }
        }
        if s in FoldRows(prefix).value.states {
          var i :| 0 <= i < |prefix| && MentionsState(prefix[i], s);
          assert MentionsState(rows[i], s);
        }
      }
    }
  }

  /** The alphabet is exactly the set of symbols in the rows' second field. */
  lemma {:induction false} FoldRowsAlphabet(rows: seq<seq<string>>)
    requires WellShaped(rows)
    ensures forall a :: a in FoldRows(rows).value.alphabet <==>
      exists i :: 0 <= i < |rows| && Key(rows[i]).1 == a
    decreases |rows|
  {
    if rows != [] {
      var prefix := rows[..|rows| - 1];
      WellShapedPrefix(rows);
      FoldRowsAlphabet(prefix);
      forall a ensures a in FoldRows(rows).value.alphabet <==> exists i :: 0 <= i < |rows| && Key(rows[i]).1 == a {
        if exists i :: 0 <= i < |rows| && Key(rows[i]).1 == a {
          var i :| 0 <= i < |rows| && Key(rows[i]).1 == a;
          if i < |rows| - 1 {
            assert Key(prefix[i]).1 == a;
          }
        }
        if a in FoldRows(prefix).value.alphabet {
          var i :| 0 <= i < |prefix| && Key(prefix[i]).1 == a;
          assert Key(rows[i]).1 == a;
        }
      }
    }
  }

  /** The keys of `m` are exactly the keys the rows define. */
  ghost predicate KeysOf(rows: seq<seq<string>>, m: map<(string, string), string>)
    requires WellShaped(rows)
  {
    forall k :: k in m <==> exists i :: 0 <= i < |rows| && Key(rows[i]) == k
  }

  /** Every row that no later row overrides has its target in `m`. */
  ghost predicate LastRowsWin(rows: seq<seq<string>>, m: map<(string, string), string>)
    requires WellShaped(rows)
  {
    forall i :: 0 <= i < |rows| && LastForKey(rows, i) ==> Key(rows[i]) in m && m[Key(rows[i])] == rows[i][2]
  }

  /** Adding the last row's entry extends the keys of the prefix by that row's key. */
  lemma KeysStep(rows: seq<seq<string>>, m0: map<(string, string), string>, m: map<(string, string), string>)
    requires WellShaped(rows) && rows != []
    requires WellShaped(rows[..|rows| - 1]) && KeysOf(rows[..|rows| - 1], m0)
    requires m == m0[Key(rows[|rows| - 1]) := rows[|rows| - 1][2]]
    ensures KeysOf(rows, m)
  {
    var prefix, n := rows[..|rows| - 1], |rows| - 1;
    forall k
      ensures k in m <==> exists i :: 0 <= i < |rows| && Key(rows[i]) == k
    {
      if exists i :: 0 <= i < |rows| && Key(rows[i]) == k {
        var i :| 0 <= i < |rows| && Key(rows[i]) == k;
        if i < n {
          assert Key(prefix[i]) == k;
        }
      }
      if k in m0 {
        var i :| 0 <= i < |prefix| && Key(prefix[i]) == k;
        assert Key(rows[i]) == k;
      }
    }
  }

  /** Adding the last row's entry keeps every row of the prefix not overridden by it. */
  lemma LastStep(rows: seq<seq<string>>, m0: map<(string, string), string>, m: map<(string, string), string>)
    requires WellShaped(rows) && rows != []
    requires WellShaped(rows[..|rows| - 1]) && LastRowsWin(rows[..|rows| - 1], m0)
    requires m == m0[Key(rows[|rows| - 1]) := rows[|rows| - 1][2]]
    ensures LastRowsWin(rows, m)
  {
    var prefix, n := rows[..|rows| - 1], |rows| - 1;
    forall i | 0 <= i < |rows| && LastForKey(rows, i)
      ensures Key(rows[i]) in m && m[Key(rows[i])] == rows[i][2]
    {
      if i < n {
        assert Key(rows[n]) != Key(rows[i]);
        assert rows[i] == prefix[i];
        assert LastForKey(prefix, i) by {
          forall j | i < j < |prefix| ensures Key(prefix[j]) != Key(prefix[i]) {
            assert prefix[j] == rows[j];
          }
        }
      }
    }
  }

  /**
   * The table has an entry exactly for the keys the rows define, and the
   * entry is the target of the last row with that key: later rows override.
   */
  lemma {:induction false} FoldRowsTransitions(rows: seq<seq<string>>)
    requires WellShaped(rows)
    ensures forall k :: k in FoldRows(rows).value.transitions <==>
      exists i :: 0 <= i < |rows| && Key(rows[i]) == k
    ensures forall i :: 0 <= i < |rows| && LastForKey(rows, i) ==>
      FoldRows(rows).value.transitions[Key(rows[i])] == rows[i][2]
    decreases |rows|
  {
    if rows != [] {
      var prefix := rows[..|rows| - 1];
      var n := |rows| - 1;
      WellShapedPrefix(rows);
      FoldRowsTransitions(prefix);
      var m := FoldRows(rows).value.transitions;
      var m0 := FoldRows(prefix).value.transitions;
      assert m == m0[Key(rows[n]) := rows[n][2]];
      KeysStep(rows, m0, m);
      LastStep(rows, m0, m);
    }
  }

  // ----- The final-states line -----

  /** `str.split(',')`: the pieces between commas, at least one, possibly empty. */
  function SplitCommas(s: string): (r: seq<string>)
    ensures |r| >= 1
    decreases |s|
  {
    if s == [] then [[]]
    else
      var rest := SplitCommas(s[1..]);
      if s[0] == ',' then [[]] + rest
      else [[s[0]] + rest[0]] + rest[1..]
  }

  /** `','.join(parts)`. */
  function JoinCommas(parts: seq<string>): string
    requires |parts| >= 1
    decreases |parts|
  {
    if |parts| == 1 then parts[0] else parts[0] + "," + JoinCommas(parts[1..])
  }

  /** No piece of a split contains a comma. */
  lemma {:induction false} SplitCommasNoComma(s: string)
    ensures forall k :: 0 <= k < |SplitCommas(s)| ==> ',' !in SplitCommas(s)[k]
    decreases |s|
  {
    if s != [] {
      SplitCommasNoComma(s[1..]);
    }
  }

  /** Joining the pieces with commas gives back the line: `split` loses nothing. */
  lemma {:induction false} JoinSplitCommas(s: string)
    ensures JoinCommas(SplitCommas(s)) == s
    decreases |s|
  {
    if s != [] {
      var rest := SplitCommas(s[1..]);
      JoinSplitCommas(s[1..]);
      if s[0] == ',' {
        assert ([[]] + rest)[1..] == rest;
        assert s == "," + s[1..];
      } else {
        var r := [[s[0]] + rest[0]] + rest[1..];
        if |rest| == 1 {
          assert s == [s[0]] + rest[0];
        } else {
          assert r[1..] == rest[1..];
          assert JoinCommas(rest) == rest[0] + "," + JoinCommas(rest[1..]);
          assert s == [s[0]] + s[1..];
        }
      }
    }
  }

  /**
   * `read_dfa_from_csv` without the file and console: the rows are folded into
   * the table, the start state is the first answer as typed, and the final
   * states are the comma-separated pieces of the second answer.
   */
  function ReadDfa(rows: seq<seq<string>>, startLine: string, finalsLine: string): (r: Option<Dfa>)
    ensures r.Some? <==> WellShaped(rows)
    ensures r.Some? ==> r.value.start == startLine
    ensures r.Some? ==> forall s :: s in r.value.finals <==> s in SplitCommas(finalsLine)
  {
    match FoldRows(rows)
    case None => None
    case Some(t) =>
      var finals := set k | 0 <= k < |SplitCommas(finalsLine)| :: SplitCommas(finalsLine)[k];
      Some(Dfa(t.states, t.alphabet, t.transitions, startLine, finals))
  }
}

=== FILE: grammar_recognizer.dfy ===
/**
 * `ParseTreeGenerator` of laba8/CNFtoPDA.py, recognition only: a symbol
 * that the grammar does not define is a terminal and must be a prefix of the
 * input; a defined symbol tries its productions in order and commits to the
 * first whose symbols all succeed one after another, never revisiting an
 * earlier symbol. A left-recursive grammar makes the source recurse without
 * end, so every function here takes fuel and answers `None` when it runs out.
 */
module GrammarRecognizer {
  import opened Wrappers

  /** Each non-terminal maps to its list of productions, each a list of symbols. */
  type Grammar = map<string, seq<seq<string>>>

  /** The `(success, remaining)` pair `_parse_recursive` returns. */
  datatype Outcome = Outcome(success: bool, rest: string)

  /** `rest` is what is left of `input` after dropping some prefix of it. */
  predicate IsSuffix(rest: string, input: string)
  {
    |rest| <= |input| && input[|input| - |rest|..] == rest
  }

  lemma SuffixTrans(a: string, b: string, c: string)
    requires IsSuffix(a, b) && IsSuffix(b, c)
    ensures IsSuffix(a, c)
  {
    assert c[|c| - |a|..] == c[|c| - |b|..][|b| - |a|..];
  }

  /** A result that keeps the promises of `_parse_recursive`: failure hands back the input, success a suffix of it. */
  predicate Honest(r: Option<Outcome>, input: string)
  {
    r.Some? ==> if r.value.success then IsSuffix(r.value.rest, input) else r.value.rest == input
  }

  /** `_parse_recursive` for one symbol. */
  function ParseSymbol(g: Grammar, sym: string, input: string, fuel: nat): (r: Option<Outcome>)
    ensures Honest(r, input)
    decreases fuel, 0, 0
  {
    if sym !in g then
      if sym <= input then Some(Outcome(true, input[|sym|..])) else Some(Outcome(false, input))
    else if fuel == 0 then None
    else ParseProductions(g, g[sym], input, fuel - 1)
  }

  /** The `for production in self.grammar[non_terminal]` loop: the first production that succeeds wins. */
  function ParseProductions(g: Grammar, prods: seq<seq<string>>, input: string, fuel: nat): (r: Option<Outcome>)
    ensures Honest(r, input)
    decreases fuel, 1, |prods|
  {
    if prods == [] then Some(Outcome(false, input))
    else
      match ParseSequence(g, prods[0], input, fuel)
      case None => None
      case Some(o) => if o.success then Some(o) else ParseProductions(g, prods[1..], input, fuel)
  }

  /**
   * The `for symbol in production` loop: each symbol continues from what the
   * previous one left; the first failure fails the production.
   */
  function ParseSequence(g: Grammar, syms: seq<string>, input: string, fuel: nat): (r: Option<Outcome>)
    ensures Honest(r, input)
    ensures syms == [] ==> r == Some(Outcome(true, input))
    decreases fuel, 0, |syms|
  {
    if syms == [] then Some(Outcome(true, input))
    else
      match ParseSymbol(g, syms[0], input, fuel)
      case None => None
      case Some(o) =>
        if !o.success then Some(Outcome(false, input))
        else
          var r := ParseSequence(g, syms[1..], o.rest, fuel);
          if r.Some? && r.value.success then
            SuffixTrans(r.value.rest, o.rest, input);
            r
          else if r.Some? then Some(Outcome(false, input))
          else r
  }

  /**
   * `parse`: the start symbol succeeds and leaves nothing over. Without
   * enough fuel there is no answer; a start symbol outside the grammar
   * accepts exactly itself.
   */
  function Parse(g: Grammar, start: string, input: string, fuel: nat): (r: Option<bool>)
    ensures r.None? <==> ParseSymbol(g, start, input, fuel).None?
    ensures r == Some(true) <==> ParseSymbol(g, start, input, fuel) == Some(Outcome(true, []))
    ensures start !in g ==> r == Some(start == input)
  {
    match ParseSymbol(g, start, input, fuel)
    case None => None
    case Some(o) =>
      if start in g then Some(o.success && o.rest == [])
      else
        TerminalSpec(g, start, input, fuel);
        Some(o.success && o.rest == [])
  }

  /**
   * A terminal needs no fuel; it succeeds exactly when the input starts with
   * it, and then leaves the input with exactly its characters removed.
   */
  lemma TerminalSpec(g: Grammar, sym: string, input: string, fuel: nat)
    requires sym !in g
    ensures ParseSymbol(g, sym, input, fuel).Some?
    ensures ParseSymbol(g, sym, input, fuel).value.success <==>
      |sym| <= |input| && input[..|sym|] == sym
    ensures ParseSymbol(g, sym, input, fuel).value.success ==>
      sym + ParseSymbol(g, sym, input, fuel).value.rest == input
  {
    if sym <= input {
      assert input == sym + input[|sym|..];
    }
  }

  /** Every production before the `k`-th fails and hands back the input. */
  ghost predicate FailsBefore(g: Grammar, prods: seq<seq<string>>, input: string, fuel: nat, k: nat)
    requires k <= |prods|
  {
    forall j :: 0 <= j < k ==> ParseSequence(g, prods[j], input, fuel) == Some(Outcome(false, input))
  }

  /** A failing first production shifts `FailsBefore` of the remaining productions by one. */
  lemma FailsBeforeCons(g: Grammar, prods: seq<seq<string>>, input: string, fuel: nat, k: nat)
    requires prods != [] && k < |prods|
    requires ParseSequence(g, prods[0], input, fuel) == Some(Outcome(false, input))
    requires FailsBefore(g, prods[1..], input, fuel, k)
    ensures FailsBefore(g, prods, input, fuel, k + 1)
  {
    forall j | 0 <= j < k + 1
      ensures ParseSequence(g, prods[j], input, fuel) == Some(Outcome(false, input))
    {
      if j > 0 {
        assert prods[j] == prods[1..][j - 1];
      }
    }
  }

  /**
   * A successful list of productions answers with the first production that
   * succeeds; every production before it failed.
   */
  lemma {:induction false} FirstSuccessWins(g: Grammar, prods: seq<seq<string>>, input: string, fuel: nat, rest: string)
    requires ParseProductions(g, prods, input, fuel) == Some(Outcome(true, rest))
    ensures exists k ::
      0 <= k < |prods| && ParseSequence(g, prods[k], input, fuel) == Some(Outcome(true, rest))
      && FailsBefore(g, prods, input, fuel, k)
    decreases |prods|
  {
    var o := ParseSequence(g, prods[0], input, fuel).value;
    if o.success {
      assert FailsBefore(g, prods, input, fuel, 0);
    } else {
      FirstSuccessWins(g, prods[1..], input, fuel, rest);
      var k :| 0 <= k < |prods[1..]| && ParseSequence(g, prods[1..][k], input, fuel) == Some(Outcome(true, rest))
        && FailsBefore(g, prods[1..], input, fuel, k);
      assert prods[1..][k] == prods[k + 1];
      FailsBeforeCons(g, prods, input, fuel, k);
    }
  }

  /**
   * The converse: when production `k` succeeds and every earlier one fails,
   * handing back the input, the non-terminal answers with that success.
   */
  lemma {:induction false} FirstSuccessAnswers(g: Grammar, prods: seq<seq<string>>, input: string, fuel: nat, k: nat, rest: string)
    requires k < |prods| && FailsBefore(g, prods, input, fuel, k)
    requires ParseSequence(g, prods[k], input, fuel) == Some(Outcome(true, rest))
    ensures ParseProductions(g, prods, input, fuel) == Some(Outcome(true, rest))
    decreases k
  {
    if k > 0 {
      assert ParseSequence(g, prods[0], input, fuel) == Some(Outcome(false, input));
      forall j | 0 <= j < k - 1
        ensures ParseSequence(g, prods[1..][j], input, fuel) == Some(Outcome(false, input))
      {
        assert prods[1..][j] == prods[j + 1];
      }
      assert prods[1..][k - 1] == prods[k];
      FirstSuccessAnswers(g, prods[1..], input, fuel, k - 1, rest);
    }
  }

  /** When every production fails (with fuel to spare), so does the non-terminal, handing back its input. */
  lemma {:induction false} AllFail(g: Grammar, prods: seq<seq<string>>, input: string, fuel: nat)
    requires forall j :: 0 <= j < |prods| ==> ParseSequence(g, prods[j], input, fuel) == Some(Outcome(false, input))
    ensures ParseProductions(g, prods, input, fuel) == Some(Outcome(false, input))
    decreases |prods|
  {
    if prods != [] {
      assert forall j :: 0 <= j < |prods[1..]| ==> prods[1..][j] == prods[j + 1];
      AllFail(g, prods[1..], input, fuel);
    }
  }

  /** Once a symbol has an answer, more fuel does not change it. */
  lemma {:induction false} SymbolFuelMonotone(g: Grammar, sym: string, input: string, fuel: nat, more: nat)
    requires ParseSymbol(g, sym, input, fuel).Some? && fuel <= more
    ensures ParseSymbol(g, sym, input, more) == ParseSymbol(g, sym, input, fuel)
    decreases fuel, 0, 0
  {
    if sym in g {
      ProductionsFuelMonotone(g, g[sym], input, fuel - 1, more - 1);
    }
  }

  lemma {:induction false} ProductionsFuelMonotone(g: Grammar, prods: seq<seq<string>>, input: string, fuel: nat, more: nat)
    requires ParseProductions(g, prods, input, fuel).Some? && fuel <= more
    ensures ParseProductions(g, prods, input, more) == ParseProductions(g, prods, input, fuel)
    decreases fuel, 1, |prods|
  {
    if prods != [] {
      SequenceFuelMonotone(g, prods[0], input, fuel, more);
      if !ParseSequence(g, prods[0], input, fuel).value.success {
        ProductionsFuelMonotone(g, prods[1..], input, fuel, more);
      }
    }
  }

  lemma {:induction false} SequenceFuelMonotone(g: Grammar, syms: seq<string>, input: string, fuel: nat, more: nat)
    requires ParseSequence(g, syms, input, fuel).Some? && fuel <= more
    ensures ParseSequence(g, syms, input, more) == ParseSequence(g, syms, input, fuel)
    decreases fuel, 0, |syms|
  {
    if syms != [] {
      SymbolFuelMonotone(g, syms[0], input, fuel, more);
      var o := ParseSymbol(g, syms[0], input, fuel).value;
      if o.success {
        SequenceFuelMonotone(g, syms[1..], o.rest, fuel, more);
      }
    }
  }

  /** Once `parse` answers, more fuel gives the same answer. */
  lemma ParseFuelMonotone(g: Grammar, start: string, input: string, fuel: nat, more: nat)
    requires Parse(g, start, input, fuel).Some? && fuel <= more
    ensures Parse(g, start, input, more) == Parse(g, start, input, fuel)
  {
    SymbolFuelMonotone(g, start, input, fuel, more);
  }

  /** The grammar S -> A B, A -> a, B -> b C, C -> c. */
  function DemoGrammar(): (g: Grammar)
    ensures g.Keys == {"S", "A", "B", "C"}
  {
    map["S" := [["A", "B"]], "A" := [["a"]], "B" := [["b", "C"]], "C" := [["c"]]]
  }

  /** The demo grammar recognises `abc`. */
  lemma DemoAcceptsAbc()
    ensures Parse(DemoGrammar(), "S", "abc", 3) == Some(true)
  {
    var g := DemoGrammar();
    assert ParseSequence(g, ["a"], "abc", 1) == Some(Outcome(true, "bc"));
    assert ParseSymbol(g, "A", "abc", 2) == Some(Outcome(true, "bc"));
    DemoDerivesBc();
    assert ParseSequence(g, ["B"], "bc", 2) == Some(Outcome(true, ""));
    assert ParseSequence(g, ["A", "B"], "abc", 2) == Some(Outcome(true, ""));
  }

  /** In the demonstration grammar `B` derives `bc`, through B -> b C and C -> c. */
  lemma DemoDerivesBc()
    ensures ParseSymbol(DemoGrammar(), "B", "bc", 2) == Some(Outcome(true, ""))
  {
    var g := DemoGrammar();
    assert ParseSequence(g, ["c"], "c", 0) == Some(Outcome(true, ""));
    assert ParseSymbol(g, "C", "c", 1) == Some(Outcome(true, ""));
    assert ParseSequence(g, ["C"], "c", 1) == Some(Outcome(true, ""));
    assert ParseSymbol(g, "b", "bc", 1) == Some(Outcome(true, "c"));
    assert ParseSequence(g, ["b", "C"], "bc", 1) == Some(Outcome(true, ""));
  }

  /** S -> A c, A -> a | ab: the first production of A is kept even when the rest of S then fails. */
  function CommitGrammar(): (g: Grammar)
    ensures g.Keys == {"S", "A"}
  {
    map["S" := [["A", "c"]], "A" := [["a"], ["ab"]]]
  }

  /**
   * No backtracking: `abc` is `ab` followed by `c`, yet it is rejected, because
   * `A` commits to `a` and `c` then fails on `bc`.
   */
  lemma CommitRejectsAbc()
    ensures Parse(CommitGrammar(), "S", "abc", 2) == Some(false)
  {
    var g := CommitGrammar();
    assert ParseSymbol(g, "a", "abc", 0) == Some(Outcome(true, "bc"));
    assert ParseSequence(g, ["a"], "abc", 0) == Some(Outcome(true, "bc"));
    assert ParseSymbol(g, "A", "abc", 1) == Some(Outcome(true, "bc"));
    assert "bc"[0] != "c"[0];
    assert ParseSymbol(g, "c", "bc", 1) == Some(Outcome(false, "bc"));
    assert ParseSequence(g, ["A", "c"], "abc", 1) == Some(Outcome(false, "abc"));
  }

  /** A left-recursive rule S -> S never reaches an answer, however much fuel it gets. */
  lemma {:induction false} LeftRecursionNeverAnswers(input: string, fuel: nat)
    ensures ParseSymbol(map["S" := [["S"]]], "S", input, fuel) == None
    decreases fuel
  {
    if fuel > 0 {
      LeftRecursionNeverAnswers(input, fuel - 1);
      var g := map["S" := [["S"]]];
      assert ParseSequence(g, ["S"], input, fuel - 1) == None;
    }
  }
}

=== FILE: kmp.dfy ===
/**
 * The `KMP` class of laba4/interpretator.py: the prefix function of a pattern
 * and the linear scan that uses it to report every occurrence of the pattern
 * in a text.
 */
module Kmp {

  /** The last `k` symbols of `t[..j]` spell `p[..k]`. */
  ghost predicate EndsWith(p: string, k: nat, t: string, j: nat)
  {
    k <= |p| && k <= j <= |t| && forall x :: 0 <= x < k ==> p[x] == t[j - k + x]
  }

  /** `k` is the length of a proper border of `p[..n]`: a shorter prefix that is also a suffix. */
  ghost predicate IsBorder(p: string, n: nat, k: nat)
  {
    k < n && EndsWith(p, k, p, n)
  }

  /** `k` is the length of the longest proper border of `p[..n]`. */
  ghost predicate LongestBorder(p: string, n: nat, k: nat)
  {
    IsBorder(p, n, k) && forall b :: k < b < n ==> !IsBorder(p, n, b)
  }

  /** `pi[i]` is the longest proper border of `p[..i + 1]`, for every `i`. */
  ghost predicate IsPrefixFunction(p: string, pi: seq<nat>)
  {
    |pi| == |p| && forall i :: 0 <= i < |p| ==> LongestBorder(p, i + 1, pi[i])
  }

  /** No prefix of `p` longer than `q` and at most `hi` long ends at `j`. */
  ghost predicate NoneLonger(p: string, q: nat, hi: nat, t: string, j: nat)
  {
    forall k :: q < k <= hi ==> !EndsWith(p, k, t, j)
  }

  /** `p` occurs in `text` at position `s`. */
  ghost predicate OccursAt(p: string, text: string, s: nat)
  {
    s + |p| <= |text| && text[s..s + |p|] == p
  }

  lemma OccursAtEndsWith(p: string, text: string, s: nat)
    requires s + |p| <= |text|
    ensures OccursAt(p, text, s) <==> EndsWith(p, |p|, text, s + |p|)
  {
    if EndsWith(p, |p|, text, s + |p|) {
      assert text[s..s + |p|] == p;
    }
  }

  /** Matching one more symbol: `p[..k+1]` ends at `j+1` iff `p[..k]` ends at `j` and `p[k] == t[j]`. */
  lemma EndsWithExtend(p: string, k: nat, t: string, j: nat)
    requires k < |p| && k <= j < |t|
    ensures EndsWith(p, k + 1, t, j + 1) <==> EndsWith(p, k, t, j) && p[k] == t[j]
  {
    if EndsWith(p, k + 1, t, j + 1) {
      assert p[k] == t[j + 1 - (k + 1) + k];
      forall x | 0 <= x < k
        ensures p[x] == t[j - k + x]
      {
        assert p[x] == t[j + 1 - (k + 1) + x];
      }
    }
  }

  /** Two prefixes of `p` ending at the same place: the shorter is a border of the longer. */
  lemma ShorterIsBorder(p: string, k: nat, t: string, j: nat, b: nat)
    requires EndsWith(p, k, t, j) && EndsWith(p, b, t, j) && b < k
    ensures IsBorder(p, k, b)
  {
    forall x | 0 <= x < b
      ensures p[x] == p[k - b + x]
    {
      assert p[x] == t[j - b + x];
      assert p[k - b + x] == t[j - k + (k - b + x)];
    }
  }

  /** A border of a prefix that ends at `j` also ends at `j`. */
  lemma BorderEndsWith(p: string, k: nat, t: string, j: nat, b: nat)
    requires EndsWith(p, k, t, j) && IsBorder(p, k, b)
    ensures EndsWith(p, b, t, j)
  {
    forall x | 0 <= x < b
      ensures p[x] == t[j - b + x]
    {
      assert p[x] == p[k - b + x];
      assert p[k - b + x] == t[j - k + (k - b + x)];
    }
  }

  /**
   * If no prefix longer than `q` (and shorter than `hi`) ends at `j`, then no
   * prefix longer than `q + 1` (up to `hi`) ends at `j + 1`.
   */
  lemma ExtendBound(p: string, t: string, j: nat, q: nat, hi: nat)
    requires j < |t| && hi <= |p|
    requires forall k :: q < k < hi ==> !EndsWith(p, k, t, j)
    ensures NoneLonger(p, q + 1, hi, t, j + 1)
  {
    var j1 := j + 1;
    forall k | q + 1 < k <= hi
      ensures !EndsWith(p, k, t, j1)
    {
      if EndsWith(p, k, t, j1) {
        EndsWithExtend(p, k - 1, t, j);
        assert EndsWith(p, k - 1, t, j);
      }
    }
  }

  /**
   * One step of the `while` fallback: on a mismatch after `q` matched symbols,
   * continuing with the longest border `pi[q - 1]` of `p[..q]` skips no prefix
   * that could still end at `j + 1`.
   */
  lemma Fallback(p: string, pi: seq<nat>, t: string, j: nat, q: nat, hi: nat)
    requires 0 < q < |p| && q <= |pi| && j < |t| && hi <= |p|
    requires LongestBorder(p, q, pi[q - 1])
    requires EndsWith(p, q, t, j) && p[q] != t[j]
    requires NoneLonger(p, q + 1, hi, t, j + 1)
    ensures EndsWith(p, pi[q - 1], t, j)
    ensures NoneLonger(p, pi[q - 1] + 1, hi, t, j + 1)
  {
    var b := pi[q - 1];
    BorderEndsWith(p, q, t, j, b);
    var j1 := j + 1;
    forall k | b + 1 < k <= hi
      ensures !EndsWith(p, k, t, j1)
    {
      if EndsWith(p, k, t, j1) {
        if k == q + 1 {
          EndsWithExtend(p, q, t, j);
        } else {
          assert k <= q;
          EndsWithExtend(p, k - 1, t, j);
          ShorterIsBorder(p, q, t, j, k - 1);
        }
      }
    }
  }

  /**
   * After the fallback loop: either `p[q]` matches `t[j]` and `q + 1` symbols
   * match, or `q` is 0 and nothing does; either way `next` is the longest
   * prefix (up to `hi`) ending at `j + 1`.
   */
  lemma Advance(p: string, t: string, j: nat, q: nat, hi: nat, next: nat)
    requires q < |p| && j < |t| && hi <= |p| && q < hi
    requires EndsWith(p, q, t, j)
    requires NoneLonger(p, q + 1, hi, t, j + 1)
    requires q == 0 || p[q] == t[j]
    requires next == if p[q] == t[j] then q + 1 else q
    ensures EndsWith(p, next, t, j + 1)
    ensures NoneLonger(p, next, hi, t, j + 1)
  {
    EndsWithExtend(p, q, t, j);
    if p[q] != t[j] {
      assert EndsWith(p, 0, t, j + 1);
      if 1 <= hi {
        EndsWithExtend(p, 0, t, j);
      }
    }
  }

  /**
   * After a symbol is consumed, the pattern ends at `j` exactly when the
   * longest matched prefix is the whole pattern.
   */
  lemma CompleteMatch(p: string, t: string, j: nat, q: nat)
    requires 0 < |p| && q <= |p| && j <= |t|
    requires EndsWith(p, q, t, j) && NoneLonger(p, q, |p|, t, j)
    ensures (|p| <= j && OccursAt(p, t, j - |p|)) <==> q == |p|
  {
    if |p| <= j {
      OccursAtEndsWith(p, t, j - |p|);
    }
  }

  /**
   * After a full match ending at `j`, continuing with the longest border
   * `pi[|p| - 1]` of the pattern keeps it the longest proper prefix ending at `j`.
   */
  lemma Restart(p: string, pi: seq<nat>, t: string, j: nat)
    requires 0 < |p| == |pi|
    requires LongestBorder(p, |p|, pi[|p| - 1])
    requires EndsWith(p, |p|, t, j)
    ensures EndsWith(p, pi[|p| - 1], t, j)
    ensures forall k :: pi[|p| - 1] < k < |p| ==> !EndsWith(p, k, t, j)
  {
    var b := pi[|p| - 1];
    BorderEndsWith(p, |p|, t, j, b);
    forall k | b < k < |p|
      ensures !EndsWith(p, k, t, j)
    {
      if EndsWith(p, k, t, j) {
        ShorterIsBorder(p, |p|, t, j, k);
      }
    }
  }

  /**
   * The fallback `while` loop and the comparison after it, shared by both
   * scans: from the longest prefix `q` of `p` ending at `j`, the longest
   * prefix (at most `hi` long) ending at `j + 1`.
   */
  method Transition(p: string, pi: seq<nat>, t: string, j: nat, q: nat, hi: nat) returns (next: nat)
    requires q < hi == |pi| <= |p| && j < |t|
    requires forall x :: 0 <= x < |pi| ==> LongestBorder(p, x + 1, pi[x])
    requires EndsWith(p, q, t, j)
    requires forall k :: q < k < hi ==> !EndsWith(p, k, t, j)
    ensures next <= hi
    ensures EndsWith(p, next, t, j + 1) && NoneLonger(p, next, hi, t, j + 1)
  {
    ExtendBound(p, t, j, q, hi);
    var k := q;
    while k > 0 && p[k] != t[j]
      invariant 0 <= k < hi
      invariant EndsWith(p, k, t, j)
      invariant NoneLonger(p, k + 1, hi, t, j + 1)
      decreases k
    {
      Fallback(p, pi, t, j, k, hi);
      k := pi[k - 1];
    }
    next := if p[k] == t[j] then k + 1 else k;
    Advance(p, t, j, k, hi, next);
  }

  /**
   * `_compute_prefix_function`: for each `i`, the length of the longest
   * proper border of `p[..i + 1]`; in particular `pi[i] <= i`.
   */
  method ComputePrefixFunction(p: string) returns (pi: seq<nat>)
    ensures |pi| == |p|
    ensures forall i :: 0 <= i < |p| ==> pi[i] <= i
    ensures IsPrefixFunction(p, pi)
  {
    var m := |p|;
    if m == 0 {
      return [];
    }
    pi := [0];
    var k := 0;
    var i := 1;
    while i < m
      invariant 1 <= i <= m
      invariant |pi| == i
      invariant forall x :: 0 <= x < i ==> LongestBorder(p, x + 1, pi[x])
      invariant k == pi[i - 1]
    {
      assert LongestBorder(p, i, k);
      forall b | k < b < i
        ensures !EndsWith(p, b, p, i)
      {
        assert !IsBorder(p, i, b);
      }
      k := Transition(p, pi, p, i, k, i);
      pi := pi + [k];
      i := i + 1;
    }
  }

  /** `p[..q]` is the longest proper prefix of `p` that ends at `j`. */
  ghost predicate Longest(p: string, q: nat, t: string, j: nat)
  {
    q < |p| && EndsWith(p, q, t, j) && forall k :: q < k < |p| ==> !EndsWith(p, k, t, j)
  }

  /** `matches` lists, in increasing order, exactly the occurrences that end by `i`. */
  ghost predicate Reported(p: string, text: string, i: nat, matches: seq<nat>)
  {
    && (forall k :: 0 <= k < |matches| ==> matches[k] + |p| <= i)
    && (forall k, l :: 0 <= k < l < |matches| ==> matches[k] < matches[l])
    && (forall s: nat :: s in matches <==> s + |p| <= i && OccursAt(p, text, s))
  }

  /** Reporting the occurrence that ends at `i + 1`, if there is one, keeps `Reported`. */
  lemma ReportStep(p: string, text: string, i: nat, matches: seq<nat>, q: nat)
    requires 0 < |p| && i < |text|
    requires Reported(p, text, i, matches)
    requires (|p| <= i + 1 && OccursAt(p, text, i + 1 - |p|)) <==> q == |p|
    ensures Reported(p, text, i + 1, if q == |p| then matches + [i + 1 - |p|] else matches)
  {
    var r := if q == |p| then matches + [i + 1 - |p|] else matches;
    forall s: nat
      ensures s in r <==> s + |p| <= i + 1 && OccursAt(p, text, s)
    {
      if s + |p| == i + 1 {
        assert s !in matches;
      }
    }
  }

  /**
   * The rest of one iteration of `search`, after the fallback: the occurrence
   * ending at `j + 1` is reported exactly when all of `p` matched, and after
   * a full match the scan continues from the longest border of `p`.
   */
  lemma ScanStep(p: string, pi: seq<nat>, text: string, i: nat, q: nat, matches: seq<nat>)
    requires IsPrefixFunction(p, pi) && 0 < |p| && i < |text| && q <= |p|
    requires EndsWith(p, q, text, i + 1) && NoneLonger(p, q, |p|, text, i + 1)
    requires Reported(p, text, i, matches)
    ensures Reported(p, text, i + 1, if q == |p| then matches + [i + 1 - |p|] else matches)
    ensures Longest(p, if q == |p| then pi[|p| - 1] else q, text, i + 1)
  {
    CompleteMatch(p, text, i + 1, q);
    ReportStep(p, text, i, matches, q);
    if q == |p| {
      Restart(p, pi, text, i + 1);
    }
  }

  /**
   * `search`: every start position of an occurrence of the (non-empty)
   * pattern in `text`, overlapping ones included, in increasing order.
   */
  method Search(p: string, text: string) returns (matches: seq<nat>)
    requires |p| > 0
    ensures forall k :: 0 <= k < |matches| ==> matches[k] + |p| <= |text|
    ensures forall k, l :: 0 <= k < l < |matches| ==> matches[k] < matches[l]
    ensures forall s: nat :: s in matches <==> OccursAt(p, text, s)
  {
    var pi := ComputePrefixFunction(p);
    var n, m := |text|, |p|;
    var q := 0;
    matches := [];
    for i := 0 to n
      invariant Longest(p, q, text, i)
      invariant Reported(p, text, i, matches)
    {
      q := Transition(p, pi, text, i, q, m);
      ScanStep(p, pi, text, i, q, matches);
      if q == m {
        matches := matches + [i + 1 - m];
        q := pi[m - 1];
      }
    }
  }
}

=== FILE: nfa_exec.dfy ===
/**
 * `NFAExecutor` of laba4/interpretator.py: multi-state simulation of an arena
 * NFA. The frontier starts as the epsilon-closure of the start state; each
 * input symbol moves every frontier state along its edges for that symbol and
 * closes the result again. A text is matched when the final frontier holds a
 * final state; there is no early exit.
 */
module NfaExecutor {
  import opened Wrappers
  import opened Thompson
  import Closure

  /** The epsilon edges of the arena as a successor function. */
  function EpsTargets(a: Arena): nat -> seq<nat>
  {
    q => Targets(a, q, None)
  }

  /** The edges labelled `c` as a successor function. */
  function SymbolTargets(a: Arena, c: char): nat -> seq<nat>
  {
    q => Targets(a, q, Some(c))
  }

  /** The indices below `n`. */
  function Below(n: nat): (r: set<nat>)
    ensures forall q: nat :: q in r <==> q < n
  {
    if n == 0 then {} else Below(n - 1) + {n - 1}
  }

  function StateIds(a: Arena): set<nat>
  {
    Below(|a|)
  }

  lemma WellFormedBounded(a: Arena)
    requires WellFormed(a)
    ensures Closure.Bounded(EpsTargets(a), StateIds(a))
    ensures forall c :: Closure.Bounded(SymbolTargets(a, c), StateIds(a))
  {
  }

  /** Extending the arena only adds edges. */
  lemma ExtendsSubRelation(a: Arena, a': Arena)
    requires Extends(a, a')
    ensures Closure.SubRelation(EpsTargets(a), EpsTargets(a'))
    ensures forall c :: Closure.SubRelation(SymbolTargets(a, c), SymbolTargets(a', c))
  {
    forall l: Label, s: nat, i | 0 <= i < |Targets(a, s, l)|
      ensures Targets(a, s, l)[i] in Targets(a', s, l)
    {
      assert s < |a|;
      assert Targets(a, s, l) <= Targets(a', s, l);
      assert Targets(a', s, l)[i] == Targets(a, s, l)[i];
    }
  }

  /**
   * `_epsilon_closure`: the seed together with everything reachable from it
   * along epsilon edges; by `EpsilonClosureLeast` it is the smallest such set.
   */
  function EpsilonClosure(a: Arena, states: set<nat>): (r: set<nat>)
    requires WellFormed(a)
    ensures states <= r
    ensures Closure.Closed(EpsTargets(a), r)
    ensures states <= StateIds(a) ==> r <= StateIds(a)
  {
    WellFormedBounded(a);
    Closure.Close(EpsTargets(a), StateIds(a), states)
  }

  /** Every set that contains the seed and is closed under epsilon edges contains its closure. */
  lemma EpsilonClosureLeast(a: Arena, states: set<nat>, t: set<nat>)
    requires WellFormed(a)
    requires states <= t && Closure.Closed(EpsTargets(a), t)
    ensures EpsilonClosure(a, states) <= t
  {
    WellFormedBounded(a);
    Closure.CloseLeast(EpsTargets(a), StateIds(a), states, t);
  }

  /** The stack-based loop of `_epsilon_closure` computes the same set. */
  method EpsilonClosureLoop(a: Arena, states: set<nat>) returns (r: set<nat>)
    requires WellFormed(a)
    ensures states <= r && Closure.Closed(EpsTargets(a), r)
    ensures r == EpsilonClosure(a, states)
  {
    WellFormedBounded(a);
    r := Closure.StackClosure(EpsTargets(a), StateIds(a), states);
  }

  /** One input symbol: all `c`-successors of the frontier, then their closure. */
  function Step(a: Arena, frontier: set<nat>, c: char): set<nat>
    requires WellFormed(a)
  {
    EpsilonClosure(a, Closure.Successors(SymbolTargets(a, c), frontier))
  }

  /** The frontier after feeding `text` symbol by symbol, starting from `frontier`. */
  function Walk(a: Arena, frontier: set<nat>, text: string): set<nat>
    requires WellFormed(a)
    decreases |text|
  {
    if text == [] then frontier else Walk(a, Step(a, frontier, text[0]), text[1..])
  }

  function StartFrontier(a: Arena, f: Nfa): set<nat>
    requires WellFormed(a)
  {
    EpsilonClosure(a, {f.start})
  }

  predicate HasFinal(a: Arena, frontier: set<nat>)
  {
    exists q :: q in frontier && q < |a| && a[q].isFinal
  }

  /**
   * `NFAExecutor.match`: the text is accepted when the frontier it leads to
   * holds a final state, which needs a live frontier. What each builder's
   * fragment accepts is fixed by `FromSymbolLanguage`, `UnionMatches`,
   * `ConcatKeepsLeftMatches` and `KleeneStarKeepsMatches`.
   */
  function Match(a: Arena, f: Nfa, text: string): (r: bool)
    requires WellFormed(a)
    ensures r ==> Walk(a, StartFrontier(a, f), text) != {}
  {
    HasFinal(a, Walk(a, StartFrontier(a, f), text))
  }

  /** Feeding `u + v` is feeding `u`, then `v` from the frontier `u` reached. */
  lemma {:induction false} WalkAppend(a: Arena, frontier: set<nat>, u: string, v: string)
    requires WellFormed(a)
    ensures Walk(a, frontier, u + v) == Walk(a, Walk(a, frontier, u), v)
    decreases |u|
  {
    if u == [] {
      assert u + v == v;
    } else {
      var next := Step(a, frontier, u[0]);
      assert (u + v)[1..] == u[1..] + v;
      calc {
        Walk(a, frontier, u + v);
        Walk(a, next, u[1..] + v);
        { WalkAppend(a, next, u[1..], v); }
        Walk(a, Walk(a, next, u[1..]), v);
      }
    }
  }

  /** The frontier never leaves the arena. */
  lemma {:induction false} WalkInArena(a: Arena, frontier: set<nat>, text: string)
    requires WellFormed(a) && frontier <= StateIds(a)
    ensures Walk(a, frontier, text) <= StateIds(a)
    decreases |text|
  {
    if text != [] {
      WellFormedBounded(a);
      WalkInArena(a, Step(a, frontier, text[0]), text[1..]);
    }
  }

  /** An empty frontier stays empty whatever the input: the simulation is dead. */
  lemma {:induction false} WalkFromEmpty(a: Arena, text: string)
    requires WellFormed(a)
    ensures Walk(a, {}, text) == {}
    decreases |text|
  {
    if text != [] {
      WellFormedBounded(a);
      Closure.CloseOfClosed(EpsTargets(a), StateIds(a), {});
      assert Step(a, {}, text[0]) == {};
      WalkFromEmpty(a, text[1..]);
    }
  }

  /**
   * Building more of the automaton never removes a frontier state: with more
   * edges and a larger starting frontier, every later frontier is larger.
   */
  lemma {:induction false} WalkMonotone(a: Arena, a': Arena, frontier: set<nat>, frontier': set<nat>, text: string)
    requires WellFormed(a) && WellFormed(a') && Extends(a, a')
    requires frontier <= frontier' && frontier <= StateIds(a)
    ensures Walk(a, frontier, text) <= Walk(a', frontier', text)
    decreases |text|
  {
    if text != [] {
      WellFormedBounded(a);
      WellFormedBounded(a');
      var c := text[0];
      ExtendsSubRelation(a, a');
      assert Closure.SubRelation(SymbolTargets(a, c), SymbolTargets(a', c));
      var next := Closure.Successors(SymbolTargets(a, c), frontier);
      var next' := Closure.Successors(SymbolTargets(a', c), frontier');
      assert next <= next' by {
        forall t | t in next
          ensures t in next'
        {
          var s, i :| s in frontier && 0 <= i < |SymbolTargets(a, c)(s)| && SymbolTargets(a, c)(s)[i] == t;
          assert t in SymbolTargets(a', c)(s);
          var j :| 0 <= j < |SymbolTargets(a', c)(s)| && SymbolTargets(a', c)(s)[j] == t;
        }
      }
      Closure.CloseMonotone(EpsTargets(a), StateIds(a), next, EpsTargets(a'), StateIds(a'), next');
      assert next <= StateIds(a);
      WalkMonotone(a, a', Step(a, frontier, c), Step(a', frontier', c), text[1..]);
    }
  }

  /**
   * Whatever a fragment matches in an arena it still matches after the arena
   * is extended by later construction steps: acceptance flags are never reset.
   */
  lemma MatchSurvivesExtension(a: Arena, a': Arena, f: Nfa, f': Nfa, text: string)
    requires ValidNfa(a, f) && WellFormed(a') && Extends(a, a') && f'.start == f.start
    requires Match(a, f, text)
    ensures Match(a', f', text)
  {
    WellFormedBounded(a);
    WellFormedBounded(a');
    var s0 := StartFrontier(a, f);
    var s1 := StartFrontier(a', f');
    ExtendsSubRelation(a, a');
    Closure.CloseMonotone(EpsTargets(a), StateIds(a), {f.start}, EpsTargets(a'), StateIds(a'), {f.start});
    WalkMonotone(a, a', s0, s1, text);
    WalkInArena(a, s0, text);
    var q :| q in Walk(a, s0, text) && q < |a| && a[q].isFinal;
    assert q in Walk(a', s1, text) && a'[q].isFinal;
  }

  /**
   * `concat` leaves the left accept state final, so the concatenation matches
   * every text its left operand matches (for `ab` that includes `a`).
   */
  lemma ConcatKeepsLeftMatches(a: Arena, f1: Nfa, f2: Nfa, text: string)
    requires ValidNfa(a, f1) && ValidNfa(a, f2)
    requires Match(a, f1, text)
    ensures Match(Concat(a, f1, f2).0, Concat(a, f1, f2).1, text)
  {
    var (a', f) := Concat(a, f1, f2);
    MatchSurvivesExtension(a, a', f1, f, text);
  }

  /** The star's start state reaches its accept state by one epsilon edge. */
  lemma StarStartReachesAccept(a: Arena, f: Nfa)
    requires ValidNfa(a, f)
    ensures KleeneStar(a, f).1.accept in StartFrontier(KleeneStar(a, f).0, KleeneStar(a, f).1)
  {
    var r := KleeneStar(a, f);
    var a', g := r.0, r.1;
    assert Targets(a', |a|, None) == [f.start, |a| + 1] by {
      KleeneStarEdges(a, f);
    }
    var cl := StartFrontier(a', g);
    assert g.start in cl;
    assert Closure.Closed(EpsTargets(a'), cl);
    assert EpsTargets(a')(g.start)[1] in cl;
  }

  /** The star of any fragment matches the empty text (zero repetitions). */
  lemma KleeneStarMatchesEmpty(a: Arena, f: Nfa)
    requires ValidNfa(a, f)
    ensures Match(KleeneStar(a, f).0, KleeneStar(a, f).1, [])
  {
    var r := KleeneStar(a, f);
    var a', g := r.0, r.1;
    var cl := StartFrontier(a', g);
    StarStartReachesAccept(a, f);
    assert g.accept in cl;
    assert g.accept < |a'| && a'[g.accept].isFinal;
    assert Walk(a', cl, []) == cl;
  }

  /**
   * The star matches every text its operand matches: its start reaches the
   * operand's start by an epsilon edge, and no state loses its finality.
   */
  lemma KleeneStarKeepsMatches(a: Arena, f: Nfa, text: string)
    requires ValidNfa(a, f)
    requires Match(a, f, text)
    ensures Match(KleeneStar(a, f).0, KleeneStar(a, f).1, text)
  {
    var r := KleeneStar(a, f);
    var a', g := r.0, r.1;
    WellFormedBounded(a);
    WellFormedBounded(a');
    ExtendsSubRelation(a, a');
    var s0 := StartFrontier(a, f);
    var s1 := StartFrontier(a', g);
    assert f.start in s1 by {
      KleeneStarEdges(a, f);
      assert g.start in s1;
      assert Closure.Closed(EpsTargets(a'), s1);
      assert EpsTargets(a')(g.start)[0] == f.start;
    }
    Closure.CloseMonotone(EpsTargets(a), StateIds(a), {f.start}, EpsTargets(a'), StateIds(a'), {f.start});
    EpsilonClosureLeast(a', {f.start}, s1);
    WalkMonotone(a, a', s0, s1, text);
    WalkInArena(a, s0, text);
    var q :| q in Walk(a, s0, text) && q < |a| && a[q].isFinal;
    assert q in Walk(a', s1, text) && a'[q].isFinal;
  }

  /** The closure of a set whose members have no epsilon edges is the set itself. */
  lemma ClosureWithoutEpsilon(a: Arena, states: set<nat>)
    requires WellFormed(a)
    requires forall q :: q in states ==> Targets(a, q, None) == []
    ensures EpsilonClosure(a, states) == states
  {
    WellFormedBounded(a);
    Closure.CloseOfClosed(EpsTargets(a), StateIds(a), states);
  }

  /** The `c`-successors of a single state are the members of its target list. */
  lemma SuccessorsOfSingleton(a: Arena, q: nat, c: char, targets: set<nat>)
    requires forall t :: t in targets <==> t in Targets(a, q, Some(c))
    ensures Closure.Successors(SymbolTargets(a, c), {q}) == targets
  {
    var next := Closure.Successors(SymbolTargets(a, c), {q});
    forall t | t in targets
      ensures t in next
    {
      var i :| 0 <= i < |Targets(a, q, Some(c))| && Targets(a, q, Some(c))[i] == t;
      assert SymbolTargets(a, c)(q)[i] == t;
    }
  }

  /** A state without any edges kills every non-empty input. */
  lemma {:induction false} WalkFromSink(a: Arena, q: nat, text: string)
    requires WellFormed(a)
    requires forall l :: Targets(a, q, l) == []
    requires text != []
    ensures Walk(a, {q}, text) == {}
  {
    SuccessorsOfSingleton(a, q, text[0], {});
    ClosureWithoutEpsilon(a, {});
    WalkFromEmpty(a, text[1..]);
  }

  /** The two states `FromSymbol` adds, in isolation from the rest of the arena. */
  ghost predicate SymbolPair(a: Arena, f: Nfa, c: char)
  {
    && ValidNfa(a, f)
    && !a[f.start].isFinal && a[f.accept].isFinal
    && (forall l :: Targets(a, f.accept, l) == [])
    && (forall l :: l != Some(c) ==> Targets(a, f.start, l) == [])
    && Targets(a, f.start, Some(c)) == [f.accept]
  }

  lemma FromSymbolPair(a: Arena, c: char)
    requires WellFormed(a)
    ensures SymbolPair(FromSymbol(a, c).0, FromSymbol(a, c).1, c)
  {
  }

  lemma SymbolPairLanguage(a: Arena, f: Nfa, c: char, text: string)
    requires SymbolPair(a, f, c)
    ensures Match(a, f, text) <==> text == [c]
  {
    ClosureWithoutEpsilon(a, {f.start});
    assert StartFrontier(a, f) == {f.start};
    if text == [] {
      assert Walk(a, {f.start}, text) == {f.start};
    } else if text[0] == c {
      SuccessorsOfSingleton(a, f.start, c, {f.accept});
      ClosureWithoutEpsilon(a, {f.accept});
      assert Walk(a, {f.start}, text) == Walk(a, {f.accept}, text[1..]);
      if text[1..] == [] {
        assert text == [c];
      } else {
        WalkFromSink(a, f.accept, text[1..]);
        assert text != [c];
      }
    } else {
      SuccessorsOfSingleton(a, f.start, text[0], {});
      ClosureWithoutEpsilon(a, {});
      WalkFromEmpty(a, text[1..]);
      assert Walk(a, {f.start}, text) == {};
    }
  }

  /** The fragment of a single symbol `c` matches a text exactly when the text is `c`. */
  lemma FromSymbolLanguage(a: Arena, c: char, text: string)
    requires WellFormed(a)
    ensures Match(FromSymbol(a, c).0, FromSymbol(a, c).1, text) <==> text == [c]
  {
    FromSymbolPair(a, c);
    SymbolPairLanguage(FromSymbol(a, c).0, FromSymbol(a, c).1, c, text);
  }
}

=== FILE: pattern_matcher.dfy ===
/**
 * `NFAPatternMatcher` of laba4/interpretator.py: for every start index, grow
 * a candidate substring one symbol at a time and re-run the whole simulation
 * on it; record the index at the first candidate that matches, and give up on
 * the index as soon as the frontier for the candidate is empty.
 */
module PatternMatcher {
  import opened Thompson
  import opened NfaExecutor

  /**
   * `_can_continue`: the frontier after consuming `w` is not empty. A matched
   * candidate can always continue, and a candidate that cannot continue has
   * no matched extension, which is what the early `break` relies on.
   */
  function CanContinue(a: Arena, f: Nfa, w: string): (r: bool)
    requires WellFormed(a)
    ensures Match(a, f, w) ==> r
    ensures !r ==> forall v :: !Match(a, f, w + v)
  {
    var frontier := Walk(a, StartFrontier(a, f), w);
    assert frontier == {} ==> forall v :: !Match(a, f, w + v) by {
      if frontier == {} {
        forall v
          ensures !Match(a, f, w + v)
        {
          WalkAppend(a, StartFrontier(a, f), w, v);
          WalkFromEmpty(a, v);
        }
      }
    }
    frontier != {}
  }

  /**
   * Once the frontier is empty no extension of the candidate can match or
   * continue, so the early `break` of `find_matches` never loses a match.
   */
  lemma DeadPrefixNeverMatches(a: Arena, f: Nfa, w: string, v: string)
    requires WellFormed(a)
    requires !CanContinue(a, f, w)
    ensures !CanContinue(a, f, w + v) && !Match(a, f, w + v)
  {
    WalkAppend(a, StartFrontier(a, f), w, v);
    WalkFromEmpty(a, v);
  }

  /** A matched candidate always has a non-empty frontier. */
  lemma MatchCanContinue(a: Arena, f: Nfa, w: string)
    requires WellFormed(a)
    requires Match(a, f, w)
    ensures CanContinue(a, f, w)
  {
  }

  /** Some non-empty prefix of `text[i..]` is matched. */
  ghost predicate MatchesAt(a: Arena, f: Nfa, text: string, i: nat)
    requires WellFormed(a)
  {
    exists j :: i < j <= |text| && Match(a, f, text[i..j])
  }

  /** `matches` lists, in increasing order, exactly the indices below `i` at which a match starts. */
  ghost predicate Recorded(a: Arena, f: Nfa, text: string, i: nat, matches: seq<nat>)
    requires WellFormed(a)
  {
    && (forall k :: 0 <= k < |matches| ==> matches[k] < i)
    && (forall k, l :: 0 <= k < l < |matches| ==> matches[k] < matches[l])
    && (forall x: nat :: x in matches <==> x < i && MatchesAt(a, f, text, x))
  }

  /** Recording index `i` exactly when a match starts there keeps `Recorded`. */
  lemma RecordStep(a: Arena, f: Nfa, text: string, i: nat, matches: seq<nat>, found: bool)
    requires WellFormed(a)
    requires Recorded(a, f, text, i, matches)
    requires found <==> MatchesAt(a, f, text, i)
    ensures Recorded(a, f, text, i + 1, if found then matches + [i] else matches)
  {
    var r := if found then matches + [i] else matches;
    forall x: nat
      ensures x in r <==> x < i + 1 && MatchesAt(a, f, text, x)
    {
      if x == i {
        assert x !in matches;
      }
    }
  }

  /**
   * The inner loop of `find_matches` for one start index `i`: it reports a
   * match exactly when some non-empty prefix of `text[i..]` is matched.
   */
  method MatchFrom(a: Arena, f: Nfa, text: string, i: nat) returns (found: bool)
    requires WellFormed(a) && i <= |text|
    ensures found <==> MatchesAt(a, f, text, i)
  {
    var n := |text|;
    var j := i;
    while j < n
      invariant i <= j <= n
      invariant forall e :: i < e <= j ==> !Match(a, f, text[i..e])
    {
      var candidate := text[i..j + 1];
      if Match(a, f, candidate) {
        return true;
      } else if !CanContinue(a, f, candidate) {
        forall e | j + 1 < e <= n
          ensures !Match(a, f, text[i..e])
        {
          assert text[i..e] == candidate + text[j + 1..e];
          DeadPrefixNeverMatches(a, f, candidate, text[j + 1..e]);
        }
        return false;
      }
      j := j + 1;
    }
    return false;
  }

  /**
   * `find_matches`: exactly the indices of `text` at which some non-empty
   * prefix of the rest of the text is matched, in strictly increasing order.
   */
  method FindMatches(a: Arena, f: Nfa, text: string) returns (matches: seq<nat>)
    requires WellFormed(a)
    ensures forall k :: 0 <= k < |matches| ==> matches[k] < |text|
    ensures forall k, l :: 0 <= k < l < |matches| ==> matches[k] < matches[l]
    ensures forall i: nat :: i in matches <==> i < |text| && MatchesAt(a, f, text, i)
  {
    matches := [];
    var n := |text|;
    for i := 0 to n
      invariant Recorded(a, f, text, i, matches)
    {
      var found := MatchFrom(a, f, text, i);
      RecordStep(a, f, text, i, matches, found);
      if found {
        matches := matches + [i];
      }
    }
  }
}

=== FILE: regex_parser.dfy ===
/**
 * `RegexParser` of laba4/interpretator.py: recursive descent over
 *
 *   expression := term ('|' term)*
 *   term       := factor+            (stops before end of input, '|' or ')')
 *   factor     := base '*'*
 *   base       := '(' expression ')' | alphanumeric symbol
 *
 * building the automaton while parsing. The cursor is threaded through the
 * rule functions; each `while` loop of the source is a tail-recursive
 * `...Rest` function carrying the fragment built so far.
 */
module RegexParser {
  import opened Wrappers
  import opened Thompson

  /** `str.isalnum`, restricted to ASCII letters and digits. */
  predicate IsAlnum(c: char)
  {
    'a' <= c <= 'z' || 'A' <= c <= 'Z' || '0' <= c <= '9'
  }

  /** The characters a successful parse can consume. */
  predicate Legal(c: char)
  {
    IsAlnum(c) || c == '(' || c == ')' || c == '|' || c == '*'
  }

  /** The characters that each create two states: a symbol, a union, a star. */
  predicate Counted(c: char)
  {
    IsAlnum(c) || c == '|' || c == '*'
  }

  /**
   * The failures of `parse`. The first three are the source's `ValueError`s;
   * `EndOfInput` is the `AttributeError` raised by `None.isalnum()` when a
   * base is expected at the end of the pattern.
   */
  datatype ParseError =
    | UnexpectedChar(pos: nat)
    | MissingCloseParen(pos: nat)
    | InvalidChar(pos: nat, c: char)
    | EndOfInput

  /** A fragment built so far, its arena, and the cursor after it. */
  datatype Parsed = Parsed(arena: Arena, nfa: Nfa, next: nat)

  /** `_current_char`: `None` at end of input. */
  function CurrentChar(re: string, i: nat): (r: Option<char>)
    ensures r.Some? <==> i < |re|
    ensures r.Some? ==> r.value == re[i]
  {
    if i >= |re| then None else Some(re[i])
  }

  /** The number of counted characters in `re[i..j]`. */
  function Weight(re: string, i: nat, j: nat): nat
    requires i <= j <= |re|
    decreases j - i
  {
    if i == j then 0 else Weight(re, i, j - 1) + (if Counted(re[j - 1]) then 1 else 0)
  }

  lemma {:induction false} WeightSplit(re: string, i: nat, j: nat, k: nat)
    requires i <= j <= k <= |re|
    ensures Weight(re, i, k) == Weight(re, i, j) + Weight(re, j, k)
    decreases k - j
  {
    if j < k {
      WeightSplit(re, i, j, k - 1);
    }
  }

  /**
   * What every successful rule guarantees about the text `re[i..p.next]` it
   * consumed from arena `a`: at least one character, all of them legal; the
   * arena only extended, by exactly two states per counted character; and a
   * fragment with a non-final start and a final accept.
   */
  ghost predicate Consumed(re: string, a: Arena, i: nat, p: Parsed)
  {
    && i < p.next <= |re|
    && Extends(a, p.arena)
    && ValidNfa(p.arena, p.nfa)
    && !p.arena[p.nfa.start].isFinal
    && p.arena[p.nfa.accept].isFinal
    && |p.arena| == |a| + 2 * Weight(re, i, p.next)
    && (forall k :: i <= k < p.next ==> Legal(re[k]))
  }

  lemma ConsumedValid(re: string, a: Arena, i: nat, p: Parsed, a': Arena)
    requires Consumed(re, a, i, p) && WellFormed(a') && Extends(p.arena, a')
    ensures ValidNfa(a', p.nfa)
    ensures !a'[p.nfa.start].isFinal && a'[p.nfa.accept].isFinal
  {
  }

  lemma SymbolStep(re: string, a: Arena, i: nat)
    requires i < |re| && IsAlnum(re[i]) && WellFormed(a)
    ensures Consumed(re, a, i, Parsed(FromSymbol(a, re[i]).0, FromSymbol(a, re[i]).1, i + 1))
  {
    assert Weight(re, i, i + 1) == 1;
  }

  lemma ParenStep(re: string, a: Arena, i: nat, e: Parsed)
    requires i < |re| && re[i] == '('
    requires Consumed(re, a, i + 1, e) && e.next < |re| && re[e.next] == ')'
    ensures Consumed(re, a, i, Parsed(e.arena, e.nfa, e.next + 1))
  {
    WeightSplit(re, i, i + 1, e.next);
    WeightSplit(re, i, e.next, e.next + 1);
  }

  lemma StarStep(re: string, a0: Arena, i0: nat, acc: Parsed)
    requires Consumed(re, a0, i0, acc) && acc.next < |re| && re[acc.next] == '*'
    ensures Consumed(re, a0, i0,
                     Parsed(KleeneStar(acc.arena, acc.nfa).0, KleeneStar(acc.arena, acc.nfa).1, acc.next + 1))
  {
    var (a', f) := KleeneStar(acc.arena, acc.nfa);
    ExtendsTrans(a0, acc.arena, a');
    WeightSplit(re, i0, acc.next, acc.next + 1);
    var w := Weight(re, i0, acc.next);
    assert |acc.arena| == |a0| + 2 * w;
    assert Weight(re, i0, acc.next + 1) == w + 1;
  }

  lemma ConcatStep(re: string, a0: Arena, i0: nat, acc: Parsed, f: Parsed)
    requires Consumed(re, a0, i0, acc) && Consumed(re, acc.arena, acc.next, f)
    ensures ValidNfa(f.arena, acc.nfa)
    ensures Consumed(re, a0, i0,
                     Parsed(Concat(f.arena, acc.nfa, f.nfa).0, Concat(f.arena, acc.nfa, f.nfa).1, f.next))
  {
    ConsumedValid(re, a0, i0, acc, f.arena);
    var (a', g) := Concat(f.arena, acc.nfa, f.nfa);
    ExtendsTrans(a0, acc.arena, f.arena);
    ExtendsTrans(a0, f.arena, a');
    WeightSplit(re, i0, acc.next, f.next);
  }

  lemma UnionStep(re: string, a0: Arena, i0: nat, acc: Parsed, t: Parsed)
    requires Consumed(re, a0, i0, acc) && acc.next < |re| && re[acc.next] == '|'
    requires Consumed(re, acc.arena, acc.next + 1, t)
    ensures ValidNfa(t.arena, acc.nfa)
    ensures Consumed(re, a0, i0,
                     Parsed(Union(t.arena, acc.nfa, t.nfa).0, Union(t.arena, acc.nfa, t.nfa).1, t.next))
  {
    ConsumedValid(re, a0, i0, acc, t.arena);
    ExtendsTrans(a0, acc.arena, t.arena);
    ExtendsTrans(a0, t.arena, Union(t.arena, acc.nfa, t.nfa).0);
    UnionSize(re, a0, i0, acc, t);
    LegalJoin(re, i0, acc.next, t.next);
  }

  /** `union` adds two states, and so does the bar that asks for it. */
  lemma UnionSize(re: string, a0: Arena, i0: nat, acc: Parsed, t: Parsed)
    requires Consumed(re, a0, i0, acc) && acc.next < |re| && re[acc.next] == '|'
    requires Consumed(re, acc.arena, acc.next + 1, t)
    requires ValidNfa(t.arena, acc.nfa)
    ensures |Union(t.arena, acc.nfa, t.nfa).0| == |a0| + 2 * Weight(re, i0, t.next)
  {
    BarWeight(re, i0, acc.next, t.next);
    var w1, w2 := Weight(re, i0, acc.next), Weight(re, acc.next + 1, t.next);
    assert |acc.arena| == |a0| + 2 * w1;
    assert |t.arena| == |acc.arena| + 2 * w2;
    assert Weight(re, i0, t.next) == w1 + 1 + w2;
  }

  /** The bar between two stretches counts once, for the two states `union` adds. */
  lemma BarWeight(re: string, i: nat, j: nat, k: nat)
    requires i <= j < k <= |re| && re[j] == '|'
    ensures Weight(re, i, k) == Weight(re, i, j) + 1 + Weight(re, j + 1, k)
  {
    WeightSplit(re, i, j, k);
    WeightSplit(re, j, j + 1, k);
    assert Weight(re, j, j + 1) == 1;
  }

  /** A bar between two legal stretches makes one legal stretch. */
  lemma LegalJoin(re: string, i: nat, j: nat, k: nat)
    requires i <= j < k <= |re| && re[j] == '|'
    requires forall m :: i <= m < j ==> Legal(re[m])
    requires forall m :: j + 1 <= m < k ==> Legal(re[m])
    ensures forall m :: i <= m < k ==> Legal(re[m])
  {
  }

  /** Where a term may stop: end of input, an alternation bar or a closing parenthesis. */
  predicate TermEnd(re: string, n: nat)
  {
    n == |re| || (n < |re| && (re[n] == '|' || re[n] == ')'))
  }

  /** Where an expression may stop: end of input or a closing parenthesis. */
  predicate ExpressionEnd(re: string, n: nat)
  {
    n == |re| || (n < |re| && re[n] == ')')
  }

  /** `_expression`: a term, then any number of `'|' term`, folded left by `union`. */
  function Expression(re: string, a: Arena, i: nat): (r: Result<Parsed, ParseError>)
    requires i <= |re| && WellFormed(a)
    ensures r.Success? ==> Consumed(re, a, i, r.value)
    ensures r.Success? ==> ExpressionEnd(re, r.value.next)
    decreases |re| - i, 4
  {
    var t :- Term(re, a, i);
    ExpressionRest(re, a, i, t)
  }

  function ExpressionRest(re: string, a0: Arena, i0: nat, acc: Parsed): (r: Result<Parsed, ParseError>)
    requires Consumed(re, a0, i0, acc)
    requires TermEnd(re, acc.next)
    ensures r.Success? ==> Consumed(re, a0, i0, r.value)
    ensures r.Success? ==> ExpressionEnd(re, r.value.next)
    decreases |re| - acc.next, 4
  {
    if CurrentChar(re, acc.next) == Some('|') then
      var t :- Term(re, acc.arena, acc.next + 1);
      UnionStep(re, a0, i0, acc, t);
      var u := Union(t.arena, acc.nfa, t.nfa);
      ExpressionRest(re, a0, i0, Parsed(u.0, u.1, t.next))
    else
      Success(acc)
  }

  /** `_term`: one factor, then more factors until end of input, `'|'` or `')'`, folded left by `concat`. */
  function Term(re: string, a: Arena, i: nat): (r: Result<Parsed, ParseError>)
    requires i <= |re| && WellFormed(a)
    ensures r.Success? ==> Consumed(re, a, i, r.value)
    ensures r.Success? ==> TermEnd(re, r.value.next)
    decreases |re| - i, 3
  {
    var f :- Factor(re, a, i);
    TermRest(re, a, i, f)
  }

  function TermRest(re: string, a0: Arena, i0: nat, acc: Parsed): (r: Result<Parsed, ParseError>)
    requires Consumed(re, a0, i0, acc)
    ensures r.Success? ==> Consumed(re, a0, i0, r.value)
    ensures r.Success? ==> TermEnd(re, r.value.next)
    decreases |re| - acc.next, 3
  {
    var c := CurrentChar(re, acc.next);
    if c == None || c == Some('|') || c == Some(')') then
      Success(acc)
    else
      var f :- Factor(re, acc.arena, acc.next);
      ConcatStep(re, a0, i0, acc, f);
      var g := Concat(f.arena, acc.nfa, f.nfa);
      TermRest(re, a0, i0, Parsed(g.0, g.1, f.next))
  }

  /** `_factor`: a base followed by any number of stars, each applying `kleene_star` once more. */
  function Factor(re: string, a: Arena, i: nat): (r: Result<Parsed, ParseError>)
    requires i <= |re| && WellFormed(a)
    ensures r.Success? ==> Consumed(re, a, i, r.value)
    decreases |re| - i, 2
  {
    var b :- Base(re, a, i);
    Success(Stars(re, a, i, b))
  }

  function Stars(re: string, a0: Arena, i0: nat, acc: Parsed): (r: Parsed)
    requires Consumed(re, a0, i0, acc)
    ensures Consumed(re, a0, i0, r)
    ensures acc.next <= r.next
    ensures r.next < |re| ==> re[r.next] != '*'
    decreases |re| - acc.next
  {
    if CurrentChar(re, acc.next) == Some('*') then
      StarStep(re, a0, i0, acc);
      var s := KleeneStar(acc.arena, acc.nfa);
      Stars(re, a0, i0, Parsed(s.0, s.1, acc.next + 1))
    else
      acc
  }

  /** `_base`: a parenthesised expression or one alphanumeric symbol. */
  function Base(re: string, a: Arena, i: nat): (r: Result<Parsed, ParseError>)
    requires i <= |re| && WellFormed(a)
    ensures r.Success? ==> Consumed(re, a, i, r.value)
    ensures i == |re| ==> r == Failure(EndOfInput)
    ensures i < |re| && re[i] != '(' && !IsAlnum(re[i]) ==> r == Failure(InvalidChar(i, re[i]))
    decreases |re| - i, 1
  {
    match CurrentChar(re, i)
    case None => Failure(EndOfInput)
    case Some(c) =>
      if c == '(' then
        var e :- Expression(re, a, i + 1);
        if CurrentChar(re, e.next) != Some(')') then
          Failure(MissingCloseParen(e.next))
        else
          ParenStep(re, a, i, e);
          Success(Parsed(e.arena, e.nfa, e.next + 1))
      else if IsAlnum(c) then
        SymbolStep(re, a, i);
        var s := FromSymbol(a, c);
        Success(Parsed(s.0, s.1, i + 1))
      else
        Failure(InvalidChar(i, c))
  }

  /**
   * `parse`: an expression that must consume the whole pattern, built in a
   * fresh arena. It succeeds exactly when the top-level expression parses
   * and reaches the end of the pattern; an expression that stops early
   * stopped at a `)`, which is reported as unexpected. On success the
   * automaton has two states per symbol, `|` and `*` of the pattern, and the
   * pattern uses only legal characters.
   */
  function Parse(re: string): (r: Result<(Arena, Nfa), ParseError>)
    ensures r.Success? <==> Expression(re, [], 0).Success? && Expression(re, [], 0).value.next == |re|
    ensures r.Success? ==> r.value == (Expression(re, [], 0).value.arena, Expression(re, [], 0).value.nfa)
    ensures Expression(re, [], 0).Success? && Expression(re, [], 0).value.next < |re| ==>
      r == Failure(UnexpectedChar(Expression(re, [], 0).value.next)) && re[Expression(re, [], 0).value.next] == ')'
    ensures Expression(re, [], 0).Failure? ==> r == Failure(Expression(re, [], 0).error)
    ensures r.Success? ==> ValidNfa(r.value.0, r.value.1)
    ensures r.Success? ==> |r.value.0| == 2 * Weight(re, 0, |re|)
    ensures r.Success? ==> forall k :: 0 <= k < |re| ==> Legal(re[k])
    ensures r.Success? ==> !r.value.0[r.value.1.start].isFinal && r.value.0[r.value.1.accept].isFinal
    ensures re == [] ==> r == Failure(EndOfInput)
  {
    var e :- Expression(re, [], 0);
    if e.next < |re| then Failure(UnexpectedChar(e.next)) else Success((e.arena, e.nfa))
  }
}

=== FILE: regex_scenarios.dfy ===
/**
 * Concrete behaviour of the regular-expression engine of
 * laba4/interpretator.py on small patterns: the error each malformed pattern
 * raises, the size of the automaton for a repeated star, and the consequence
 * of `concat` leaving the left accept state final.
 */
module RegexScenarios {
  import opened Wrappers
  import opened Thompson
  import opened RegexParser
  import opened NfaExecutor
  import PatternMatcher
  import Kmp

  /** A `)` with no matching `(` is left over after the expression: "Unexpected character". */
  lemma ParseStrayCloseParen()
    ensures Parse("a)") == Failure(UnexpectedChar(1))
  {
    var p := Parsed(FromSymbol([], 'a').0, FromSymbol([], 'a').1, 1);
    LeadingSymbol("a)");
    assert ExpressionRest("a)", [], 0, p) == Success(p);
  }

  /** A pattern cannot start with `*`: it is not a valid base character. */
  lemma ParseLeadingStar()
    ensures Parse("*a") == Failure(InvalidChar(0, '*'))
  {
    assert Base("*a", [], 0) == Failure(InvalidChar(0, '*'));
    assert Term("*a", [], 0) == Failure(InvalidChar(0, '*'));
  }

  /** A trailing `|` asks for a base at the end of the pattern. */
  lemma ParseTrailingBar()
    ensures Parse("a|") == Failure(EndOfInput)
  {
    var p := Parsed(FromSymbol([], 'a').0, FromSymbol([], 'a').1, 1);
    LeadingSymbol("a|");
    assert Base("a|", p.arena, 2) == Failure(EndOfInput);
    assert Term("a|", p.arena, 2) == Failure(EndOfInput);
    assert ExpressionRest("a|", [], 0, p) == Failure(EndOfInput);
  }

  /**
   * A pattern `a` followed by `)` or `|` has the symbol fragment of `a` as its
   * first term, stopping at position 1.
   */
  lemma LeadingSymbol(re: string)
    requires |re| == 2 && re[0] == 'a' && (re[1] == ')' || re[1] == '|')
    ensures Consumed(re, [], 0, Parsed(FromSymbol([], 'a').0, FromSymbol([], 'a').1, 1))
    ensures Term(re, [], 0) == Success(Parsed(FromSymbol([], 'a').0, FromSymbol([], 'a').1, 1))
  {
    var p := Parsed(FromSymbol([], 'a').0, FromSymbol([], 'a').1, 1);
    SymbolFactor(re, [], 0);
    assert TermRest(re, [], 0, p) == Success(p);
  }

  /** An unclosed group reports the position where `)` was expected. */
  lemma ParseUnclosedParen()
    ensures Parse("(a") == Failure(MissingCloseParen(2))
  {
    var re := "(a";
    var s := FromSymbol([], 'a');
    var p := Parsed(s.0, s.1, 2);
    assert Base(re, [], 1) == Success(p);
    assert Stars(re, [], 1, p) == p;
    assert Factor(re, [], 1) == Success(p);
    assert TermRest(re, [], 1, p) == Success(p);
    assert Term(re, [], 1) == Success(p);
    assert ExpressionRest(re, [], 1, p) == Success(p);
    assert Expression(re, [], 1) == Success(p);
    assert Base(re, [], 0) == Failure(MissingCloseParen(2));
  }

  /** An empty group fails on the `)` where a base was expected. */
  lemma ParseEmptyGroup()
    ensures Parse("()") == Failure(InvalidChar(1, ')'))
  {
    var re := "()";
    assert Base(re, [], 1) == Failure(InvalidChar(1, ')'));
    assert Expression(re, [], 1) == Failure(InvalidChar(1, ')'));
    assert Base(re, [], 0) == Failure(InvalidChar(1, ')'));
  }

  /** Each star wraps the fragment once more: `a**` builds two states for `a` and two per star. */
  lemma ParseDoubleStar()
    ensures Parse("a**").Success? && |Parse("a**").value.0| == 6
  {
    var re := "a**";
    var f := Factor(re, [], 0);
    DoubleStarFactor();
    assert Term(re, [], 0) == f;
    assert Expression(re, [], 0) == f;
  }

  /** The only factor of `a**` takes in both stars. */
  lemma DoubleStarFactor()
    ensures Factor("a**", [], 0).Success?
    ensures Factor("a**", [], 0).value.next == 3 && |Factor("a**", [], 0).value.arena| == 6
  {
    var re := "a**";
    var p1 := Parsed(FromSymbol([], 'a').0, FromSymbol([], 'a').1, 1);
    assert Base(re, [], 0) == Success(p1);
    var r := Stars(re, [], 0, p1);
    assert Factor(re, [], 0) == Success(r);
    assert r.next == 3;
    assert Weight(re, 0, 3) == 3 by {
      assert Weight(re, 0, 1) == 1;
      assert Weight(re, 0, 2) == 2;
    }
  }

  /** The automaton `concat` builds for two adjacent symbols `x` and `y`, in a fresh arena. */
  function TwoSymbols(x: char, y: char): (r: (Arena, Nfa))
    ensures ValidNfa(r.0, r.1)
    ensures |r.0| == 4 && r.1 == Nfa(0, 3)
  {
    var s1 := FromSymbol([], x);
    var s2 := FromSymbol(s1.0, y);
    Concat(s2.0, s1.1, s2.1)
  }

  /** A symbol not followed by `*` is a factor on its own: the fragment `from_symbol` builds for it. */
  lemma SymbolFactor(re: string, a: Arena, i: nat)
    requires i < |re| && WellFormed(a) && IsAlnum(re[i])
    requires i + 1 == |re| || re[i + 1] != '*'
    ensures Factor(re, a, i) == Success(Parsed(FromSymbol(a, re[i]).0, FromSymbol(a, re[i]).1, i + 1))
  {
    var p := Parsed(FromSymbol(a, re[i]).0, FromSymbol(a, re[i]).1, i + 1);
    assert Base(re, a, i) == Success(p);
    assert Stars(re, a, i, p) == p;
  }

  /** The first factor of `ab`: the fragment of `a`, stopping before `b`. */
  lemma FirstFactor()
    ensures Factor("ab", [], 0) == Success(Parsed(FromSymbol([], 'a').0, FromSymbol([], 'a').1, 1))
  {
    SymbolFactor("ab", [], 0);
  }

  /** The second factor of `ab`: the fragment of `b`, built after the one of `a`. */
  lemma SecondFactor()
    ensures Factor("ab", FromSymbol([], 'a').0, 1)
         == Success(Parsed(FromSymbol(FromSymbol([], 'a').0, 'b').0, FromSymbol(FromSymbol([], 'a').0, 'b').1, 2))
  {
    SymbolFactor("ab", FromSymbol([], 'a').0, 1);
  }

  /** The only term of `ab`: the concatenation of its two symbol fragments. */
  lemma TermTwoSymbols()
    ensures Term("ab", [], 0) == Success(Parsed(TwoSymbols('a', 'b').0, TwoSymbols('a', 'b').1, 2))
  {
    var re := "ab";
    var s1 := FromSymbol([], 'a');
    var p1 := Parsed(s1.0, s1.1, 1);
    var s2 := FromSymbol(s1.0, 'b');
    var g := Concat(s2.0, s1.1, s2.1);
    var p := Parsed(g.0, g.1, 2);
    FirstFactor();
    SecondFactor();
    ConcatStep(re, [], 0, p1, Parsed(s2.0, s2.1, 2));
    assert TermRest(re, [], 0, p1) == TermRest(re, [], 0, p);
    assert TermRest(re, [], 0, p) == Success(p) by {
      assert CurrentChar(re, 2) == None;
    }
  }

  /** `ab` parses to the concatenation of its two symbol fragments. */
  lemma ParseTwoSymbols()
    ensures Parse("ab") == Success(TwoSymbols('a', 'b'))
  {
    var p := Parsed(TwoSymbols('a', 'b').0, TwoSymbols('a', 'b').1, 2);
    TermTwoSymbols();
    assert ExpressionRest("ab", [], 0, p) == Success(p);
    assert Expression("ab", [], 0) == Success(p);
  }

  /**
   * The automaton of `xy` also matches the one-symbol text `x`: `concat` joins
   * the two symbol fragments by an epsilon edge but leaves the accept state of
   * the `x` fragment final.
   */
  lemma TwoSymbolsAcceptLeftOperand(x: char, y: char)
    ensures Match(TwoSymbols(x, y).0, TwoSymbols(x, y).1, [x])
  {
    var s1 := FromSymbol([], x);
    var s2 := FromSymbol(s1.0, y);
    FromSymbolLanguage([], x, [x]);
    MatchSurvivesExtension(s1.0, s2.0, s1.1, s1.1, [x]);
    ConcatKeepsLeftMatches(s2.0, s1.1, s2.1, [x]);
  }

  /** Hence the pattern `ab` matches the text `a`. */
  lemma ConcatAcceptsLeftOperand()
    ensures Parse("ab").Success?
    ensures Match(Parse("ab").value.0, Parse("ab").value.1, "a")
  {
    ParseTwoSymbols();
    TwoSymbolsAcceptLeftOperand('a', 'b');
  }

  /**
   * So the two matchers of the module disagree: on the text `a`,
   * `find_matches` for the pattern `ab` reports index 0, while the text holds
   * no occurrence of `ab` for `KMP.search` to report.
   */
  lemma MatchersDisagree()
    ensures Parse("ab").Success?
    ensures PatternMatcher.MatchesAt(Parse("ab").value.0, Parse("ab").value.1, "a", 0)
    ensures !Kmp.OccursAt("ab", "a", 0)
  {
    ConcatAcceptsLeftOperand();
    assert "a"[0..1] == "a";
  }
}

=== FILE: rule_fsm.dfy ===
/**
 * `StateMachine`/`Fsm` of laba6/pda.py: an automaton whose states carry
 * transition rules as functions. A rule sees the current character, the
 * memory and the transition tree and returns a dictionary whose missing keys
 * default to state -1, empty memory and empty tree; a final `end_rule` maps
 * the last state and memory to the verdict state. Python dictionaries with
 * optional keys become records of `Option` fields.
 */
module RuleFsm {
  import opened Wrappers

  /** An entry of the transition tree: from-state, to-state and the character read. */
  datatype Edge = Edge(from: int, to: int, symbol: char)

  /** What a rule returns: `state_id`, `memory` and `tree`, each possibly missing. */
  datatype Transition = Transition(stateId: Option<int>, memory: Option<seq<char>>, tree: Option<seq<Edge>>)

  /** What `end_rule` returns: `state_id` and `memory`, each possibly missing. */
  datatype EndResult = EndResult(stateId: Option<int>, memory: Option<seq<char>>)

  type Rule = (char, seq<char>, seq<Edge>) -> Transition
  type EndRule = (int, seq<char>) -> EndResult

  /** An element of `states`: a dictionary that may lack `state_id` or `rule`. */
  datatype StateEntry = StateEntry(stateId: Option<int>, rule: Option<Rule>)

  datatype Fsm = Fsm(
    alphabet: seq<char>,
    initId: int,
    endId: int,
    states: seq<StateEntry>,
    endRule: EndRule,
    currentId: int,
    memory: seq<char>,
    tree: seq<Edge>)

  /** `dict.get(key, default)`. */
  function GetOr<T>(o: Option<T>, default: T): (r: T)
    ensures o.Some? ==> r == o.value
    ensures o.None? ==> r == default
  {
    if o.Some? then o.value else default
  }

  /** The rule used for a state that has none, or for a state id that no entry carries. */
  function DefaultRule(): Rule
  {
    (ch: char, memory: seq<char>, tree: seq<Edge>) => Transition(Some(-1), Some([]), Some([]))
  }

  /** The `end_rule` used when none is given. */
  function DefaultEndRule(): EndRule
  {
    (id: int, memory: seq<char>) => EndResult(Some(-1), Some([]))
  }

  /** Memory and tree are empty. */
  predicate Clean(f: Fsm)
  {
    f.memory == [] && f.tree == []
  }

  /** `Fsm.__init__`: the current state is the initial one, memory and tree are empty. */
  function NewFsm(alphabet: seq<char>, initId: int, endId: int, states: seq<StateEntry>, endRule: Option<EndRule>): (f: Fsm)
    ensures Clean(f) && f.currentId == f.initId == initId && f.endId == endId
    ensures f.alphabet == alphabet && f.states == states
    ensures forall id, memory ::
      f.endRule(id, memory) == (if endRule.Some? then endRule.value(id, memory) else EndResult(Some(-1), Some([])))
  {
    Fsm(alphabet, initId, endId, states, GetOr(endRule, DefaultEndRule()), initId, [], [])
  }

  /** `set_init_state_id`: both the initial and the current state become `id`; nothing else changes. */
  function SetInitStateId(f: Fsm, id: int): (r: Fsm)
    ensures r.initId == id && r.currentId == id
    ensures r.alphabet == f.alphabet && r.endId == f.endId && r.states == f.states
    ensures r.memory == f.memory && r.tree == f.tree
  {
    f.(initId := id, currentId := id)
  }

  /** `set_end_rule`: a missing rule is replaced by the default one. */
  function SetEndRule(f: Fsm, endRule: Option<EndRule>): (r: Fsm)
    ensures r.alphabet == f.alphabet && r.initId == f.initId && r.endId == f.endId && r.states == f.states
    ensures r.currentId == f.currentId && r.memory == f.memory && r.tree == f.tree
    ensures forall id, memory ::
      r.endRule(id, memory) == (if endRule.Some? then endRule.value(id, memory) else EndResult(Some(-1), Some([])))
  {
    f.(endRule := GetOr(endRule, DefaultEndRule()))
  }

  /** `clear`: back to the initial state with empty memory and tree. */
  function Clear(f: Fsm): (r: Fsm)
    ensures Clean(r) && r.currentId == r.initId == f.initId
    ensures r.alphabet == f.alphabet && r.endId == f.endId && r.states == f.states
  {
    f.(currentId := f.initId, memory := [], tree := [])
  }

  /** `check_string`: every character of `s` is in the alphabet. */
  function CheckString(f: Fsm, s: string): (b: bool)
    ensures b <==> forall i :: 0 <= i < |s| ==> s[i] in f.alphabet
    decreases |s|
  {
    if s == [] then true
    else s[0] in f.alphabet && CheckString(f, s[1..])
  }

  /** The index of the first entry from `k` on whose `state_id` is `id`. */
  function FindFrom(states: seq<StateEntry>, id: int, k: nat): (r: Option<nat>)
    requires k <= |states|
    ensures r.Some? ==> (k <= r.value < |states| && states[r.value].stateId == Some(id)
      && forall j :: k <= j < r.value ==> states[j].stateId != Some(id))
    ensures r.None? ==> forall j :: k <= j < |states| ==> states[j].stateId != Some(id)
    decreases |states| - k
  {
    if k == |states| then None
    else if states[k].stateId == Some(id) then Some(k)
    else FindFrom(states, id, k + 1)
  }

  /** `next((s for s in self.states if s.get("state_id") == id), {})`, as an index. */
  function FindState(states: seq<StateEntry>, id: int): (r: Option<nat>)
    ensures r.Some? ==> (r.value < |states| && states[r.value].stateId == Some(id)
      && forall j :: 0 <= j < r.value ==> states[j].stateId != Some(id))
    ensures r.None? ==> forall j :: 0 <= j < |states| ==> states[j].stateId != Some(id)
  {
    FindFrom(states, id, 0)
  }

  /** `state.get("rule", default)` for the state found. */
  function RuleFor(states: seq<StateEntry>, id: int): Rule
  {
    match FindState(states, id)
    case None => DefaultRule()
    case Some(k) => GetOr(states[k].rule, DefaultRule())
  }

  /** The part of the machine one character changes. */
  datatype Config = Config(id: int, memory: seq<char>, tree: seq<Edge>)

  /** The `k`-th entry is the first one carrying the state id `id`. */
  ghost predicate FirstEntry(states: seq<StateEntry>, id: int, k: nat)
  {
    k < |states| && states[k].stateId == Some(id) && forall j :: 0 <= j < k ==> states[j].stateId != Some(id)
  }

  /** The configuration a rule's answer gives, missing keys taking their defaults. */
  function Follow(t: Transition): Config
  {
    Config(GetOr(t.stateId, -1), GetOr(t.memory, []), GetOr(t.tree, []))
  }

  /**
   * One pass of the `for ch in string` body: the first entry carrying the
   * current state id supplies the rule, and a missing entry or a missing rule
   * sends the machine to state -1 with empty memory and tree.
   */
  function Step(states: seq<StateEntry>, c: Config, ch: char): (r: Config)
    ensures (forall j :: 0 <= j < |states| ==> states[j].stateId != Some(c.id)) ==> r == Config(-1, [], [])
    ensures forall k: nat :: FirstEntry(states, c.id, k) ==>
      r == (if states[k].rule.Some? then Follow(states[k].rule.value(ch, c.memory, c.tree)) else Config(-1, [], []))
  {
    assert forall k: nat :: FirstEntry(states, c.id, k) ==> FindState(states, c.id) == Some(k) by {
      forall k: nat | FirstEntry(states, c.id, k)
        ensures FindState(states, c.id) == Some(k)
      {
        var v := FindState(states, c.id);
        assert v.Some?;
        assert !(v.value < k) && !(k < v.value);
      }
    }
    Follow(RuleFor(states, c.id)(ch, c.memory, c.tree))
  }

  /**
   * The whole `for ch in string` loop: the characters are consumed left to
   * right, each pass starting from the configuration the previous one left.
   */
  function Drive(states: seq<StateEntry>, c: Config, s: string): (r: Config)
    ensures s == [] ==> r == c
    ensures s != [] ==> r == Step(states, Drive(states, c, s[..|s| - 1]), s[|s| - 1])
    decreases |s|
  {
    if s == [] then c
    else
      var next := Step(states, c, s[0]);
      assert s[1..] != [] ==> s[..|s| - 1][1..] == s[1..][..|s[1..]| - 1] && s[1..][|s[1..]| - 1] == s[|s| - 1];
      Drive(states, next, s[1..])
  }

  /** A state id that no entry carries sends the machine to -1 with empty memory and tree. */
  lemma UnknownStateResets(states: seq<StateEntry>, c: Config, ch: char)
    requires forall j :: 0 <= j < |states| ==> states[j].stateId != Some(c.id)
    ensures Step(states, c, ch) == Config(-1, [], [])
  {
  }

  /** Driving over `u + v` is driving over `u`, then over `v`. */
  lemma {:induction false} DriveAppend(states: seq<StateEntry>, c: Config, u: string, v: string)
    ensures Drive(states, c, u + v) == Drive(states, Drive(states, c, u), v)
    decreases |u|
  {
    if u == [] {
      assert u + v == v;
    } else {
      assert (u + v)[0] == u[0] && (u + v)[1..] == u[1..] + v;
      DriveAppend(states, Step(states, c, u[0]), u[1..], v);
    }
  }

  /** What `run` returns: `{"result": "invalid string"}` or the verdict with the tree. */
  datatype RunResult = InvalidString | Verdict(result: bool, tree: seq<Edge>)

  /**
   * `run`: start from the initial state (with whatever memory and tree the
   * machine holds), drive over the string, apply `end_rule`, compare with the
   * end state, and clear. A string with a character outside the alphabet is
   * refused before any rule runs.
   */
  function Run(f: Fsm, s: string): (r: (RunResult, Fsm))
    ensures r.0 == InvalidString <==> !CheckString(f, s)
    ensures r.1.alphabet == f.alphabet && r.1.initId == f.initId && r.1.endId == f.endId && r.1.states == f.states
    ensures r.1.currentId == f.initId
    ensures r.0.InvalidString? ==> r.1.memory == f.memory && r.1.tree == f.tree
    ensures r.0.Verdict? ==> Clean(r.1)
  {
    var f0 := f.(currentId := f.initId);
    if !CheckString(f0, s) then (InvalidString, f0)
    else
      var c := Drive(f.states, Config(f0.currentId, f0.memory, f0.tree), s);
      var e := f.endRule(c.id, c.memory);
      var id := GetOr(e.stateId, -1);
      var tree := c.tree;
      (Verdict(id == f.endId, tree), Clear(f0.(currentId := id, memory := GetOr(e.memory, []), tree := tree)))
  }

  /**
   * The verdict of a valid string: the state `end_rule` gives for the driven
   * configuration equals the end state; the tree is the driven one, before
   * the clear.
   */
  lemma RunVerdict(f: Fsm, s: string)
    requires CheckString(f, s)
    ensures var c := Drive(f.states, Config(f.initId, f.memory, f.tree), s);
      Run(f, s).0 == Verdict(GetOr(f.endRule(c.id, c.memory).stateId, -1) == f.endId, c.tree)
  {
  }

  /** The state the machine was in before `run` plays no part in the answer. */
  lemma RunIgnoresCurrent(f: Fsm, id: int, s: string)
    ensures Run(f.(currentId := id), s).0 == Run(f, s).0
    ensures Run(f.(currentId := id), s).1.memory == Run(f, s).1.memory
    ensures Run(f.(currentId := id), s).1.tree == Run(f, s).1.tree
  {
  }

  /**
   * Memory and tree are empty between runs: every public operation keeps a
   * clean machine clean, so each `run` starts from empty memory and tree.
   */
  lemma CleanBetweenRuns(f: Fsm, s: string, id: int, endRule: Option<EndRule>)
    requires Clean(f)
    ensures Clean(Run(f, s).1)
    ensures Clean(SetInitStateId(f, id)) && Clean(SetEndRule(f, endRule)) && Clean(Clear(f))
  {
  }

  // ----- The example machine of the module -----

  /** State 0 reads `a` into state 1, state 1 reads `b` into state 2; both record the character and an edge. */
  function DemoStates(): seq<StateEntry>
  {
    [ StateEntry(Some(0), Some((ch: char, memory: seq<char>, tree: seq<Edge>) =>
        Transition(Some(if ch == 'a' then 1 else -1), Some(memory + [ch]), Some(tree + [Edge(0, 1, ch)])))),
      StateEntry(Some(1), Some((ch: char, memory: seq<char>, tree: seq<Edge>) =>
        Transition(Some(if ch == 'b' then 2 else -1), Some(memory + [ch]), Some(tree + [Edge(1, 2, ch)]))))
    ]
  }

  function DemoFsm(): (f: Fsm)
    ensures Clean(f)
  {
    NewFsm(['a', 'b'], 0, 2, DemoStates(),
      Some((id: int, memory: seq<char>) => EndResult(Some(if id == 2 then 2 else -1), Some(memory))))
  }

  /** `ab` is accepted with the two edges it walked. */
  lemma DemoAcceptsAb()
    ensures Run(DemoFsm(), "ab").0 == Verdict(true, [Edge(0, 1, 'a'), Edge(1, 2, 'b')])
  {
    var st := DemoStates();
    var c1 := Step(st, Config(0, [], []), 'a');
    assert c1 == Config(1, "a", [Edge(0, 1, 'a')]);
    assert Step(st, c1, 'b') == Config(2, "ab", [Edge(0, 1, 'a'), Edge(1, 2, 'b')]);
  }

  /**
   * `abab` is rejected: state 2 has no entry, so the third character resets
   * the machine to -1 with an empty tree, and it stays there.
   */
  lemma DemoRejectsAbab()
    ensures Run(DemoFsm(), "abab").0 == Verdict(false, [])
  {
    DemoDrivesAbab();
  }

  /** Driving the example states over `abab` ends in state -1 with an empty tree. */
  lemma DemoDrivesAbab()
    ensures Drive(DemoStates(), Config(0, [], []), "abab") == Config(-1, [], [])
  {
    var st := DemoStates();
    var c1 := Config(1, "a", [Edge(0, 1, 'a')]);
    var c2 := Config(2, "ab", [Edge(0, 1, 'a'), Edge(1, 2, 'b')]);
    assert Step(st, Config(0, [], []), 'a') == c1;
    assert Step(st, c1, 'b') == c2;
    UnknownStateResets(st, c2, 'a');
    UnknownStateResets(st, Config(-1, [], []), 'b');
    var s := "abab";
    assert s[1..] == "bab" && "bab"[1..] == "ab";
    assert Drive(st, Config(-1, [], []), "b") == Config(-1, [], []) by {
      assert "b"[1..] == [];
    }
    assert Drive(st, c2, "ab") == Config(-1, [], []) by {
      assert "ab"[1..] == "b";
    }
    assert Drive(st, Config(0, [], []), s) == Drive(st, c1, "bab");
  }

  /** `a` is rejected: it stops in state 1, which `end_rule` maps to -1. */
  lemma DemoRejectsA()
    ensures Run(DemoFsm(), "a").0 == Verdict(false, [Edge(0, 1, 'a')])
  {
    var st := DemoStates();
    var c1 := Config(1, "a", [Edge(0, 1, 'a')]);
    assert Step(st, Config(0, [], []), 'a') == c1;
    assert Drive(st, Config(0, [], []), "a") == c1 by {
      assert "a"[1..] == [];
    }
  }

  /** `b` is rejected, though state 0 still records an edge to 1 for it. */
  lemma DemoRejectsB()
    ensures Run(DemoFsm(), "b").0 == Verdict(false, [Edge(0, 1, 'b')])
  {
    var st := DemoStates();
    var c1 := Config(-1, "b", [Edge(0, 1, 'b')]);
    assert Step(st, Config(0, [], []), 'b') == c1;
    assert Drive(st, Config(0, [], []), "b") == c1 by {
      assert "b"[1..] == [];
    }
  }

  /** A character outside the alphabet is refused. */
  lemma DemoRefusesC()
    ensures Run(DemoFsm(), "abc").0 == InvalidString
  {
    assert "abc"[2] !in DemoFsm().alphabet;
  }
}

=== FILE: substring_nfa.dfy ===
/**
 * The `NFA` class of laba2/NFA.py: states are strings, the transition table
 * maps a (state, label) pair to a list of targets, and the label "e" marks an
 * epsilon edge. `accepts_substring` asks whether some non-empty substring of
 * the input, read from the start state, reaches an accept state.
 */
module SubstringNfa {
  import opened Closure

  /** The label the source reserves for epsilon edges. */
  const Epsilon: string := "e"

  datatype Nfa = Nfa(transitions: map<(string, string), seq<string>>, start: string, accepts: set<string>)

  /** `transitions.get((q, lbl), [])`. */
  function Targets(n: Nfa, q: string, lbl: string): (r: seq<string>)
    ensures (q, lbl) !in n.transitions ==> r == []
  {
    if (q, lbl) in n.transitions then n.transitions[(q, lbl)] else []
  }

  function EpsSucc(n: Nfa): string -> seq<string>
  {
    q => Targets(n, q, Epsilon)
  }

  /** The edges a single input character `c` follows: those labelled by the one-letter string `[c]`. */
  function SymSucc(n: Nfa, c: char): string -> seq<string>
  {
    q => Targets(n, q, [c])
  }

  /** Every state the table names as a target. */
  function AllTargets(n: Nfa): (r: set<string>)
    ensures forall q, lbl, i :: 0 <= i < |Targets(n, q, lbl)| ==> Targets(n, q, lbl)[i] in r
  {
    var r := set k, i | k in n.transitions && 0 <= i < |n.transitions[k]| :: n.transitions[k][i];
    assert forall q, lbl, i :: 0 <= i < |Targets(n, q, lbl)| ==> Targets(n, q, lbl)[i] in r by {
      forall q, lbl, i | 0 <= i < |Targets(n, q, lbl)|
        ensures Targets(n, q, lbl)[i] in r
      {
        var k := (q, lbl);
        assert k in n.transitions && n.transitions[k][i] == Targets(n, q, lbl)[i];
      }
    }
    r
  }

  lemma EpsBounded(n: Nfa)
    ensures Bounded(EpsSucc(n), AllTargets(n))
  {
    forall s, i | 0 <= i < |EpsSucc(n)(s)|
      ensures EpsSucc(n)(s)[i] in AllTargets(n)
    {
      assert EpsSucc(n)(s) == Targets(n, s, Epsilon);
    }
  }

  /** The least set containing `states` and closed under the "e" edges. */
  function EpsilonClosure(n: Nfa, states: set<string>): (r: set<string>)
    ensures states <= r
    ensures Closed(EpsSucc(n), r)
  {
    EpsBounded(n);
    Close(EpsSucc(n), AllTargets(n), states)
  }

  /** No smaller set than `EpsilonClosure` contains the seed and is closed under the "e" edges. */
  lemma EpsilonClosureLeast(n: Nfa, states: set<string>, t: set<string>)
    requires states <= t && Closed(EpsSucc(n), t)
    ensures EpsilonClosure(n, states) <= t
  {
    EpsBounded(n);
    CloseLeast(EpsSucc(n), AllTargets(n), states, t);
  }

  /** `_epsilon_closure`: the stack-based search computes exactly the epsilon closure. */
  method EpsilonClosureStack(n: Nfa, states: set<string>) returns (closure: set<string>)
    ensures states <= closure && Closed(EpsSucc(n), closure)
    ensures forall t :: states <= t && Closed(EpsSucc(n), t) ==> closure <= t
  {
    EpsBounded(n);
    closure := StackClosure(EpsSucc(n), AllTargets(n), states);
    forall t | states <= t && Closed(EpsSucc(n), t)
      ensures closure <= t
    {
      EpsilonClosureLeast(n, states, t);
    }
  }

  /**
   * One symbol of the loop: follow the edges labelled by `c`, then close under
   * "e". The new frontier is the least "e"-closed set holding those targets.
   */
  function Step(n: Nfa, current: set<string>, c: char): (r: set<string>)
    ensures Successors(SymSucc(n, c), current) <= r
    ensures Closed(EpsSucc(n), r)
    ensures forall t :: Successors(SymSucc(n, c), current) <= t && Closed(EpsSucc(n), t) ==> r <= t
  {
    var targets := Successors(SymSucc(n, c), current);
    assert forall t :: targets <= t && Closed(EpsSucc(n), t) ==> EpsilonClosure(n, targets) <= t by {
      forall t | targets <= t && Closed(EpsSucc(n), t)
        ensures EpsilonClosure(n, targets) <= t
      {
        EpsilonClosureLeast(n, targets, t);
      }
    }
    EpsilonClosure(n, targets)
  }

  function StartFrontier(n: Nfa): set<string>
  {
    EpsilonClosure(n, {n.start})
  }

  /** The frontier after reading all of `w` from `current`, without the early exit. */
  function Walk(n: Nfa, current: set<string>, w: string): set<string>
    decreases |w|
  {
    if w == [] then current else Walk(n, Step(n, current, w[0]), w[1..])
  }

  /** `any(state in self.accept_states for state in current_states)`. */
  predicate HasAccept(n: Nfa, current: set<string>)
  {
    exists q :: q in current && q in n.accepts
  }

  /** Reading `w` from the start state reaches an accept state. */
  predicate Accepted(n: Nfa, w: string)
  {
    HasAccept(n, Walk(n, StartFrontier(n), w))
  }

  /**
   * The `for symbol in substring` loop from frontier `current`: after each
   * symbol it returns `True` as soon as the frontier holds an accept state;
   * after the last symbol it reports whether the final frontier does.
   */
  function AcceptsFrom(n: Nfa, current: set<string>, w: string): bool
    decreases |w|
  {
    if w == [] then HasAccept(n, current)
    else
      var next := Step(n, current, w[0]);
      HasAccept(n, next) || AcceptsFrom(n, next, w[1..])
  }

  /**
   * `_accepts_from_position`: on a non-empty input, some non-empty prefix is
   * accepted from the start state; on the empty input, the start frontier
   * itself holds an accept state.
   */
  function AcceptsFromPosition(n: Nfa, w: string): (r: bool)
    ensures w != [] ==> (r <==> exists k :: 1 <= k <= |w| && Accepted(n, w[..k]))
    ensures w == [] ==> (r <==> HasAccept(n, StartFrontier(n)))
  {
    if w == [] then AcceptsFrom(n, StartFrontier(n), w)
    else
      AcceptsFromPrefixes(n, StartFrontier(n), w);
      AcceptsFrom(n, StartFrontier(n), w)
  }

  /** Some prefix of `w` with between 1 and |w| symbols drives `current` to an accept state. */
  ghost predicate SomePrefixAccepts(n: Nfa, current: set<string>, w: string)
  {
    exists k :: 1 <= k <= |w| && HasAccept(n, Walk(n, current, w[..k]))
  }

  /**
   * On a non-empty input the early exit changes nothing about the answer: the
   * loop accepts exactly when some non-empty prefix leads to an accept state.
   */
  lemma {:induction false} AcceptsFromPrefixes(n: Nfa, current: set<string>, w: string)
    requires w != []
    ensures AcceptsFrom(n, current, w) <==> SomePrefixAccepts(n, current, w)
    decreases |w|
  {
    var next := Step(n, current, w[0]);
    assert Walk(n, current, w[..1]) == next by {
      assert w[..1][1..] == [];
    }
    forall k | 1 <= k <= |w|
      ensures Walk(n, current, w[..k]) == Walk(n, next, w[1..][..k - 1])
    {
      assert w[..k][0] == w[0] && w[..k][1..] == w[1..][..k - 1];
    }
    if w[1..] == [] {
      assert AcceptsFrom(n, current, w) == HasAccept(n, next);
      if SomePrefixAccepts(n, current, w) {
        var k :| 1 <= k <= |w| && HasAccept(n, Walk(n, current, w[..k]));
        assert k == 1;
      }
    } else {
      AcceptsFromPrefixes(n, next, w[1..]);
      if AcceptsFrom(n, current, w) {
        if !HasAccept(n, next) {
          var k :| 1 <= k <= |w[1..]| && HasAccept(n, Walk(n, next, w[1..][..k]));
          assert HasAccept(n, Walk(n, current, w[..k + 1]));
        }
        assert SomePrefixAccepts(n, current, w);
      }
      if SomePrefixAccepts(n, current, w) {
        var k :| 1 <= k <= |w| && HasAccept(n, Walk(n, current, w[..k]));
        if k > 1 {
          assert HasAccept(n, Walk(n, next, w[1..][..k - 1]));
          assert SomePrefixAccepts(n, next, w[1..]);
        }
      }
    }
  }

  /** The `for start_pos in range(len(string))` loop, from position `i` onwards. */
  function AnyStart(n: Nfa, s: string, i: nat): bool
    decreases |s| - i
  {
    if i >= |s| then false
    else AcceptsFromPosition(n, s[i..]) || AnyStart(n, s, i + 1)
  }

  /** `accepts_substring`: some non-empty contiguous substring is accepted from the start state. */
  function AcceptsSubstring(n: Nfa, s: string): (r: bool)
    ensures r <==> exists i, j :: 0 <= i < j <= |s| && Accepted(n, s[i..j])
  {
    AnyStartSpec(n, s, 0);
    AnyStart(n, s, 0)
  }

  /** Some non-empty substring `s[i..j]` is accepted from the start state. */
  ghost predicate SomeSubstringAccepted(n: Nfa, s: string, from: nat)
  {
    exists i, j :: from <= i < j <= |s| && Accepted(n, s[i..j])
  }

  /** The scan from position `from` succeeds exactly when some non-empty substring starting there is accepted. */
  lemma HeadAccepted(n: Nfa, s: string, from: nat)
    requires from < |s|
    ensures AcceptsFromPosition(n, s[from..]) <==> exists j :: from < j <= |s| && Accepted(n, s[from..j])
  {
    var w := s[from..];
    forall k | 1 <= k <= |w|
      ensures w[..k] == s[from..from + k]
    {
    }
    if AcceptsFromPosition(n, w) {
      var k :| 1 <= k <= |w| && Accepted(n, w[..k]);
      assert Accepted(n, s[from..from + k]);
    }
    if exists j :: from < j <= |s| && Accepted(n, s[from..j]) {
      var j :| from < j <= |s| && Accepted(n, s[from..j]);
      assert Accepted(n, w[..j - from]);
    }
  }

  lemma {:induction false} AnyStartSpec(n: Nfa, s: string, from: nat)
    ensures AnyStart(n, s, from) <==> SomeSubstringAccepted(n, s, from)
    decreases |s| - from
  {
    if from < |s| {
      AnyStartSpec(n, s, from + 1);
      HeadAccepted(n, s, from);
      if SomeSubstringAccepted(n, s, from) {
        var i, j :| from <= i < j <= |s| && Accepted(n, s[i..j]);
        if i != from {
          assert SomeSubstringAccepted(n, s, from + 1);
        }
      }
    }
  }

  /** The empty string is never accepted, even when the start state accepts. */
  lemma AcceptsSubstringEmpty(n: Nfa)
    ensures !AcceptsSubstring(n, [])
  {
  }

  /** Surrounding text never turns an accepted string into a rejected one. */
  lemma AcceptsSubstringMonotone(n: Nfa, s: string, t: string, u: string)
    requires AcceptsSubstring(n, s)
    ensures AcceptsSubstring(n, t + s + u)
  {
    AnyStartSpec(n, s, 0);
    AnyStartSpec(n, t + s + u, 0);
    var i, j :| 0 <= i < j <= |s| && Accepted(n, s[i..j]);
    MiddleSlice(t, s, u, i, j);
    assert Accepted(n, (t + s + u)[|t| + i..|t| + j]);
  }

  /** A slice of the middle part of `t + s + u` is the same slice of `s`, shifted by `|t|`. */
  lemma MiddleSlice(t: string, s: string, u: string, i: nat, j: nat)
    requires i <= j <= |s|
    ensures (t + s + u)[|t| + i..|t| + j] == s[i..j]
  {
    var w := t + s + u;
    forall k | 0 <= k < j - i
      ensures w[|t| + i..|t| + j][k] == s[i..j][k]
    {
      assert w[|t| + i + k] == s[i + k];
    }
  }

  /**
   * The label "e" doubles as an input symbol: reading the character `e`
   * follows exactly the epsilon edges.
   */
  lemma LetterEFollowsEpsilonEdges(n: Nfa, q: string)
    ensures SymSucc(n, 'e')(q) == EpsSucc(n)(q)
  {
    assert ['e'] == Epsilon;
  }

  /** An automaton whose only edge is an epsilon edge from the start `q0` to the accept state `q1`. */
  function EpsilonOnly(): (n: Nfa)
    ensures n.start !in n.accepts
  {
    Nfa(map[("q0", Epsilon) := ["q1"]], "q0", {"q1"})
  }

  /**
   * Its start frontier already holds the accept state, yet the string "0" is
   * rejected: only frontiers reached after at least one symbol are inspected,
   * and no edge reads `0`. The string "e" is accepted, because the character
   * `e` follows the epsilon edge.
   */
  lemma EpsilonOnlyBehaviour()
    ensures HasAccept(EpsilonOnly(), StartFrontier(EpsilonOnly()))
    ensures !AcceptsSubstring(EpsilonOnly(), "0")
    ensures AcceptsSubstring(EpsilonOnly(), "e")
  {
    EpsilonOnlyStart();
    EpsilonOnlyRejectsZero();
    EpsilonOnlyAcceptsE();
  }

  /** The start frontier of `EpsilonOnly` is `{q0, q1}`. */
  lemma EpsilonOnlyStart()
    ensures StartFrontier(EpsilonOnly()) == {"q0", "q1"}
  {
    var n := EpsilonOnly();
    var f := StartFrontier(n);
    assert "q0" in f;
    assert EpsSucc(n)("q0") == ["q1"];
    assert EpsSucc(n)("q0")[0] in f;
    forall q | q != "q0"
      ensures EpsSucc(n)(q) == []
    {
      assert (q, Epsilon) !in n.transitions;
    }
    assert EpsSucc(n)("q1") == [];
    EpsBounded(n);
    assert Closed(EpsSucc(n), {"q0", "q1"});
    CloseLeast(EpsSucc(n), AllTargets(n), {"q0"}, {"q0", "q1"});
  }

  lemma EpsilonOnlyRejectsZero()
    ensures !AcceptsSubstring(EpsilonOnly(), "0")
  {
    var n := EpsilonOnly();
    var f := StartFrontier(n);
    forall q ensures SymSucc(n, '0')(q) == [] {
      assert (q, "0") !in n.transitions;
    }
    assert Successors(SymSucc(n, '0'), f) == {};
    EpsBounded(n);
    CloseOfClosed(EpsSucc(n), AllTargets(n), {});
    assert Step(n, f, '0') == {};
    assert !AcceptsFromPosition(n, "0");
  }

  lemma EpsilonOnlyAcceptsE()
    ensures AcceptsSubstring(EpsilonOnly(), "e")
  {
    var n := EpsilonOnly();
    var f := StartFrontier(n);
    EpsilonOnlyStart();
    assert SymSucc(n, 'e')("q0") == ["q1"];
    assert "q1" in Step(n, f, 'e');
    assert AcceptsFromPosition(n, "e");
  }
}

=== FILE: thompson.dfy ===
/**
 * The automaton fragments of the regular-expression engine
 * (laba4/interpretator.py). States live in an arena and are named by their
 * index; an edge label is `Some(c)` for an input symbol and `None` for epsilon.
 * A fragment (the source's `NFA` class) is a pair of arena indices.
 */
module Thompson {
  import opened Wrappers

  type Label = Option<char>

  /** A state: its acceptance flag and, per label, the ordered list of targets. */
  datatype State = State(isFinal: bool, transitions: map<Label, seq<nat>>)

  type Arena = seq<State>

  /** A fragment: one start state and one accept state. */
  datatype Nfa = Nfa(start: nat, accept: nat)

  /** The targets of `q` on label `l`; no entry means no targets. */
  function Targets(a: Arena, q: nat, l: Label): seq<nat>
  {
    if q < |a| && l in a[q].transitions then a[q].transitions[l] else []
  }

  /** Every edge of the arena points at a state of the arena. */
  ghost predicate WellFormed(a: Arena)
  {
    forall q, l, i :: 0 <= q < |a| && 0 <= i < |Targets(a, q, l)| ==> Targets(a, q, l)[i] < |a|
  }

  ghost predicate ValidNfa(a: Arena, f: Nfa)
  {
    WellFormed(a) && f.start < |a| && f.accept < |a|
  }

  /**
   * `a'` is `a` after construction steps: possibly more states, the same
   * acceptance flags on the old states, and every old target list only
   * extended at its end.
   */
  ghost predicate Extends(a: Arena, a': Arena)
  {
    && |a| <= |a'|
    && (forall q :: 0 <= q < |a| ==> a'[q].isFinal == a[q].isFinal)
    && (forall q, l :: 0 <= q < |a| ==> Targets(a, q, l) <= Targets(a', q, l))
  }

  lemma ExtendsRefl(a: Arena)
    ensures Extends(a, a)
  {
  }

  lemma ExtendsTrans(a1: Arena, a2: Arena, a3: Arena)
    requires Extends(a1, a2) && Extends(a2, a3)
    ensures Extends(a1, a3)
  {
    forall q, l | 0 <= q < |a1|
      ensures Targets(a1, q, l) <= Targets(a3, q, l)
    {
      assert Targets(a1, q, l) <= Targets(a2, q, l);
      assert Targets(a2, q, l) <= Targets(a3, q, l);
    }
  }

  /** `State.add_transition`: append `t` to the list of `q` under `l`, creating it if absent. */
  function AddTransition(a: Arena, q: nat, l: Label, t: nat): (a': Arena)
    requires q < |a|
    ensures |a'| == |a|
    ensures Targets(a', q, l) == Targets(a, q, l) + [t]
    ensures forall p, l' :: p != q || l' != l ==> Targets(a', p, l') == Targets(a, p, l')
    ensures forall p :: 0 <= p < |a| ==> a'[p].isFinal == a[p].isFinal
    ensures Extends(a, a')
    ensures WellFormed(a) && t < |a| ==> WellFormed(a')
  {
    var s := a[q];
    var list := if l in s.transitions then s.transitions[l] + [t] else [t];
    a[q := State(s.isFinal, s.transitions[l := list])]
  }

  /** `State(is_final)`: a fresh state without transitions, appended to the arena. */
  function NewState(a: Arena, isFinal: bool): (r: (Arena, nat))
    ensures r.0 == a + [State(isFinal, map[])] && r.1 == |a|
    ensures Extends(a, r.0)
    ensures WellFormed(a) ==> WellFormed(r.0)
  {
    var a' := a + [State(isFinal, map[])];
    assert forall q, l :: 0 <= q < |a| ==> Targets(a', q, l) == Targets(a, q, l);
    (a', |a|)
  }

  /** `NFA.from_symbol`. */
  function FromSymbol(a: Arena, c: char): (r: (Arena, Nfa))
    ensures |r.0| == |a| + 2 && r.0[..|a|] == a
    ensures r.1 == Nfa(|a|, |a| + 1)
    ensures r.0[|a|] == State(false, map[Some(c) := [|a| + 1]])
    ensures r.0[|a| + 1] == State(true, map[])
    ensures Extends(a, r.0)
    ensures WellFormed(a) ==> ValidNfa(r.0, r.1)
  {
    var (a1, start) := NewState(a, false);
    var (a2, accept) := NewState(a1, true);
    var a3 := AddTransition(a2, start, Some(c), accept);
    ExtendsTrans(a, a1, a2);
    ExtendsTrans(a, a2, a3);
    (a3, Nfa(start, accept))
  }

  /**
   * `NFA.concat`: one epsilon edge from the left accept state to the right
   * start state. The left accept state keeps its acceptance flag.
   */
  function Concat(a: Arena, f1: Nfa, f2: Nfa): (r: (Arena, Nfa))
    requires ValidNfa(a, f1) && ValidNfa(a, f2)
    ensures |r.0| == |a| && r.1 == Nfa(f1.start, f2.accept)
    ensures Extends(a, r.0)
    ensures ValidNfa(r.0, r.1)
  {
    (AddTransition(a, f1.accept, None, f2.start), Nfa(f1.start, f2.accept))
  }

  /**
   * The only edge `concat` adds is the epsilon edge from the left accept to
   * the right start, and the left accept state stays as final as it was.
   */
  lemma ConcatEdges(a: Arena, f1: Nfa, f2: Nfa)
    requires ValidNfa(a, f1) && ValidNfa(a, f2)
    ensures Targets(Concat(a, f1, f2).0, f1.accept, None) == Targets(a, f1.accept, None) + [f2.start]
    ensures forall q: nat, l :: q != f1.accept || l != None ==> Targets(Concat(a, f1, f2).0, q, l) == Targets(a, q, l)
    ensures Concat(a, f1, f2).0[f1.accept].isFinal == a[f1.accept].isFinal
  {
  }

  /**
   * `NFA.union`: a fresh non-final start with epsilon edges to both starts,
   * and a fresh final accept reached by epsilon edges from both accepts.
   */
  function Union(a: Arena, f1: Nfa, f2: Nfa): (r: (Arena, Nfa))
    requires ValidNfa(a, f1) && ValidNfa(a, f2)
    ensures |r.0| == |a| + 2 && r.1 == Nfa(|a|, |a| + 1)
    ensures !r.0[|a|].isFinal && r.0[|a| + 1].isFinal
    ensures Extends(a, r.0)
    ensures ValidNfa(r.0, r.1)
  {
    var (a1, start) := NewState(a, false);
    var (a2, accept) := NewState(a1, true);
    var a3 := AddTransition(a2, start, None, f1.start);
    var a4 := AddTransition(a3, start, None, f2.start);
    var a5 := AddTransition(a4, f1.accept, None, accept);
    var a6 := AddTransition(a5, f2.accept, None, accept);
    ExtendsTrans(a, a1, a2);
    ExtendsTrans(a, a2, a3);
    ExtendsTrans(a, a3, a4);
    ExtendsTrans(a, a4, a5);
    ExtendsTrans(a, a5, a6);
    (a6, Nfa(start, accept))
  }

  /**
   * The edges `union` adds: from the fresh start to both starts, and from
   * each accept to the fresh accept; no symbol edge changes.
   */
  lemma UnionEdges(a: Arena, f1: Nfa, f2: Nfa)
    requires ValidNfa(a, f1) && ValidNfa(a, f2) && f1.accept != f2.accept
    ensures Targets(Union(a, f1, f2).0, |a|, None) == [f1.start, f2.start]
    ensures Targets(Union(a, f1, f2).0, |a| + 1, None) == []
    ensures Targets(Union(a, f1, f2).0, f1.accept, None) == Targets(a, f1.accept, None) + [|a| + 1]
    ensures Targets(Union(a, f1, f2).0, f2.accept, None) == Targets(a, f2.accept, None) + [|a| + 1]
    ensures forall q: nat, l :: q < |a| && (l != None || (q != f1.accept && q != f2.accept)) ==>
              Targets(Union(a, f1, f2).0, q, l) == Targets(a, q, l)
  {
  }

  /**
   * `NFA.kleene_star`: a fresh non-final start with epsilon edges to the inner
   * start and to a fresh final accept; the inner accept gets epsilon edges back
   * to the inner start and on to the fresh accept.
   */
  function KleeneStar(a: Arena, f: Nfa): (r: (Arena, Nfa))
    requires ValidNfa(a, f)
    ensures |r.0| == |a| + 2 && r.1 == Nfa(|a|, |a| + 1)
    ensures !r.0[|a|].isFinal && r.0[|a| + 1].isFinal
    ensures Extends(a, r.0)
    ensures ValidNfa(r.0, r.1)
  {
    var (a1, start) := NewState(a, false);
    var (a2, accept) := NewState(a1, true);
    var a3 := AddTransition(a2, start, None, f.start);
    var a4 := AddTransition(a3, start, None, accept);
    var a5 := AddTransition(a4, f.accept, None, f.start);
    var a6 := AddTransition(a5, f.accept, None, accept);
    ExtendsTrans(a, a1, a2);
    ExtendsTrans(a, a2, a3);
    ExtendsTrans(a, a3, a4);
    ExtendsTrans(a, a4, a5);
    ExtendsTrans(a, a5, a6);
    (a6, Nfa(start, accept))
  }

  /** The edges `kleene_star` adds; no symbol edge changes. */
  lemma KleeneStarEdges(a: Arena, f: Nfa)
    requires ValidNfa(a, f)
    ensures Targets(KleeneStar(a, f).0, |a|, None) == [f.start, |a| + 1]
    ensures Targets(KleeneStar(a, f).0, |a| + 1, None) == []
    ensures Targets(KleeneStar(a, f).0, f.accept, None) == Targets(a, f.accept, None) + [f.start, |a| + 1]
    ensures forall q: nat, l :: q < |a| && (q != f.accept || l != None) ==>
              Targets(KleeneStar(a, f).0, q, l) == Targets(a, q, l)
  {
  }
}

=== FILE: turing.dfy ===
/**
 * The `TuringMachine` of laba9/machine_turing.py: a tape of cells (Python
 * list items), an integer head, a current state, a transition table from
 * (state, symbol) to (symbol to write, move, next state) and a set of final
 * states. `run` may loop forever, so the model runs it with fuel.
 */
module Turing {
  import opened Wrappers

  /** The table entry: the symbol to write, the move (`"R"` or anything else) and the next state. */
  datatype Action = Action(write: string, move: string, next: string)

  datatype Machine = Machine(
    tape: seq<string>,
    head: int,
    state: string,
    transitions: map<(string, string), Action>,
    finals: set<string>)

  /**
   * Python list indexing: an index in `[0, n)` is itself, one in `[-n, 0)`
   * counts from the end, and anything else raises `IndexError` (`None`).
   */
  function PyIndex(n: nat, i: int): (r: Option<nat>)
    ensures r.Some? <==> -(n as int) <= i < n
    ensures r.Some? ==> r.value < n && (r.value == i || r.value == n + i)
  {
    if 0 <= i < n then Some(i)
    else if -(n as int) <= i < 0 then Some(n + i)
    else None
  }

  /** `__init__`: the tape is the list of the characters of the input; the head starts at cell 0. */
  function Init(tape: string, transitions: map<(string, string), Action>, initial: string, finals: set<string>): (m: Machine)
    ensures |m.tape| == |tape| && forall k :: 0 <= k < |tape| ==> m.tape[k] == [tape[k]]
    ensures m.head == 0 && m.state == initial
  {
    Machine(seq(|tape|, k requires 0 <= k < |tape| => [tape[k]]), 0, initial, transitions, finals)
  }

  /** Why a step could not be taken. */
  datatype Stuck = NoTransition | IndexError

  /** `+1` on `"R"`, `-1` on every other move value. */
  function Delta(move: string): (r: int)
    ensures r == 1 || r == -1
    ensures r == 1 <==> move == "R"
  {
    if move == "R" then 1 else -1
  }

  /**
   * One iteration of the `while` body, for a machine not in a final state:
   * read the cell under the head, look up the action, write, move, change
   * state. It fails when the head is off the tape or the table has no entry
   * for the cell it reads; otherwise it overwrites exactly the cell under the
   * head, moves the head by one in the direction the action names, takes the
   * action's state, and changes nothing else.
   */
  function Step(m: Machine): (r: Result<Machine, Stuck>)
    ensures r == Failure(IndexError) <==> !(-|m.tape| <= m.head < |m.tape|)
    ensures r == Failure(NoTransition) <==>
      PyIndex(|m.tape|, m.head).Some? && (m.state, m.tape[PyIndex(|m.tape|, m.head).value]) !in m.transitions
    ensures r.Success? ==>
      var cell := PyIndex(|m.tape|, m.head).value;
      var a := m.transitions[(m.state, m.tape[cell])];
      && |r.value.tape| == |m.tape|
      && r.value.tape[cell] == a.write
      && (forall k :: 0 <= k < |m.tape| && k != cell ==> r.value.tape[k] == m.tape[k])
      && (a.move == "R" ==> r.value.head == m.head + 1)
      && (a.move != "R" ==> r.value.head == m.head - 1)
      && r.value.state == a.next
      && r.value.transitions == m.transitions && r.value.finals == m.finals
  {
    match PyIndex(|m.tape|, m.head)
    case None => Failure(IndexError)
    case Some(cell) =>
      var key := (m.state, m.tape[cell]);
      if key !in m.transitions then Failure(NoTransition)
      else
        var a := m.transitions[key];
        Success(m.(tape := m.tape[cell := a.write], head := m.head + Delta(a.move), state := a.next))
  }

  /** How `run` ended: in a final state, stuck, or with the fuel used up. */
  datatype Outcome = Finished(m: Machine) | Halted(why: Stuck, m: Machine) | OutOfFuel(m: Machine)

  /**
   * `run` with at most `fuel` steps: the loop test comes first, so a machine
   * already in a final state is returned as it is.
   */
  function Run(m: Machine, fuel: nat): (r: Outcome)
    ensures |r.m.tape| == |m.tape|
    ensures r.m.transitions == m.transitions && r.m.finals == m.finals
    ensures r.Finished? <==> r.m.state in m.finals
    ensures m.state in m.finals ==> r == Finished(m)
    decreases fuel
  {
    if m.state in m.finals then Finished(m)
    else if fuel == 0 then OutOfFuel(m)
    else
      match Step(m)
      case Failure(why) => Halted(why, m)
      case Success(next) => Run(next, fuel - 1)
  }

  /** A missing transition stops the machine with tape, head and state unchanged. */
  lemma MissingTransitionHalts(m: Machine, fuel: nat)
    requires m.state !in m.finals && fuel > 0
    requires PyIndex(|m.tape|, m.head).Some?
    requires (m.state, m.tape[PyIndex(|m.tape|, m.head).value]) !in m.transitions
    ensures Run(m, fuel) == Halted(NoTransition, m)
  {
  }

  /** Once `run` has stopped, more fuel gives the same outcome. */
  lemma {:induction false} RunFuelMonotone(m: Machine, fuel: nat, more: nat)
    requires !Run(m, fuel).OutOfFuel?
    requires fuel <= more
    ensures Run(m, more) == Run(m, fuel)
    decreases fuel
  {
    if m.state !in m.finals && Step(m).Success? {
      RunFuelMonotone(Step(m).value, fuel - 1, more - 1);
    }
  }

  /** Running for `f1 + f2` steps is running for `f1`, then for `f2` from wherever that stopped. */
  lemma {:induction false} RunCompose(m: Machine, f1: nat, f2: nat)
    ensures Run(m, f1 + f2) == if Run(m, f1).OutOfFuel? then Run(Run(m, f1).m, f2) else Run(m, f1)
    decreases f1
  {
    if f1 > 0 && m.state !in m.finals && Step(m).Success? {
      RunCompose(Step(m).value, f1 - 1, f2);
    }
  }

  /** Head -1 is not an error: it reads and writes the last cell of the tape. */
  lemma NegativeHeadWraps(m: Machine)
    requires m.head == -1 && |m.tape| > 0
    requires Step(m).Success?
    ensures Step(m).value.tape[|m.tape| - 1] == m.transitions[(m.state, m.tape[|m.tape| - 1])].write
  {
  }

  /** A head past the last cell stops the machine with `IndexError`, before anything is written. */
  lemma HeadPastEndFails(m: Machine, fuel: nat)
    requires m.head == |m.tape| && m.state !in m.finals && fuel > 0
    ensures Run(m, fuel) == Halted(IndexError, m)
  {
  }

  /**
   * A one-rule machine that walks right over `1`s in state `q0`, leaving them
   * as they are, and stops at the end of the tape with an `IndexError`.
   */
  lemma WalkOffTheEnd()
    ensures
      var m := Init("11", map[("q0", "1") := Action("1", "R", "q0")], "q0", {"q2"});
      Run(m, 5) == Halted(IndexError, m.(head := 2))
  {
    var m := Init("11", map[("q0", "1") := Action("1", "R", "q0")], "q0", {"q2"});
    assert m.tape == ["1", "1"];
    var m1 := Step(m).value;
    assert m1 == m.(head := 1);
    assert Step(m1).value == m.(head := 2);
  }
}

=== FILE: union_match.dfy ===
/**
 * What a fragment built by `NFA.union` (laba4/interpretator.py) matches: a
 * text is matched by the union exactly when one of the two operands matches
 * it. The fresh start only leads into the two operands, and the fresh accept
 * is reached only from the operands' accept states, which are final already.
 */
module UnionMatch {
  import opened Wrappers
  import opened Thompson
  import opened NfaExecutor
  import Closure

  /** Simulating from a union of frontiers is simulating from each. */
  lemma StepUnion(a: Arena, x: set<nat>, y: set<nat>, c: char)
    requires WellFormed(a)
    ensures Step(a, x + y, c) == Step(a, x, c) + Step(a, y, c)
  {
    WellFormedBounded(a);
    Closure.SuccessorsUnion(SymbolTargets(a, c), x, y);
    Closure.CloseUnion(EpsTargets(a), StateIds(a),
                       Closure.Successors(SymbolTargets(a, c), x), Closure.Successors(SymbolTargets(a, c), y));
  }

  lemma {:induction false} WalkUnion(a: Arena, x: set<nat>, y: set<nat>, text: string)
    requires WellFormed(a)
    ensures Walk(a, x + y, text) == Walk(a, x, text) + Walk(a, y, text)
    decreases |text|
  {
    if text != [] {
      StepUnion(a, x, y, text[0]);
      WalkUnion(a, Step(a, x, text[0]), Step(a, y, text[0]), text[1..]);
    }
  }

  /**
   * The arena `a'` after `union` of `f1` and `f2` in `a`: two fresh states
   * `|a|` (non-final) and `|a| + 1` (final); old flags and symbol edges
   * unchanged; the fresh start's epsilon targets are the two starts; and the
   * only epsilon edges added to old states lead from the accepts to `|a| + 1`.
   */
  ghost predicate UnionShape(a: Arena, a': Arena, f1: Nfa, f2: Nfa)
  {
    && |a'| == |a| + 2
    && (forall q :: 0 <= q < |a| ==> a'[q].isFinal == a[q].isFinal)
    && !a'[|a|].isFinal && a'[|a| + 1].isFinal
    && (forall q: nat, c: char :: Targets(a', q, Some(c)) == Targets(a, q, Some(c)))
    && (forall q: nat, x :: q < |a| ==>
          (x in Targets(a', q, None) <==>
             x in Targets(a, q, None) || (x == |a| + 1 && (q == f1.accept || q == f2.accept))))
    && (forall x :: x in Targets(a', |a|, None) <==> x == f1.start || x == f2.start)
    && Targets(a', |a| + 1, None) == []
  }

  lemma UnionHasShape(a: Arena, f1: Nfa, f2: Nfa)
    requires ValidNfa(a, f1) && ValidNfa(a, f2)
    ensures UnionShape(a, Union(a, f1, f2).0, f1, f2)
  {
    var (a1, start) := NewState(a, false);
    var (a2, accept) := NewState(a1, true);
    var a3 := AddTransition(a2, start, None, f1.start);
    var a4 := AddTransition(a3, start, None, f2.start);
    var a5 := AddTransition(a4, f1.accept, None, accept);
    var a6 := AddTransition(a5, f2.accept, None, accept);
    assert Union(a, f1, f2) == (a6, Nfa(start, accept));
    ChainHasShape(a, a1, a2, a3, a4, a5, a6, f1, f2);
  }

  /** The arena after each of the steps `union` takes, in order, ends in the union shape. */
  lemma ChainHasShape(a: Arena, a1: Arena, a2: Arena, a3: Arena, a4: Arena, a5: Arena, a6: Arena, f1: Nfa, f2: Nfa)
    requires ValidNfa(a, f1) && ValidNfa(a, f2)
    requires a1 == a + [State(false, map[])] && a2 == a1 + [State(true, map[])]
    requires a3 == AddTransition(a2, |a|, None, f1.start)
    requires a4 == AddTransition(a3, |a|, None, f2.start)
    requires a5 == AddTransition(a4, f1.accept, None, |a| + 1)
    requires a6 == AddTransition(a5, f2.accept, None, |a| + 1)
    ensures UnionShape(a, a6, f1, f2)
  {
    UnionSymbolEdges(a, a1, a2, a3, a4, a5, a6, f1, f2);
    UnionEpsilonEdges(a, a1, a2, a3, a4, a5, a6, f1, f2);
  }

  /** The four edges `union` adds are all epsilon edges, so no symbol edge changes. */
  lemma UnionSymbolEdges(a: Arena, a1: Arena, a2: Arena, a3: Arena, a4: Arena, a5: Arena, a6: Arena, f1: Nfa, f2: Nfa)
    requires ValidNfa(a, f1) && ValidNfa(a, f2)
    requires a1 == a + [State(false, map[])] && a2 == a1 + [State(true, map[])]
    requires a3 == AddTransition(a2, |a|, None, f1.start)
    requires a4 == AddTransition(a3, |a|, None, f2.start)
    requires a5 == AddTransition(a4, f1.accept, None, |a| + 1)
    requires a6 == AddTransition(a5, f2.accept, None, |a| + 1)
    ensures forall q: nat, c: char :: Targets(a6, q, Some(c)) == Targets(a, q, Some(c))
  {
    forall q: nat, c: char
      ensures Targets(a6, q, Some(c)) == Targets(a, q, Some(c))
    {
      assert Targets(a6, q, Some(c)) == Targets(a5, q, Some(c)) == Targets(a4, q, Some(c));
      assert Targets(a4, q, Some(c)) == Targets(a3, q, Some(c)) == Targets(a2, q, Some(c));
      assert q < |a| ==> a2[q] == a[q];
    }
  }

  /** The epsilon edges after `union`: the old ones, plus the fresh accept behind the two accepts. */
  lemma UnionEpsilonEdges(a: Arena, a1: Arena, a2: Arena, a3: Arena, a4: Arena, a5: Arena, a6: Arena, f1: Nfa, f2: Nfa)
    requires ValidNfa(a, f1) && ValidNfa(a, f2)
    requires a1 == a + [State(false, map[])] && a2 == a1 + [State(true, map[])]
    requires a3 == AddTransition(a2, |a|, None, f1.start)
    requires a4 == AddTransition(a3, |a|, None, f2.start)
    requires a5 == AddTransition(a4, f1.accept, None, |a| + 1)
    requires a6 == AddTransition(a5, f2.accept, None, |a| + 1)
    ensures forall q: nat, x :: q < |a| ==>
      (x in Targets(a6, q, None) <==>
         x in Targets(a, q, None) || (x == |a| + 1 && (q == f1.accept || q == f2.accept)))
    ensures Targets(a6, |a|, None) == [f1.start, f2.start]
    ensures Targets(a6, |a| + 1, None) == []
  {
    forall q: nat | q < |a|
      ensures Targets(a4, q, None) == Targets(a, q, None)
    {
      assert Targets(a2, q, None) == Targets(a, q, None);
    }
    assert Targets(a2, |a|, None) == [] && Targets(a2, |a| + 1, None) == [];
  }

  /** The fresh accept, when an operand's accept state is in `f`. */
  function Extra(a: Arena, f1: Nfa, f2: Nfa, f: set<nat>): set<nat>
  {
    if f1.accept in f || f2.accept in f then {|a| + 1} else {}
  }

  /** The old closure plus the fresh accept (when reached) is closed in the union arena. */
  lemma OldClosureClosed(a: Arena, a': Arena, f1: Nfa, f2: Nfa, c: set<nat>)
    requires UnionShape(a, a', f1, f2)
    requires c <= StateIds(a) && Closure.Closed(EpsTargets(a), c)
    ensures Closure.Closed(EpsTargets(a'), c + Extra(a, f1, f2, c))
  {
    var d := c + Extra(a, f1, f2, c);
    forall q, i | q in d && 0 <= i < |EpsTargets(a')(q)|
      ensures EpsTargets(a')(q)[i] in d
    {
      var x := Targets(a', q, None)[i];
      if q != |a| + 1 {
        assert q in c && q < |a|;
        if x in Targets(a, q, None) {
          var j :| 0 <= j < |Targets(a, q, None)| && Targets(a, q, None)[j] == x;
          assert EpsTargets(a)(q)[j] in c;
        }
      }
    }
  }

  /** A set closed in the union arena is closed in the old arena: the union only adds edges. */
  lemma NewClosedIsOldClosed(a: Arena, a': Arena, f1: Nfa, f2: Nfa, e: set<nat>)
    requires UnionShape(a, a', f1, f2)
    requires Closure.Closed(EpsTargets(a'), e)
    ensures Closure.Closed(EpsTargets(a), e)
  {
    forall q, i | q in e && 0 <= i < |EpsTargets(a)(q)|
      ensures EpsTargets(a)(q)[i] in e
    {
      var x := Targets(a, q, None)[i];
      assert q < |a|;
      assert x in Targets(a', q, None);
      var j :| 0 <= j < |Targets(a', q, None)| && Targets(a', q, None)[j] == x;
      assert EpsTargets(a')(q)[j] in e;
    }
  }

  /** A set closed in the union arena that holds an operand's accept holds the fresh accept. */
  lemma ClosedReachesAccept(a: Arena, a': Arena, f1: Nfa, f2: Nfa, e: set<nat>)
    requires ValidNfa(a, f1) && ValidNfa(a, f2) && UnionShape(a, a', f1, f2)
    requires Closure.Closed(EpsTargets(a'), e)
    ensures Extra(a, f1, f2, e) <= e
  {
    if f1.accept in e || f2.accept in e {
      var q := if f1.accept in e then f1.accept else f2.accept;
      assert |a| + 1 in Targets(a', q, None);
      var j :| 0 <= j < |Targets(a', q, None)| && Targets(a', q, None)[j] == |a| + 1;
      assert EpsTargets(a')(q)[j] in e;
    }
  }

  /**
   * Closing a set of old states in the union arena closes it in the old
   * arena and adds the fresh accept when an operand's accept is reached.
   */
  lemma CloseOld(a: Arena, a': Arena, f1: Nfa, f2: Nfa, seed: set<nat>)
    requires ValidNfa(a, f1) && ValidNfa(a, f2) && WellFormed(a') && UnionShape(a, a', f1, f2)
    requires seed <= StateIds(a)
    ensures EpsilonClosure(a', seed) == EpsilonClosure(a, seed) + Extra(a, f1, f2, EpsilonClosure(a, seed))
  {
    var c := EpsilonClosure(a, seed);
    var e := EpsilonClosure(a', seed);
    OldClosureClosed(a, a', f1, f2, c);
    EpsilonClosureLeast(a', seed, c + Extra(a, f1, f2, c));
    NewClosedIsOldClosed(a, a', f1, f2, e);
    EpsilonClosureLeast(a, seed, e);
    ClosedReachesAccept(a, a', f1, f2, e);
    assert Extra(a, f1, f2, c) <= Extra(a, f1, f2, e);
  }

  /**
   * A union-arena frontier `f'` that shadows the old-arena frontier `f`:
   * the same old states, the fresh accept exactly when an operand's accept
   * is present, and possibly the fresh start.
   */
  ghost predicate Tracks(a: Arena, f1: Nfa, f2: Nfa, f': set<nat>, f: set<nat>)
  {
    && f <= StateIds(a)
    && (f' == f + Extra(a, f1, f2, f) || f' == f + Extra(a, f1, f2, f) + {|a|})
  }

  /** The shadowing frontiers agree on whether they hold a final state. */
  lemma TracksFinal(a: Arena, a': Arena, f1: Nfa, f2: Nfa, f': set<nat>, f: set<nat>)
    requires ValidNfa(a, f1) && ValidNfa(a, f2) && UnionShape(a, a', f1, f2)
    requires a[f1.accept].isFinal && a[f2.accept].isFinal
    requires Tracks(a, f1, f2, f', f)
    ensures HasFinal(a', f') <==> HasFinal(a, f)
  {
    if HasFinal(a', f') {
      var q :| q in f' && q < |a'| && a'[q].isFinal;
      if q == |a| + 1 {
        var r := if f1.accept in f then f1.accept else f2.accept;
        assert r in f && r < |a| && a[r].isFinal;
      } else {
        assert q in f && q < |a|;
      }
    }
    if HasFinal(a, f) {
      var q :| q in f && q < |a| && a[q].isFinal;
      assert q in f' && a'[q].isFinal;
    }
  }

  /** Symbol edges are the same in both arenas, and only old states have any. */
  lemma OldSymbolEdge(a: Arena, a': Arena, f1: Nfa, f2: Nfa, q: nat, c: char)
    requires UnionShape(a, a', f1, f2)
    ensures SymbolTargets(a', c)(q) == SymbolTargets(a, c)(q)
    ensures q >= |a| ==> SymbolTargets(a, c)(q) == []
  {
  }

  /** The fresh states add no symbol successors. */
  lemma SuccessorsFromOld(a: Arena, a': Arena, f1: Nfa, f2: Nfa, f': set<nat>, f: set<nat>, c: char)
    requires UnionShape(a, a', f1, f2)
    requires Tracks(a, f1, f2, f', f)
    ensures Closure.Successors(SymbolTargets(a', c), f') <= Closure.Successors(SymbolTargets(a, c), f)
  {
    var n := Closure.Successors(SymbolTargets(a, c), f);
    forall x | x in Closure.Successors(SymbolTargets(a', c), f')
      ensures x in n
    {
      var q, i :| q in f' && 0 <= i < |SymbolTargets(a', c)(q)| && SymbolTargets(a', c)(q)[i] == x;
      OldSymbolEdge(a, a', f1, f2, q, c);
      assert q in f;
      assert SymbolTargets(a, c)(q)[i] == x;
    }
  }

  /** The old states keep their symbol successors. */
  lemma SuccessorsToNew(a: Arena, a': Arena, f1: Nfa, f2: Nfa, f': set<nat>, f: set<nat>, c: char)
    requires UnionShape(a, a', f1, f2)
    requires f <= f'
    ensures Closure.Successors(SymbolTargets(a, c), f) <= Closure.Successors(SymbolTargets(a', c), f')
  {
    var n' := Closure.Successors(SymbolTargets(a', c), f');
    forall x | x in Closure.Successors(SymbolTargets(a, c), f)
      ensures x in n'
    {
      var q, i :| q in f && 0 <= i < |SymbolTargets(a, c)(q)| && SymbolTargets(a, c)(q)[i] == x;
      OldSymbolEdge(a, a', f1, f2, q, c);
      assert SymbolTargets(a', c)(q)[i] == x;
    }
  }

  /** One input symbol keeps the shadowing. */
  lemma TracksStep(a: Arena, a': Arena, f1: Nfa, f2: Nfa, f': set<nat>, f: set<nat>, c: char)
    requires ValidNfa(a, f1) && ValidNfa(a, f2) && WellFormed(a') && UnionShape(a, a', f1, f2)
    requires Tracks(a, f1, f2, f', f)
    ensures Tracks(a, f1, f2, Step(a', f', c), Step(a, f, c))
  {
    SuccessorsFromOld(a, a', f1, f2, f', f, c);
    SuccessorsToNew(a, a', f1, f2, f', f, c);
    var n := Closure.Successors(SymbolTargets(a, c), f);
    assert Closure.Successors(SymbolTargets(a', c), f') == n;
    assert n <= StateIds(a) by {
      WellFormedBounded(a);
      assert Closure.Bounded(SymbolTargets(a, c), StateIds(a));
    }
    CloseOld(a, a', f1, f2, n);
    var next := Step(a, f, c);
    assert Step(a', f', c) == next + Extra(a, f1, f2, next);
    assert next <= StateIds(a);
  }

  lemma {:induction false} TracksWalk(a: Arena, a': Arena, f1: Nfa, f2: Nfa, f': set<nat>, f: set<nat>, text: string)
    requires ValidNfa(a, f1) && ValidNfa(a, f2) && WellFormed(a') && UnionShape(a, a', f1, f2)
    requires Tracks(a, f1, f2, f', f)
    ensures Tracks(a, f1, f2, Walk(a', f', text), Walk(a, f, text))
    decreases |text|
  {
    if text != [] {
      TracksStep(a, a', f1, f2, f', f, text[0]);
      TracksWalk(a, a', f1, f2, Step(a', f', text[0]), Step(a, f, text[0]), text[1..]);
    }
  }

  /** The union's start frontier shadows the closure of both operand starts. */
  lemma UnionStart(a: Arena, a': Arena, f1: Nfa, f2: Nfa)
    requires ValidNfa(a, f1) && ValidNfa(a, f2) && WellFormed(a') && UnionShape(a, a', f1, f2)
    ensures Tracks(a, f1, f2, StartFrontier(a', Nfa(|a|, |a| + 1)), EpsilonClosure(a, {f1.start, f2.start}))
  {
    CloseOld(a, a', f1, f2, {f1.start, f2.start});
    StartUpper(a, a', f1, f2);
    StartLower(a, a', f1, f2);
  }

  /** Everything reachable from the fresh start is the fresh start or reachable from an operand start. */
  lemma StartUpper(a: Arena, a': Arena, f1: Nfa, f2: Nfa)
    requires WellFormed(a') && UnionShape(a, a', f1, f2)
    ensures EpsilonClosure(a', {|a|}) <= EpsilonClosure(a', {f1.start, f2.start}) + {|a|}
  {
    var c0 := EpsilonClosure(a', {f1.start, f2.start});
    var d := c0 + {|a|};
    forall q, i | q in d && 0 <= i < |EpsTargets(a')(q)|
      ensures EpsTargets(a')(q)[i] in d
    {
      if q == |a| {
        assert Targets(a', q, None)[i] in Targets(a', |a|, None);
      } else {
        assert q in c0;
      }
    }
    EpsilonClosureLeast(a', {|a|}, d);
  }

  /** Both operand starts are reachable from the fresh start. */
  lemma StartLower(a: Arena, a': Arena, f1: Nfa, f2: Nfa)
    requires WellFormed(a') && UnionShape(a, a', f1, f2)
    ensures EpsilonClosure(a', {f1.start, f2.start}) + {|a|} <= EpsilonClosure(a', {|a|})
  {
    var e := EpsilonClosure(a', {|a|});
    assert f1.start in Targets(a', |a|, None) && f2.start in Targets(a', |a|, None);
    var i :| 0 <= i < |Targets(a', |a|, None)| && Targets(a', |a|, None)[i] == f1.start;
    var j :| 0 <= j < |Targets(a', |a|, None)| && Targets(a', |a|, None)[j] == f2.start;
    assert EpsTargets(a')(|a|)[i] in e && EpsTargets(a')(|a|)[j] in e;
    EpsilonClosureLeast(a', {f1.start, f2.start}, e);
  }

  lemma HasFinalUnion(a: Arena, x: set<nat>, y: set<nat>)
    ensures HasFinal(a, x + y) <==> HasFinal(a, x) || HasFinal(a, y)
  {
  }

  /** Both operand starts, closed together, are the two start frontiers side by side. */
  lemma BothStarts(a: Arena, f1: Nfa, f2: Nfa)
    requires ValidNfa(a, f1) && ValidNfa(a, f2)
    ensures EpsilonClosure(a, {f1.start, f2.start}) == StartFrontier(a, f1) + StartFrontier(a, f2)
  {
    WellFormedBounded(a);
    assert {f1.start, f2.start} == {f1.start} + {f2.start};
    Closure.CloseUnion(EpsTargets(a), StateIds(a), {f1.start}, {f2.start});
  }

  /** In any arena shaped like a union, the fresh start matches what both operand starts match together. */
  lemma ShapeMatches(a: Arena, a': Arena, f1: Nfa, f2: Nfa, text: string)
    requires ValidNfa(a, f1) && ValidNfa(a, f2) && WellFormed(a') && UnionShape(a, a', f1, f2)
    requires a[f1.accept].isFinal && a[f2.accept].isFinal
    ensures HasFinal(a', Walk(a', StartFrontier(a', Nfa(|a|, |a| + 1)), text)) <==>
            HasFinal(a, Walk(a, EpsilonClosure(a, {f1.start, f2.start}), text))
  {
    var start' := StartFrontier(a', Nfa(|a|, |a| + 1));
    var start := EpsilonClosure(a, {f1.start, f2.start});
    UnionStart(a, a', f1, f2);
    TracksWalk(a, a', f1, f2, start', start, text);
    TracksFinal(a, a', f1, f2, Walk(a', start', text), Walk(a, start, text));
  }

  /**
   * `NFA.union` matches exactly the texts that either operand matches, as
   * long as both operands' accept states are final (every fragment the
   * parser builds has a final accept state).
   */
  lemma UnionMatches(a: Arena, f1: Nfa, f2: Nfa, text: string)
    requires ValidNfa(a, f1) && ValidNfa(a, f2)
    requires a[f1.accept].isFinal && a[f2.accept].isFinal
    ensures Match(Union(a, f1, f2).0, Union(a, f1, f2).1, text) <==> Match(a, f1, text) || Match(a, f2, text)
  {
    var r := Union(a, f1, f2);
    UnionHasShape(a, f1, f2);
    ShapeMatches(a, r.0, f1, f2, text);
    BothStarts(a, f1, f2);
    WalkUnion(a, StartFrontier(a, f1), StartFrontier(a, f2), text);
    HasFinalUnion(a, Walk(a, StartFrontier(a, f1), text), Walk(a, StartFrontier(a, f2), text));
  }

  /** Alternation is commutative: `a|b` and `b|a` match the same texts. */
  lemma UnionCommutes(a: Arena, f1: Nfa, f2: Nfa, text: string)
    requires ValidNfa(a, f1) && ValidNfa(a, f2)
    requires a[f1.accept].isFinal && a[f2.accept].isFinal
    ensures Match(Union(a, f1, f2).0, Union(a, f1, f2).1, text) <==>
            Match(Union(a, f2, f1).0, Union(a, f2, f1).1, text)
  {
    UnionMatches(a, f1, f2, text);
    UnionMatches(a, f2, f1, text);
  }
}

=== FILE: wrappers.dfy ===
/** Failure-compatible wrappers shared by the automata models. */
module Wrappers {

  /** An optional value; `None` also stands for the epsilon label of an NFA edge. */
  datatype Option<+T> = None | Some(value: T) {
    predicate IsFailure() {
      None?
    }

    function PropagateFailure<U>(): Option<U>
      requires None?
    {
      None
    }

    function Extract(): T
      requires Some?
    {
      value
    }
  }

  /** Either a value or the error a Python routine would have raised. */
  datatype Result<+R, +E> = Success(value: R) | Failure(error: E) {
    predicate IsFailure() {
      Failure?
    }

    function PropagateFailure<U>(): Result<U, E>
      requires Failure?
    {
      Failure(error)
    }

    function Extract(): R
      requires Success?
    {
      value
    }
  }
}
